=== FILE: README.md ===
# VALX core, modelled in Dafny

VALX is a thin C++ facade over Vulkan. Nearly everything it does ends in a
driver or library call, but a handful of places make real decisions on plain
data, and this project models those places and proves what they promise:

- **Vulkan context** (`VulkanContext`): the greedy pass that gives queue
  families the main, compute and transfer roles; the queue create infos;
  the borrowing of extra queues from the main family; the choice of the
  physical device; the instance extension and layer lists; the routing of
  validation messages; the creation and destruction order of the context's
  driver objects.
- **Shader** (`VulkanShader`): the pipeline layout derived from the
  reflection of each stage. Bindings are merged per (set, binding), grouped
  per set, and one push-constant range is built.
- **Texture loader** (`TextureLoader`): choosing the decoder by file
  extension, and cutting the six faces of a cube texture out of a 4x3
  cross atlas, row by row with a vertical flip.
- **Swapchain** (`VulkanSwapChain`): present mode, image count, surface
  format and extent selection, and the order in which the new swapchain is
  created and the old one destroyed.
- **Small tables**:
  - `Formats`: the per-pixel byte size of every format;
  - `Utilities`: the mip-level count and the bit-flag operators;
  - `VulkanFormat`, `VulkanTexture`, `VulkanBuffer` and `VulkanSampler`:
    the translations to Vulkan and the create infos built from them.
- **Process-wide registries** (`Context`, `Logger`): the current context
  and the current logger with its console fallback, plus the console line
  formats.

Driver queries are replaced by their answers, given as input: queue
families, physical devices, present modes, surface formats, capabilities,
and per-stage reflection. Native handles are natural numbers, with 0 as the
null handle. A failed `VALX_ASSERT` becomes a `Fail(message)` result, so
every error path is an outcome the contracts describe.

Code that changes state step by step keeps its imperative form:

- methods with loops: `GetMipLevelCount`, `CollectDeviceQueues`,
  `ExtractCubemapFace` over an `array`, the cube conversion loops,
  `GenerateLayoutFromReflection`, and the surface-format scan;
- classes whose methods update fields: the registries, the swapchain, the
  context, and the texture, buffer, sampler and shader objects.

Each such method is proved against a specification function, and the
lemmas beside that function state what the source promises.

The static registries of `api/Context.cpp` and `api/Logger.cpp` are
objects the caller passes around, so that their state can be named in
contracts. `api/Format.h` declares only eight formats while
`api/Format.cpp` switches on 147, so `Formats.Format` is the enumeration
those case labels make up, numbered in Vulkan's order.

## Model

| member | source | states |
|---|---|---|
| Context.ContextRegistry.constructor | api/Context.cpp:5 | The current context starts out null. |
| Context.ContextRegistry.SetCurrentContext | api/Context.cpp:7-12 | Returns the previously registered context; afterwards the registered context is the argument. |
| Context.ContextRegistry.GetCurrentContext | api/Context.cpp:14-17 | Returns the registered context, or null if none. |
| Context.ContextRegistry.SetTwice | api/Context.cpp:7-17 | The last writer wins, and a second set returns the first set's argument. |
| Context.ContextRegistry.SetAndRestore | api/Context.cpp:7-17 | Setting a context, then setting back the value the first call returned, restores the registry. |
| Logger.ConsoleLine | api/Logger.cpp:23-36 | A console line is `[` + tag + ` ` + who + `]: ` + message: its length, prefix, the `who` part and the suffix. |
| Logger.SeverityRoundTrip | api/Logger.cpp:23-36 | The severity can be read back from the console line alone. |
| Logger.ConsoleLogger.constructor | api/Logger.cpp:7 | The console stream starts with no lines written. |
| Logger.ConsoleLogger.LogError | api/Logger.cpp:23-26 | Appends exactly the `[ERROR who]: message` line. |
| Logger.ConsoleLogger.LogWarning | api/Logger.cpp:28-31 | Appends exactly the `[WARNING who]: message` line. |
| Logger.ConsoleLogger.LogInfo | api/Logger.cpp:33-36 | Appends exactly the `[INFO who]: message` line. |
| Logger.LoggerRegistry.constructor | api/Logger.cpp:7-9 | The registered logger starts out null, next to the non-null console logger. |
| Logger.LoggerRegistry.SetCurrentLogger | api/Logger.cpp:11-16 | Returns the previous logger, which may be null; afterwards the argument is registered. |
| Logger.LoggerRegistry.GetCurrentLogger | api/Logger.cpp:18-21 | Returns the registered logger if it is non-null, else the console logger; never null. |
| Logger.LoggerRegistry.Unregister | api/Logger.cpp:11-21 | After setting null, the current logger is the console logger again. |
| Utilities.GetMipLevelCount | api/Utilities.h:10-16 | The shifting loop returns 1 for size 0; for size > 0 it returns the number of binary digits, with 2^(count-1) <= size < 2^count; the result is always in [1, 32]. |
| Utilities.MipLevelsBounds | api/Utilities.h:12-15 | For size >= 1 the mip count is floor(log2 size) + 1. |
| Utilities.MipLevelsOfPow2 | api/Utilities.h:12-15 | The mip count of 2^k is k + 1. |
| Utilities.MipLevelsOfU32 | api/Utilities.h:10-16 | The mip count of any 32-bit size lies in [1, 32]. |
| Utilities.Pow2Monotone | api/Utilities.h:12-15 | Powers of two grow with the exponent (used by the bounds above). |
| Utilities.Pow2Of32 | api/Utilities.h:10 | 2^32 is the first value past `uint32_t`. |
| Utilities.AndBit | api/Utilities.h:23-26 | Bit i of a & b is set iff it is set in both. |
| Utilities.OrBit | api/Utilities.h:27-30 | Bit i of a \| b is set iff it is set in either. |
| Utilities.FlagAnd | api/Utilities.h:23-26 | The generated `&` is bitwise AND, bit by bit. |
| Utilities.FlagOr | api/Utilities.h:27-30 | The generated `\|` is bitwise OR, bit by bit. |
| Utilities.FlagVariable.constructor | api/Utilities.h:31-38 | The flag variable holds its initial value. |
| Utilities.FlagVariable.AndAssign | api/Utilities.h:31-34 | `&=` stores the AND of old value and operand and returns the stored value. |
| Utilities.FlagVariable.OrAssign | api/Utilities.h:35-38 | `\|=` stores the OR of old value and operand and returns the stored value. |
| Formats.GetPixelByteSizeAsWritten | api/Format.cpp:6-322 | The switch as written: UNKNOWN is 0, compressed formats fail "compressed format", unlisted values fail "invalid format", and every other listed format has a size in [1, 32]. The two breaking arms are excluded by precondition. |
| Formats.BreakingArms | api/Format.cpp:290-302 | The arms that `break` without returning are exactly BC3_UNORM_BLOCK and BC5_UNORM_BLOCK, while their siblings assert. |
| Formats.GetPixelByteSize | api/Format.cpp:6-322 | Agrees with the as-written switch wherever that switch returns, and treats the two breaking arms like the other compressed formats; total. |
| Formats.KnownPixelSizes | api/Format.cpp:84-271 | RGBA8 is 4 bytes, RGBA16F is 8, RGBA32 is 16, and D16S8, D24S8 and D32S8 are 3, 4 and 5. |
| VulkanFormat.ConvertFormatVulkan | backend/vulkan/VulkanFormat.cpp:6-30 | Succeeds iff the format is one of the eight declared ones, mapping it to the VkFormat of the same name (UNKNOWN to UNDEFINED); anything else fails "invalid format". |
| VulkanFormat.ConvertFormatVulkanInjective | backend/vulkan/VulkanFormat.cpp:10-25 | Distinct declared formats give distinct VkFormats. |
| VulkanContext.RoleTests | backend/vulkan/VulkanContext.cpp:74-102 | A family that passes the compute test also passes the main test (graphics OR compute); a transfer family passes neither. |
| VulkanContext.ScanMainRole | backend/vulkan/VulkanContext.cpp:71-86 | The main role goes to the first family whose flags meet GRAPHICS\|COMPUTE, with min(4, queueCount) queues; without one, it stays unset. |
| VulkanContext.ScanComputeRole | backend/vulkan/VulkanContext.cpp:71-100 | The compute role goes to the first family, other than main, with COMPUTE and without GRAPHICS, with exactly 1 queue. |
| VulkanContext.ScanTransferRole | backend/vulkan/VulkanContext.cpp:71-116 | The transfer role goes to the first family with TRANSFER and neither GRAPHICS nor COMPUTE, with all of its queues. |
| VulkanContext.ScanRolesDisjoint | backend/vulkan/VulkanContext.cpp:71-116 | No family gets two roles; a compute family implies a main family. |
| VulkanContext.CollectDeviceQueues | backend/vulkan/VulkanContext.cpp:58-120 | The loop computes the scan's result; it fails "cannot find main queue" exactly when the main role ends with no queues, the condition the assertion at line 118 checks; on success the main family is the first qualifying one with min(4, count) queues. |
| VulkanContext.QueueCreateInfos | backend/vulkan/VulkanContext.cpp:188-194 | Lists only roles with count > 0, in the order main, compute, transfer: main first, compute right after main (or first without main), transfer last. |
| VulkanContext.CollectedQueuesValid | backend/vulkan/VulkanContext.cpp:58-194 | With a main family, the create infos are non-empty, name existing families with no more queues than they have, and never name a family twice. |
| VulkanContext.QueuesOfFamily | backend/vulkan/VulkanContext.cpp:248-266 | The queues fetched from one family are consecutive indices starting at `first`. |
| VulkanContext.FetchQueues | backend/vulkan/VulkanContext.cpp:247-266 | The fetch loop yields exactly those queues. |
| VulkanContext.SelectedQueuesRequested | backend/vulkan/VulkanContext.cpp:234-267 | Main is queue 0 of its family. Compute exists iff there is a compute family or main has > 1 queue. With a compute family it is that family's queue 0; without one it is main queue 1, recorded under the main family. Transfer is queues 0 .. count-1 of the transfer family when there is one, recorded under that family; else, without a transfer family, exactly the main queues 2 .. mainCount-1, recorded under the main family, else none. Every queue held was requested, and none is held twice. |
| VulkanContext.RetrieveQueues | backend/vulkan/VulkanContext.cpp:233-267 | The queue-selection block computes exactly that selection. |
| VulkanContext.ConvertDeviceTypeVulkan | backend/vulkan/VulkanContext.cpp:424-442 | CPU gives 4, DISCRETE_GPU 2, INTEGRATED_GPU 1, VIRTUAL_GPU 3 and ANY gives OTHER (0), each value only from its own type. |
| VulkanContext.ConvertDeviceTypeVulkanInjective | backend/vulkan/VulkanContext.cpp:424-442 | Distinct device types map to distinct Vulkan types. |
| VulkanContext.LastSuitable | backend/vulkan/VulkanContext.cpp:166-182 | The selected index, if any, is a device of the list. |
| VulkanContext.LastSuitableIsLast | backend/vulkan/VulkanContext.cpp:166-183 | The selected device is suitable (apiVersion >= requested, and type ANY or equal), and no later device is; with none selected, no device is suitable. |
| VulkanContext.LastSuitableStep | backend/vulkan/VulkanContext.cpp:166-182 | One loop step: a suitable device overrides the earlier choice. |
| VulkanContext.SelectPhysicalDevice | backend/vulkan/VulkanContext.cpp:166-183 | The loop leaves the last suitable device and its properties in place, or the null handle if there is none. |
| VulkanContext.ApiVersionRoundTrip | backend/vulkan/VulkanContext.cpp:127 | The major and minor numbers packed by VK_MAKE_API_VERSION read back unchanged. |
| VulkanContext.InstanceExtensions | backend/vulkan/VulkanContext.cpp:133-141 | The requested extensions, in order, followed by the debug-utils extension iff validation is on. |
| VulkanContext.InstanceLayers | backend/vulkan/VulkanContext.cpp:143-147 | The validation layer is listed iff validation is on, and nothing else. |
| VulkanContext.ValidationMessageLevel | backend/vulkan/VulkanContext.cpp:33-44 | ERROR wins over WARNING, and WARNING over INFO; a message with none of the three bits is not logged. |
| VulkanContext.DebugUtilsMessengerCallback | backend/vulkan/VulkanContext.cpp:27-46 | Logs exactly one line at the routed level under "Vulkan Validation" (or none), and never aborts the call. |
| VulkanContext.AppendCall | backend/vulkan/VulkanContext.cpp:122-322 | One more driver call adds its creations and destructions to the log's. |
| VulkanContext.AppendCalls | backend/vulkan/VulkanContext.cpp:122-322 | Creations and destructions of a concatenated call log concatenate. |
| VulkanContext.SetupCreates | backend/vulkan/VulkanContext.cpp:122-306 | Construction creates the instance, device, messenger (iff validation), allocator and compiler, in that order, and destroys nothing. |
| VulkanContext.TeardownDestroys | backend/vulkan/VulkanContext.cpp:308-322 | The destructor finalizes the compiler, then destroys the allocator, the messenger (only if non-null), the device and the instance; it creates nothing. |
| VulkanContext.ReverseSetupOrder | backend/vulkan/VulkanContext.cpp:122-322 | Teardown order is exactly setup order reversed. |
| VulkanContext.VulkanContext.Create | backend/vulkan/VulkanContext.cpp:122-306 | Fails exactly when no device is suitable or the selected device's main role has no queues. The message is "no suitable physical device" exactly in the first case, and "cannot find main queue" otherwise; otherwise it is the fully constructed context. |
| VulkanContext.VulkanContext.WithDevice | backend/vulkan/VulkanContext.cpp:122-306 | Stores the API version, instance, device and properties, the queue selection, and the setup call log. |
| VulkanContext.VulkanContext.Destroy | backend/vulkan/VulkanContext.cpp:308-322 | Appends the teardown calls; afterwards everything created has been destroyed, in reverse order. |
| VulkanContext.ConstructedIsDestroyable | backend/vulkan/VulkanContext.cpp:122-322 | A constructed context meets the destructor's precondition. |
| VulkanShader.ConvertShaderStageVulkan | backend/vulkan/VulkanShader.cpp:201-221 | VERTEX gives 0x01, TESSELLATION_CONTROL 0x02, TESSELLATION_EVALUATION 0x04, GEOMETRY 0x08, FRAGMENT 0x10 and COMPUTE 0x20, each bit only from its own stage; each result is a single bit among the six. |
| VulkanShader.ConvertShaderStageInjective | backend/vulkan/VulkanShader.cpp:201-221 | Stages map to equal bits iff they are equal. |
| VulkanShader.StageRecords | backend/vulkan/VulkanShader.cpp:72-78 | One tagged record per reflected binding of the stage. |
| VulkanShader.RecordsStep | backend/vulkan/VulkanShader.cpp:62-72 | The record list of one more stage is the old list plus that stage's records. |
| VulkanShader.RecordsPrefix | backend/vulkan/VulkanShader.cpp:62-72 | The records of the first i stages are a prefix of all records. |
| VulkanShader.MergeAllStep | backend/vulkan/VulkanShader.cpp:74-93 | Merging one more record extends a successful merge; a failed merge stays failed. |
| VulkanShader.MergeAllCorrect | backend/vulkan/VulkanShader.cpp:74-93 | The merge succeeds iff all records with the same (set, binding) agree on count and type. Its map then has exactly the keys seen, with the first record's fields and the OR of all stage flags for each key. |
| VulkanShader.KeyMaskBits | backend/vulkan/VulkanShader.cpp:78-92 | A stage bit is set in a key's merged mask iff some record of that key carries it. |
| VulkanShader.KeyMaskAbsent | backend/vulkan/VulkanShader.cpp:83-86 | A key never seen has an empty mask. |
| VulkanShader.StoredCorrect | backend/vulkan/VulkanShader.cpp:83-93 | Storing a compatible record, new or repeated, keeps the merged map faithful to the records so far. |
| VulkanShader.CompatiblePrefix | backend/vulkan/VulkanShader.cpp:87-93 | Compatibility of the records carries to each prefix. |
| VulkanShader.MaxSet | backend/vulkan/VulkanShader.cpp:58-80 | The largest set index stays below 2^32 - 1, so `maxSet + 1` fits. |
| VulkanShader.MaxSetIsMax | backend/vulkan/VulkanShader.cpp:58-80 | It bounds every record's set index and is either 0 or some record's set index. |
| VulkanShader.MaxSetStep | backend/vulkan/VulkanShader.cpp:80 | One more record updates it by `std::max`. |
| VulkanShader.MergeBinding | backend/vulkan/VulkanShader.cpp:74-93 | One binding merged into the map: the specification's step, failing only on a count or type mismatch. |
| VulkanShader.MergeStage | backend/vulkan/VulkanShader.cpp:72-94 | The binding loop of one stage merges all its records and keeps the maximum set index. |
| VulkanShader.MergeFailsOnward | backend/vulkan/VulkanShader.cpp:87-91 | Once a merge has failed, later records do not change the outcome. |
| VulkanShader.MergeFailsLater | backend/vulkan/VulkanShader.cpp:87-91 | A merge failure in an early stage makes the whole reflection fail. |
| VulkanShader.BlockSumIsSum | backend/vulkan/VulkanShader.cpp:101-105 | A stage's push-constant size is the sum of its padded block sizes, modulo 2^32. |
| VulkanShader.PushConstantSize | backend/vulkan/VulkanShader.cpp:101-105 | The summing loop computes that sum. |
| VulkanShader.StageSizes | backend/vulkan/VulkanShader.cpp:101-105 | One push-constant size per stage. |
| VulkanShader.PushFoldStep | backend/vulkan/VulkanShader.cpp:106-107 | One more stage: with the maximum at 0 or equal to the new size, the maximum is updated; otherwise the assertion fails, zero sizes included. |
| VulkanShader.PushFoldCorrect | backend/vulkan/VulkanShader.cpp:106-107 | The fold succeeds iff the sizes are consistent: once a non-zero size is seen, every later size equals it, zero included. On success every size is 0 or the result, and a non-zero result is some stage's size. |
| VulkanShader.PushFailsLater | backend/vulkan/VulkanShader.cpp:106 | A push-constant mismatch in an early stage makes the whole reflection fail. |
| VulkanShader.StageMaskBits | backend/vulkan/VulkanShader.cpp:108 | The push-constant stage mask has exactly the bits of every stage, whether or not the stage has push constants. |
| VulkanShader.StageMaskStep | backend/vulkan/VulkanShader.cpp:108 | Each stage ORs its bit into the mask. |
| VulkanShader.ReflectionSucceedsIff | backend/vulkan/VulkanShader.cpp:89-106 | Reflection gets past its assertions iff the bindings are compatible and the push-constant sizes consistent. |
| VulkanShader.GroupBySet | backend/vulkan/VulkanShader.cpp:113-117 | Every merged binding lands in exactly its own set's list, once; sets without bindings get an empty list. |
| VulkanShader.GroupingStep | backend/vulkan/VulkanShader.cpp:114-117 | Appending one map entry to its set's list keeps the grouping invariant. |
| VulkanShader.GroupingDefined | backend/vulkan/VulkanShader.cpp:113-116 | Every merged key's set index is below maxSet + 1, so its list exists. |
| VulkanShader.GenerateLayoutFromReflection | backend/vulkan/VulkanShader.cpp:55-136 | Succeeds iff reflection succeeds. On failure the message is the condition text of the count, type or push-constant assertion, which is what the asserts report. On success: maxSet + 1 per-set lists grouped from the merged bindings, and a push-constant range at offset 0 with the OR of all stage bits and the maximum size. |
| VulkanShader.PipelineLayoutInfo | backend/vulkan/VulkanShader.cpp:155-160 | The pipeline layout uses the set layouts and includes the push-constant range iff its size is > 0. |
| VulkanShader.ConvertStages | backend/vulkan/VulkanShader.cpp:140-151 | Each stage module is tagged with its converted stage bit, in order. |
| VulkanShader.VulkanShader.Create | backend/vulkan/VulkanShader.cpp:138-173 | Fails iff reflection fails, with the condition text of one of the three assertions; otherwise stores the name, stage bits, set layouts and pipeline layout of the derived reflection. |
| VulkanShader.VulkanShader.WithLayout | backend/vulkan/VulkanShader.cpp:153-163 | Stores the name, stage bits, pipeline layout and set layouts. |
| TextureLoader.FileNameIsLastComponent | api/TextureLoader.cpp:15-20 | The file name is the longest '/'-free suffix of the path. |
| TextureLoader.LastDot | api/TextureLoader.cpp:15-20 | The position found is a '.' with no '.' after it, or the name has no '.'. |
| TextureLoader.Extension | api/TextureLoader.cpp:15-20 | The extension is empty, or a suffix of the path that starts with its only '.' and has no '/'. |
| TextureLoader.FileNameAppend | api/TextureLoader.cpp:15-20 | Appending '/'-free text to a path appends it to the file name. |
| TextureLoader.LastDotAppend | api/TextureLoader.cpp:15-20 | A name ending in an extension has its last dot where the extension starts. |
| TextureLoader.FileNameNonEmpty | api/TextureLoader.cpp:15-20 | A path not ending in '/' has a non-empty file name. |
| TextureLoader.ExtensionFromName | api/TextureLoader.cpp:15-20 | A file name stem + ext with a non-empty stem has extension ext. |
| TextureLoader.ExtensionOfName | api/TextureLoader.cpp:15-20 | A path base + ext, with base not ending in '/', has extension ext. |
| TextureLoader.ExtensionOfHiddenName | api/TextureLoader.cpp:15-20 | A file name that is nothing but an extension, such as `.dds`, is a stem with no extension. |
| TextureLoader.LoaderFor | api/TextureLoader.cpp:388-396 | DDS loader iff the extension is ".dds", zlib loader iff ".zlib", stb_image otherwise. |
| TextureLoader.LoaderForExtension | api/TextureLoader.cpp:388-396 | For a path base + ext: ".dds" selects DDS, ".zlib" selects zlib, every other extension stb_image. |
| TextureLoader.ConvertTextureType | api/TextureLoader.cpp:23-31 | The cubemap flag gives CUBE; otherwise a 3D dimension gives 3D; everything else is 2D. |
| TextureLoader.RowStarts | api/TextureLoader.cpp:377-383 | One source offset per face row. |
| TextureLoader.FirstRowDecides | api/TextureLoader.cpp:373-384 | All copies stay in bounds iff the rows fit in `bytes.size()/6` and face row 0, which reads the highest atlas offset, fits in the atlas. |
| TextureLoader.Face | api/TextureLoader.cpp:373 | A face buffer is `bytes.size()/6` bytes long. |
| TextureLoader.FaceLayout | api/TextureLoader.cpp:377-384 | Byte c of face row i is byte c of the atlas row at the flipped offset. |
| TextureLoader.FaceTail | api/TextureLoader.cpp:373-384 | Bytes past `faceHeight*faceWidth*pixelSize` are never written and stay zero. |
| TextureLoader.FacePixel | api/TextureLoader.cpp:375-383 | Pixel (x, y) of the face is atlas pixel (sliceX*w + x, sliceY*h + h-1-y), the atlas being 4*w pixels wide. |
| TextureLoader.SourceIsRowOffset | api/TextureLoader.cpp:379-383 | The source's `(y*sourceWidth + x)*pixelSize` is the flipped row offset. |
| TextureLoader.PixelSize | api/TextureLoader.cpp:374 | The pixel size used is GetPixelByteSize's whenever that succeeds, and at most 32. |
| TextureLoader.ExtractCubemapFace | api/TextureLoader.cpp:371-386 | Fails iff the format has no pixel size, with its message. Otherwise the buffer of `bytes.size()/6` bytes holds the face rows, flipped, followed by zeros. |
| TextureLoader.CopyFaceRow | api/TextureLoader.cpp:379-383 | One loop iteration adds face row i to the copied prefix. |
| TextureLoader.Memcpy | api/TextureLoader.cpp:383 | Overwrites exactly `count` bytes at the destination offset with the source bytes. |
| TextureLoader.Copied | api/TextureLoader.cpp:373-384 | The buffer after k iterations keeps the buffer's length. |
| TextureLoader.CopiedRows | api/TextureLoader.cpp:377-384 | After k iterations the buffer is the first k rows followed by zeros. |
| TextureLoader.CopiedIsFace | api/TextureLoader.cpp:371-386 | After all iterations the buffer is the face. |
| TextureLoader.CopiedNext | api/TextureLoader.cpp:383 | One more iteration overwrites exactly row k's bytes. |
| TextureLoader.CopiedAll | api/TextureLoader.cpp:377-385 | After the last row, the buffer is all rows followed by zeros. |
| TextureLoader.RowsLength | api/TextureLoader.cpp:381-383 | k copied rows of n bytes make k*n bytes. |
| TextureLoader.RowsAt | api/TextureLoader.cpp:383 | Byte i*n + c of the rows is byte c of row i's source. |
| TextureLoader.RowsStep | api/TextureLoader.cpp:383 | Writing row k over the zeros extends rows-then-zeros by one row. |
| TextureLoader.MipExtent | api/TextureLoader.cpp:425-426 | `max(size / 2^mip, 1)` is at least 1 and at most the size. |
| TextureLoader.CellFaces | api/TextureLoader.cpp:428-433 | Six faces per atlas mip. |
| TextureLoader.CellFace | api/TextureLoader.cpp:428-433 | Face k comes from cell (2,1), (0,1), (1,2), (1,0), (1,1), (3,1) for k = 0..5. |
| TextureLoader.CubeFaces | api/TextureLoader.cpp:424-433 | Six faces cut from mip m of atlas layer l. |
| TextureLoader.CubeFaceCell | api/TextureLoader.cpp:425-433 | Face k of mip m is cut from its cell at the mip's face size `max(W/4 >> m, 1)` x `max(H/3 >> m, 1)`. |
| TextureLoader.MipCells | api/TextureLoader.cpp:424-433 | All six cells of every readable atlas mip can be cut. |
| TextureLoader.PartialLayer | api/TextureLoader.cpp:413-433 | An output layer always has exactly MipCount mip entries. |
| TextureLoader.PartialLayerMip | api/TextureLoader.cpp:428-433 | Mip m of output layer j, once assigned, is face j%6 of mip m of atlas layer j/6. |
| TextureLoader.CubeMapShape | api/TextureLoader.cpp:398-438 | Fails iff the input is not 2D, W/4 != H/3, or a compressed atlas has to be cut. On success: a CUBE texture of W/4 x H/3 faces, 6x the layers, the same depth, mips, format and path, every layer with MipCount mips. |
| TextureLoader.CubeMapFace | api/TextureLoader.cpp:422-433 | Mip m of output layer 6l+k is face k cut from mip m of atlas layer l. |
| TextureLoader.CubeMapLayer | api/TextureLoader.cpp:413-435 | Output layer j of the conversion is its fully assigned layer. |
| TextureLoader.SetMip | api/TextureLoader.cpp:428-433 | Assigning one mip changes that mip only. |
| TextureLoader.StoreFaces | api/TextureLoader.cpp:428-433 | The six assignments change mip `mip` of layers 6l..6l+5 and nothing else. |
| TextureLoader.StoreMip | api/TextureLoader.cpp:422-433 | Storing the six faces of a mip advances those six layers by one assigned mip. |
| TextureLoader.ResizeLayers | api/TextureLoader.cpp:416-419 | The resize gives layers 6l..6l+5 MipCount empty mips and leaves the others alone. |
| TextureLoader.CutFaces | api/TextureLoader.cpp:424-433 | The six ExtractCubemapFace calls of one mip give the six cube faces, or fail with the pixel-size message. |
| TextureLoader.ConvertLayer | api/TextureLoader.cpp:414-434 | One outer iteration fills layers 6l..6l+5 completely and leaves the later ones untouched, failing only on a compressed atlas with at least one mip. |
| TextureLoader.Convert2DTextureToCubeMap | api/TextureLoader.cpp:398-438 | The conversion returns exactly the reference cube texture, or its failure. |
| VulkanSwapChain.LiveAppend | backend/vulkan/VulkanSwapChain.cpp:77-81 | A create adds a live swapchain, and a destroy removes it. |
| VulkanSwapChain.ReplaceLeavesOneLive | backend/vulkan/VulkanSwapChain.cpp:75-81 | Creating the new swapchain first, then destroying the old one if it is non-null, leaves exactly the new swapchain live; both are live in between. |
| VulkanSwapChain.LastPreferred | backend/vulkan/VulkanSwapChain.cpp:48-52 | The index found, if any, is inside the list. |
| VulkanSwapChain.LastPreferredIsLast | backend/vulkan/VulkanSwapChain.cpp:48-52 | It is the last R8G8B8A8_UNORM or B8G8R8A8_UNORM format, or there is none. |
| VulkanSwapChain.LastPreferredStep | backend/vulkan/VulkanSwapChain.cpp:48-52 | One loop step: a preferred format overrides the earlier choice. |
| VulkanSwapChain.SelectSurfaceFormat | backend/vulkan/VulkanSwapChain.cpp:47-52 | The loop leaves the chosen format. |
| VulkanSwapChain.ChosenFormatIsLastPreferred | backend/vulkan/VulkanSwapChain.cpp:47-52 | The chosen format is offered; it is preferred iff some offered format is; if preferred, no later format is; otherwise it is the first format. |
| VulkanSwapChain.ImageCount | backend/vulkan/VulkanSwapChain.cpp:44 | maxImageCount if that is > 0 (else 4), so always at least 1. |
| VulkanSwapChain.Max1 | backend/vulkan/VulkanSwapChain.cpp:59 | `std::max(x, 1u)` is at least 1 and x, and equals x when x >= 1. |
| VulkanSwapChain.ChosenExtent | backend/vulkan/VulkanSwapChain.cpp:54-59 | The requested size, unless both max dimensions are defined, in which case exactly maxImageExtent; each component floored at 1. |
| VulkanSwapChain.ExtentIgnoresRequest | backend/vulkan/VulkanSwapChain.cpp:54-58 | With a defined maxImageExtent, the request does not matter: it is replaced, not clamped. |
| VulkanSwapChain.VulkanSwapChain.constructor | backend/vulkan/VulkanSwapChain.cpp:9-13 | Stores the surface and recreates with the surface's size from a null swapchain: one create call, no destroy. |
| VulkanSwapChain.VulkanSwapChain.Recreate | backend/vulkan/VulkanSwapChain.cpp:22-87 | MAILBOX iff offered, else IMMEDIATE; the chosen format and extent; the new swapchain created with the old handle as oldSwapchain, then the old one destroyed if non-null; the new image list. Exactly one swapchain stays live. |
| VulkanSwapChain.VulkanSwapChain.Destroy | backend/vulkan/VulkanSwapChain.cpp:15-20 | Destroys the current swapchain, leaving none live. |
| VulkanTexture.GetImageCreateFlags | backend/vulkan/VulkanTexture.cpp:12-21 | 2D_ARRAY_COMPATIBLE iff Layers > 1, CUBE_COMPATIBLE iff the type is CUBE, and no other bit. |
| VulkanTexture.ConvertTextureTypeVulkan | backend/vulkan/VulkanTexture.cpp:82-96 | CUBE and 2D map to image type 2D, and 3D to 3D. |
| VulkanTexture.ConvertSampleCountVulkan | backend/vulkan/VulkanTexture.cpp:98-120 | SAMPLES_n maps to the single bit of value n. |
| VulkanTexture.ConvertSampleCountVulkanInjective | backend/vulkan/VulkanTexture.cpp:98-120 | The seven sample counts map one-to-one. |
| VulkanTexture.ConvertTextureFlags | backend/vulkan/VulkanTexture.cpp:122-139 | Each of the six texture flags becomes the usage bit at the same position; other bits are dropped. |
| VulkanTexture.ConvertTextureFlagsDistributes | backend/vulkan/VulkanTexture.cpp:122-139 | NONE gives 0, each flag gives its own usage bit, and the translation distributes over `\|`. |
| VulkanTexture.Max3 | backend/vulkan/VulkanTexture.cpp:44 | `std::max({W, H, D})` is one of the three and bounds all of them. |
| VulkanTexture.BuildImageCreateInfo | backend/vulkan/VulkanTexture.cpp:25-48 | Fails when a CUBE lacks Depth 1 and Layers % 6 == 0, when a 3D texture has Layers != 1, or when the format has no Vulkan value; a shape failure carries the text of the asserted condition. Otherwise every field as the constructor fills it: mipLevels is GetMipLevelCount(max(W, H, D)) in [1, 32] for ALL_MIPS, else Mips. |
| VulkanTexture.ImageCreateInfoOf | backend/vulkan/VulkanTexture.cpp:35-48 | The create info of a texture whose format translates: the format's Vulkan value, and the full mip chain (1 to 32 levels) for ALL_MIPS, else Mips. |
| VulkanTexture.VulkanTexture.Create | backend/vulkan/VulkanTexture.cpp:23-64 | Fails exactly as the create info does; otherwise stores the info, image and allocation, and the image's create info is ImageCreateInfoOf(info), every field included. |
| VulkanTexture.VulkanTexture.WithImage | backend/vulkan/VulkanTexture.cpp:53-54 | Stores the info, image and allocation. |
| VulkanBuffer.ConvertBufferFlags | backend/vulkan/VulkanBuffer.cpp:49-68 | The copy flags keep their bits; the five others move two places up, past the texel-buffer usages; other bits are dropped. |
| VulkanBuffer.ConvertBufferFlagsDistributes | backend/vulkan/VulkanBuffer.cpp:49-68 | NONE gives 0, each of the seven flags gives its own usage bit, and the translation of a\|b is the OR of the translations. |
| VulkanBuffer.ConvertBufferMemory | backend/vulkan/VulkanBuffer.cpp:70-88 | GPU_ONLY gives VMA GPU_ONLY (1), CPU_ONLY gives CPU_ONLY (2), FROM_CPU_TO_GPU gives CPU_TO_GPU (3), FROM_GPU_TO_CPU gives GPU_TO_CPU (4) and CPU_AS_BACKUP gives CPU_COPY (5), each value only from its own kind. |
| VulkanBuffer.ConvertBufferMemoryInjective | backend/vulkan/VulkanBuffer.cpp:70-88 | The five memory kinds map one-to-one. |
| VulkanBuffer.VulkanBuffer.constructor | backend/vulkan/VulkanBuffer.cpp:9-36 | GetInfo returns exactly the info passed in; the buffer is created exclusive, with the given size, translated usage and memory kind. |
| VulkanSampler.ConvertFilter | backend/vulkan/VulkanSampler.cpp:9-21 | NEAREST to NEAREST, LINEAR to LINEAR. |
| VulkanSampler.ConvertMipMapFilter | backend/vulkan/VulkanSampler.cpp:23-35 | NEAREST to mipmap mode NEAREST, LINEAR to LINEAR. |
| VulkanSampler.ConvertAddressMode | backend/vulkan/VulkanSampler.cpp:37-53 | REPEAT gives 0, MIRRORED_REPEAT 1, CLAMP_TO_EDGE 2 and CLAMP_TO_BORDER 3, each value only from its own mode. |
| VulkanSampler.ConvertCompareOp | backend/vulkan/VulkanSampler.cpp:55-79 | NEVER, LESS, EQUAL, LESS_OR_EQUAL, GREATER, NOT_EQUAL, GREATER_OR_EQUAL and ALWAYS give 0 to 7 in that order, each value only from its own comparison. |
| VulkanSampler.ConvertBorderColor | backend/vulkan/VulkanSampler.cpp:81-101 | The six border colours give 0 to 5 in declaration order (FLOAT_TRANSPARENT_BLACK 0 through INT_OPAQUE_WHITE 5), each value only from its own colour. |
| VulkanSampler.ConvertersInjective | backend/vulkan/VulkanSampler.cpp:37-101 | The address-mode (4), compare-op (8) and border-colour (6) tables are one-to-one. |
| VulkanSampler.SamplerCreateInfoOf | backend/vulkan/VulkanSampler.cpp:105-122 | compareEnable iff Compare != NEVER, compareOp translated even for NEVER, unnormalizedCoordinates false, each field translated or copied. |
| VulkanSampler.SamplerCreateInfoAxes | backend/vulkan/VulkanSampler.cpp:110-117 | U, V and W go through the same table: two axes get the same Vulkan mode iff they asked for the same mode; compare is enabled iff its Vulkan value is not NEVER. |
| VulkanSampler.VulkanSampler.constructor | backend/vulkan/VulkanSampler.cpp:103-139 | GetInfo returns exactly the info passed in, and the sampler is created from the filled-in create info. |

## Left out

- Driver, allocator, reflection and windowing calls (vkCreate*, vkDestroy*, vkGet*, vma*, spvReflect*, glfw*) are not modelled. Their answers are inputs and every call is taken to succeed, since `VALX_VK_SUCCESS` aborts otherwise. Handles are opaque naturals.
- `api/TextureLoader.cpp`'s decoders and file I/O are not modelled: `LoadImageUsingDDSLoader`, `ConvertZLIBToDDS` and `LoadImageUsingSTBLoader`. A decoded DDS file is reduced to the two facts `ConvertTextureType` reads. `ConvertDDSFormat` is a long lookup table, many of whose DXGI formats map to `UNKNOWN`; it is not modelled.
- `std::filesystem::path::extension` is modelled for '/'-separated paths only. Root names and backslash separators are not modelled.
- `backend/vulkan/VulkanShaderLoader.cpp` (glslang) is not part of this model. Neither are `VulkanCommandBuffer.cpp`, `api/Hash.h`, the `window/` directory or the demo. The binding map is keyed on (set, binding) directly, without hashing.
- Floats are kept as bit patterns and copied, never computed with: sampler LOD bias, anisotropy and LOD range, and queue priorities.
- Log output is not modelled: the `LogInfo` lines of constructors and destructors, and the fmt formatting beyond the three console line forms. Debug object names (`vkSetDebugUtilsObjectNameEXT`) are not modelled either.
- The static registries and the current-context lookup are explicit objects and parameters, not globals. The validation callback writes to the console logger passed to it, rather than looking up the current logger.
- `VulkanShader.GroupBySet`: the order of bindings within a set follows `std::unordered_map` iteration and is left unspecified. The contract states membership and uniqueness only.
- Closed-enum `default:` branches that assert are not modelled: the enum datatypes have no other values. `Formats.Format` is the exception, since it is an open integer range.
- `TextureLoader.ExtractCubemapFace`: the 32-bit wrap of the offset arithmetic is not modelled. Every copy is required to stay inside both buffers, because the source's `memcpy` is undefined otherwise.
- `TextureLoader.Convert2DTextureToCubeMap` requires that `6 * Layers` fits in 32 bits, that MipCount <= 32 (so `1 << mip` is defined), and that the atlas has the layers and mips it is read at.
- `VulkanSwapChain.VulkanSwapChain.Recreate` requires a non-empty format list, because `front()` on an empty vector is undefined. It also requires the driver to hand out a new handle different from the old one. Fields are stored after the choices are computed; the observable result is the same.
- Destructors of textures, buffers, samplers and shaders are not modelled. The swapchain and context destructors are modelled as `Destroy`.
- `VulkanShader.GenerateLayoutFromReflection` and `VulkanShader.VulkanShader.Create`: on failure the message is one of the three assertion texts. Which assertion trips first is not stated.
- `TextureLoader.Convert2DTextureToCubeMap`: for BC3_UNORM_BLOCK and BC5_UNORM_BLOCK atlases the source reaches the undefined behaviour of `GetPixelByteSize` (api/TextureLoader.cpp:374). The model uses the corrected `Formats.GetPixelByteSize`, so the conversion fails with "compressed format" there, as it does for the other block formats.
- `VulkanTexture.VulkanTexture.Create`: `allocationInfo` and the allocator's choice of memory are not modelled.
- `VulkanShader.MaxSet`: the contract gives only its 32-bit bound. What it computes is stated by `VulkanShader.MaxSetIsMax`.
- `VulkanShader.SetIndex`: a descriptor set index of 0xFFFFFFFF is excluded. There `maxSetIndex + 1` wraps to 0 in the source, and the grouping then indexes an empty vector, which is undefined.
- The asserts of `backend/vulkan/VulkanShader.cpp`, `backend/vulkan/VulkanTexture.cpp` and `api/TextureLoader.cpp` (lines 400 and 411) carry no message. Their failures are modelled with the text of the asserted condition, which is what `assert` reports.

## Findings

| source | as written | input that shows it | evidently intended | confidence | as-written member | corrected member |
|---|---|---|---|---|---|---|
| api/Format.cpp:290-291, 301-302 | The BC3_UNORM_BLOCK and BC5_UNORM_BLOCK arms `break` out of the switch, and the function then ends without returning a value, which is undefined behaviour. | `GetPixelByteSize(Format::BC3_UNORM_BLOCK)` | Assert "compressed format" and return 0, like the other fourteen block-compressed formats, including BC3_SRGB_BLOCK and BC5_SNORM_BLOCK. | high; not executed | Formats.GetPixelByteSizeAsWritten, Formats.BreakingArms | Formats.GetPixelByteSize |

=== FILE: context.dfy ===
/** api/Context.cpp: the process-wide "current context" slot.

    The source keeps the slot in a file-level static; the model keeps it in a
    registry object that the caller passes around, so that its state can be
    named in contracts. A context is identified by its address. */
module Context {
  import opened Utilities

  class ContextRegistry {
    /** The registered context; NULL_HANDLE until the first registration. */
    var currentContext: Handle

    /** The static starts out as nullptr. */
    constructor ()
      ensures currentContext == NULL_HANDLE
    {
      currentContext := NULL_HANDLE;
    }

    /** SetCurrentContext: registers `context` and hands back the context it
        replaced. */
    method SetCurrentContext(context: Handle) returns (oldContext: Handle)
      modifies this
      ensures oldContext == old(currentContext)
      ensures currentContext == context
    {
      oldContext := currentContext;
      currentContext := context;
    }

    /** GetCurrentContext: the last context registered, or null. */
    function GetCurrentContext(): (c: Handle)
      reads this
      ensures c == currentContext
    {
      currentContext
    }

    /** Two registrations in a row: the last writer wins, and the second call
        hands back the first call's argument. */
    method SetTwice(first: Handle, second: Handle) returns (r1: Handle, r2: Handle)
      modifies this
      ensures r1 == old(currentContext) && r2 == first
      ensures GetCurrentContext() == second
    {
      r1 := SetCurrentContext(first);
      r2 := SetCurrentContext(second);
    }

    /** Registering `context` for a scope and then registering the value the
        first call returned puts the registry back as it was. */
    method SetAndRestore(context: Handle) returns (seenInside: Handle)
      modifies this
      ensures seenInside == context
      ensures GetCurrentContext() == old(GetCurrentContext())
    {
      var previous := SetCurrentContext(context);
      seenInside := GetCurrentContext();
      var _ := SetCurrentContext(previous);
    }
  }
}

=== FILE: formats.dfy ===
/** api/Format.cpp: the per-pixel byte size of every pixel format.

    api/Format.h declares only eight enumerators, while the switch in
    Format.cpp names 147. The model's Format is the enumeration those case
    labels make up, numbered in the order they are listed (which is the
    order, and the numbering, of VkFormat). Like any C++ `enum class` over
    `int`, a Format can also hold a value that names no enumerator. */
module Formats {
  import opened Wrappers

  newtype Format = x: int | -0x8000_0000 <= x < 0x8000_0000

  const UNKNOWN: Format := 0
  const R4G4_UNORM_PACK8: Format := 1
  const R4G4B4A4_UNORM_PACK16: Format := 2
  const B4G4R4A4_UNORM_PACK16: Format := 3
  const R5G6B5_UNORM_PACK16: Format := 4
  const B5G6R5_UNORM_PACK16: Format := 5
  const R5G5B5A1_UNORM_PACK16: Format := 6
  const B5G5R5A1_UNORM_PACK16: Format := 7
  const A1R5G5B5_UNORM_PACK16: Format := 8
  const R8_UNORM: Format := 9
  const R8_SNORM: Format := 10
  const R8_USCALED: Format := 11
  const R8_SSCALED: Format := 12
  const R8_UINT: Format := 13
  const R8_SINT: Format := 14
  const R8_SRGB: Format := 15
  const R8G8_UNORM: Format := 16
  const R8G8_SNORM: Format := 17
  const R8G8_USCALED: Format := 18
  const R8G8_SSCALED: Format := 19
  const R8G8_UINT: Format := 20
  const R8G8_SINT: Format := 21
  const R8G8_SRGB: Format := 22
  const R8G8B8_UNORM: Format := 23
  const R8G8B8_SNORM: Format := 24
  const R8G8B8_USCALED: Format := 25
  const R8G8B8_SSCALED: Format := 26
  const R8G8B8_UINT: Format := 27
  const R8G8B8_SINT: Format := 28
  const R8G8B8_SRGB: Format := 29
  const B8G8R8_UNORM: Format := 30
  const B8G8R8_SNORM: Format := 31
  const B8G8R8_USCALED: Format := 32
  const B8G8R8_SSCALED: Format := 33
  const B8G8R8_UINT: Format := 34
  const B8G8R8_SINT: Format := 35
  const B8G8R8_SRGB: Format := 36
  const R8G8B8A8_UNORM: Format := 37
  const R8G8B8A8_SNORM: Format := 38
  const R8G8B8A8_USCALED: Format := 39
  const R8G8B8A8_SSCALED: Format := 40
  const R8G8B8A8_UINT: Format := 41
  const R8G8B8A8_SINT: Format := 42
  const R8G8B8A8_SRGB: Format := 43
  const B8G8R8A8_UNORM: Format := 44
  const B8G8R8A8_SNORM: Format := 45
  const B8G8R8A8_USCALED: Format := 46
  const B8G8R8A8_SSCALED: Format := 47
  const B8G8R8A8_UINT: Format := 48
  const B8G8R8A8_SINT: Format := 49
  const B8G8R8A8_SRGB: Format := 50
  const A8B8G8R8_UNORM_PACK32: Format := 51
  const A8B8G8R8_SNORM_PACK32: Format := 52
  const A8B8G8R8_USCALED_PACK32: Format := 53
  const A8B8G8R8_SSCALED_PACK32: Format := 54
  const A8B8G8R8_UINT_PACK32: Format := 55
  const A8B8G8R8_SINT_PACK32: Format := 56
  const A8B8G8R8_SRGB_PACK32: Format := 57
  const A2R10G10B10_UNORM_PACK32: Format := 58
  const A2R10G10B10_SNORM_PACK32: Format := 59
  const A2R10G10B10_USCALED_PACK32: Format := 60
  const A2R10G10B10_SSCALED_PACK32: Format := 61
  const A2R10G10B10_UINT_PACK32: Format := 62
  const A2R10G10B10_SINT_PACK32: Format := 63
  const A2B10G10R10_UNORM_PACK32: Format := 64
  const A2B10G10R10_SNORM_PACK32: Format := 65
  const A2B10G10R10_USCALED_PACK32: Format := 66
  const A2B10G10R10_SSCALED_PACK32: Format := 67
  const A2B10G10R10_UINT_PACK32: Format := 68
  const A2B10G10R10_SINT_PACK32: Format := 69
  const R16_UNORM: Format := 70
  const R16_SNORM: Format := 71
  const R16_USCALED: Format := 72
  const R16_SSCALED: Format := 73
  const R16_UINT: Format := 74
  const R16_SINT: Format := 75
  const R16_SFLOAT: Format := 76
  const R16G16_UNORM: Format := 77
  const R16G16_SNORM: Format := 78
  const R16G16_USCALED: Format := 79
  const R16G16_SSCALED: Format := 80
  const R16G16_UINT: Format := 81
  const R16G16_SINT: Format := 82
  const R16G16_SFLOAT: Format := 83
  const R16G16B16_UNORM: Format := 84
  const R16G16B16_SNORM: Format := 85
  const R16G16B16_USCALED: Format := 86
  const R16G16B16_SSCALED: Format := 87
  const R16G16B16_UINT: Format := 88
  const R16G16B16_SINT: Format := 89
  const R16G16B16_SFLOAT: Format := 90
  const R16G16B16A16_UNORM: Format := 91
  const R16G16B16A16_SNORM: Format := 92
  const R16G16B16A16_USCALED: Format := 93
  const R16G16B16A16_SSCALED: Format := 94
  const R16G16B16A16_UINT: Format := 95
  const R16G16B16A16_SINT: Format := 96
  const R16G16B16A16_SFLOAT: Format := 97
  const R32_UINT: Format := 98
  const R32_SINT: Format := 99
  const R32_SFLOAT: Format := 100
  const R32G32_UINT: Format := 101
  const R32G32_SINT: Format := 102
  const R32G32_SFLOAT: Format := 103
  const R32G32B32_UINT: Format := 104
  const R32G32B32_SINT: Format := 105
  const R32G32B32_SFLOAT: Format := 106
  const R32G32B32A32_UINT: Format := 107
  const R32G32B32A32_SINT: Format := 108
  const R32G32B32A32_SFLOAT: Format := 109
  const R64_UINT: Format := 110
  const R64_SINT: Format := 111
  const R64_SFLOAT: Format := 112
  const R64G64_UINT: Format := 113
  const R64G64_SINT: Format := 114
  const R64G64_SFLOAT: Format := 115
  const R64G64B64_UINT: Format := 116
  const R64G64B64_SINT: Format := 117
  const R64G64B64_SFLOAT: Format := 118
  const R64G64B64A64_UINT: Format := 119
  const R64G64B64A64_SINT: Format := 120
  const R64G64B64A64_SFLOAT: Format := 121
  const B10G11R11_UFLOAT_PACK32: Format := 122
  const E5B9G9R9_UFLOAT_PACK32: Format := 123
  const D16_UNORM: Format := 124
  const X8_D24_UNORM_PACK32: Format := 125
  const D32_SFLOAT: Format := 126
  const S8_UINT: Format := 127
  const D16_UNORM_S8_UINT: Format := 128
  const D24_UNORM_S8_UINT: Format := 129
  const D32_SFLOAT_S8_UINT: Format := 130
  const BC1_RGB_UNORM_BLOCK: Format := 131
  const BC1_RGB_SRGB_BLOCK: Format := 132
  const BC1_RGBA_UNORM_BLOCK: Format := 133
  const BC1_RGBA_SRGB_BLOCK: Format := 134
  const BC2_UNORM_BLOCK: Format := 135
  const BC2_SRGB_BLOCK: Format := 136
  const BC3_UNORM_BLOCK: Format := 137
  const BC3_SRGB_BLOCK: Format := 138
  const BC4_UNORM_BLOCK: Format := 139
  const BC4_SNORM_BLOCK: Format := 140
  const BC5_UNORM_BLOCK: Format := 141
  const BC5_SNORM_BLOCK: Format := 142
  const BC6H_UFLOAT_BLOCK: Format := 143
  const BC6H_SFLOAT_BLOCK: Format := 144
  const BC7_UNORM_BLOCK: Format := 145
  const BC7_SRGB_BLOCK: Format := 146

  /** The values that name one of the 147 enumerators. */
  predicate IsListedFormat(f: Format)
  {
    UNKNOWN <= f <= BC7_SRGB_BLOCK
  }

  /** The eight enumerators that api/Format.h declares. */
  predicate IsDeclaredFormat(f: Format)
  {
    f in {UNKNOWN, R8_UNORM, R8G8_UNORM, R8G8B8_UNORM, R8G8B8A8_UNORM,
          D24_UNORM_S8_UINT, D32_SFLOAT, D32_SFLOAT_S8_UINT}
  }

  /** The sixteen block-compressed formats, BC1_RGB_UNORM_BLOCK through
      BC7_SRGB_BLOCK. */
  predicate IsBlockCompressed(f: Format)
  {
    BC1_RGB_UNORM_BLOCK <= f <= BC7_SRGB_BLOCK
  }

  /** What one arm of the switch in GetPixelByteSize does, as written. */
  datatype SwitchArm =
    | Returns(size: nat)                              // `return n;`
    | AssertsThenReturns(message: string, size: nat)  // `VALX_ASSERT(false && msg); return n;`
    | Breaks                                          // `break;`, then no return

  /** The switch of GetPixelByteSize, with the case labels that share an arm
      gathered together. */
  function PixelByteSizeArm(f: Format): SwitchArm
  {
    if f == UNKNOWN then
      Returns(0)
    else if f == R4G4_UNORM_PACK8 || f == R8_UNORM || f == R8_SNORM || f == R8_USCALED
      || f == R8_SSCALED || f == R8_UINT || f == R8_SINT || f == R8_SRGB || f == S8_UINT then
      Returns(1)
    else if f == R4G4B4A4_UNORM_PACK16 || f == B4G4R4A4_UNORM_PACK16
      || f == R5G6B5_UNORM_PACK16 || f == B5G6R5_UNORM_PACK16
      || f == R5G5B5A1_UNORM_PACK16 || f == B5G5R5A1_UNORM_PACK16
      || f == A1R5G5B5_UNORM_PACK16 || f == R8G8_UNORM || f == R8G8_SNORM
      || f == R8G8_USCALED || f == R8G8_SSCALED || f == R8G8_UINT || f == R8G8_SINT
      || f == R8G8_SRGB || f == R16_UNORM || f == R16_SNORM || f == R16_USCALED
      || f == R16_SSCALED || f == R16_UINT || f == R16_SINT || f == R16_SFLOAT
      || f == D16_UNORM then
      Returns(2)
    else if f == R8G8B8_UNORM || f == R8G8B8_SNORM || f == R8G8B8_USCALED
      || f == R8G8B8_SSCALED || f == R8G8B8_UINT || f == R8G8B8_SINT || f == R8G8B8_SRGB
      || f == B8G8R8_UNORM || f == B8G8R8_SNORM || f == B8G8R8_USCALED
      || f == B8G8R8_SSCALED || f == B8G8R8_UINT || f == B8G8R8_SINT || f == B8G8R8_SRGB
      || f == D16_UNORM_S8_UINT then
      Returns(3)
    else if f == R8G8B8A8_UNORM || f == R8G8B8A8_SNORM || f == R8G8B8A8_USCALED
      || f == R8G8B8A8_SSCALED || f == R8G8B8A8_UINT || f == R8G8B8A8_SINT
      || f == R8G8B8A8_SRGB || f == B8G8R8A8_UNORM || f == B8G8R8A8_SNORM
      || f == B8G8R8A8_USCALED || f == B8G8R8A8_SSCALED || f == B8G8R8A8_UINT
      || f == B8G8R8A8_SINT || f == B8G8R8A8_SRGB || f == A8B8G8R8_UNORM_PACK32
      || f == A8B8G8R8_SNORM_PACK32 || f == A8B8G8R8_USCALED_PACK32
      || f == A8B8G8R8_SSCALED_PACK32 || f == A8B8G8R8_UINT_PACK32
      || f == A8B8G8R8_SINT_PACK32 || f == A8B8G8R8_SRGB_PACK32
      || f == A2R10G10B10_UNORM_PACK32 || f == A2R10G10B10_SNORM_PACK32
      || f == A2R10G10B10_USCALED_PACK32 || f == A2R10G10B10_SSCALED_PACK32
      || f == A2R10G10B10_UINT_PACK32 || f == A2R10G10B10_SINT_PACK32
      || f == A2B10G10R10_UNORM_PACK32 || f == A2B10G10R10_SNORM_PACK32
      || f == A2B10G10R10_USCALED_PACK32 || f == A2B10G10R10_SSCALED_PACK32
      || f == A2B10G10R10_UINT_PACK32 || f == A2B10G10R10_SINT_PACK32 || f == R16G16_UNORM
      || f == R16G16_SNORM || f == R16G16_USCALED || f == R16G16_SSCALED
      || f == R16G16_UINT || f == R16G16_SINT || f == R16G16_SFLOAT || f == R32_UINT
      || f == R32_SINT || f == R32_SFLOAT || f == B10G11R11_UFLOAT_PACK32
      || f == E5B9G9R9_UFLOAT_PACK32 || f == X8_D24_UNORM_PACK32 || f == D32_SFLOAT
      || f == D24_UNORM_S8_UINT then
      Returns(4)
    else if f == R16G16B16_UNORM || f == R16G16B16_SNORM || f == R16G16B16_USCALED
      || f == R16G16B16_SSCALED || f == R16G16B16_UINT || f == R16G16B16_SINT
      || f == R16G16B16_SFLOAT then
      Returns(6)
    else if f == R16G16B16A16_UNORM || f == R16G16B16A16_SNORM
      || f == R16G16B16A16_USCALED || f == R16G16B16A16_SSCALED || f == R16G16B16A16_UINT
      || f == R16G16B16A16_SINT || f == R16G16B16A16_SFLOAT || f == R32G32_UINT
      || f == R32G32_SINT || f == R32G32_SFLOAT || f == R64_UINT || f == R64_SINT
      || f == R64_SFLOAT then
      Returns(8)
    else if f == R32G32B32_UINT || f == R32G32B32_SINT || f == R32G32B32_SFLOAT then
      Returns(12)
    else if f == R32G32B32A32_UINT || f == R32G32B32A32_SINT || f == R32G32B32A32_SFLOAT
      || f == R64G64_UINT || f == R64G64_SINT || f == R64G64_SFLOAT then
      Returns(16)
    else if f == R64G64B64_UINT || f == R64G64B64_SINT || f == R64G64B64_SFLOAT then
      Returns(24)
    else if f == R64G64B64A64_UINT || f == R64G64B64A64_SINT || f == R64G64B64A64_SFLOAT then
      Returns(32)
    else if f == D32_SFLOAT_S8_UINT then
      Returns(5)
    else if f == BC1_RGB_UNORM_BLOCK || f == BC1_RGB_SRGB_BLOCK
      || f == BC1_RGBA_UNORM_BLOCK || f == BC1_RGBA_SRGB_BLOCK || f == BC2_UNORM_BLOCK
      || f == BC2_SRGB_BLOCK || f == BC3_SRGB_BLOCK || f == BC4_UNORM_BLOCK
      || f == BC4_SNORM_BLOCK || f == BC5_SNORM_BLOCK || f == BC6H_UFLOAT_BLOCK
      || f == BC6H_SFLOAT_BLOCK || f == BC7_UNORM_BLOCK || f == BC7_SRGB_BLOCK then
      AssertsThenReturns("compressed format", 0)
    else if f == BC3_UNORM_BLOCK || f == BC5_UNORM_BLOCK then
      Breaks
    else
      AssertsThenReturns("invalid format", 0)
  }
  /** GetPixelByteSize exactly as the switch is written. The two arms that
      `break` fall off the end of a value-returning function, which is
      undefined behaviour, so callers must stay away from them. An
      asserting arm aborts with its message. */
  function GetPixelByteSizeAsWritten(f: Format): (r: Result<nat>)
    requires !PixelByteSizeArm(f).Breaks?
    ensures f == UNKNOWN ==> r == Ok(0)
    ensures IsBlockCompressed(f) ==> r == Fail("compressed format")
    ensures !IsListedFormat(f) ==> r == Fail("invalid format")
    ensures r.Ok? <==> IsListedFormat(f) && !IsBlockCompressed(f)
    ensures r.Ok? && f != UNKNOWN ==> 1 <= r.value <= 32
  {
    match PixelByteSizeArm(f)
    case Returns(n) => Ok(n)
    case AssertsThenReturns(msg, _) => Fail(msg)
  }

  /** The arms that break are those of BC3_UNORM_BLOCK and BC5_UNORM_BLOCK,
      while their siblings BC3_SRGB_BLOCK and BC5_SNORM_BLOCK assert: the
      as-written function cannot be applied to them at all. */
  lemma BreakingArms(f: Format)
    ensures PixelByteSizeArm(f).Breaks? <==> f == BC3_UNORM_BLOCK || f == BC5_UNORM_BLOCK
    ensures f == BC3_SRGB_BLOCK || f == BC5_SNORM_BLOCK ==>
              PixelByteSizeArm(f) == AssertsThenReturns("compressed format", 0)
  {
  }

  /** GetPixelByteSize with the two breaking arms treated like the other
      fourteen block-compressed formats. This is the definition the rest of
      the model uses. */
  function GetPixelByteSize(f: Format): (r: Result<nat>)
    ensures !PixelByteSizeArm(f).Breaks? ==> r == GetPixelByteSizeAsWritten(f)
    ensures f == UNKNOWN ==> r == Ok(0)
    ensures IsBlockCompressed(f) ==> r == Fail("compressed format")
    ensures !IsListedFormat(f) ==> r == Fail("invalid format")
    ensures r.Ok? <==> IsListedFormat(f) && !IsBlockCompressed(f)
    ensures r.Ok? && f != UNKNOWN ==> 1 <= r.value <= 32
  {
    if PixelByteSizeArm(f).Breaks? then
      Fail("compressed format")
    else
      GetPixelByteSizeAsWritten(f)
  }

  /** Sizes the texture code relies on: four bytes per RGBA8 pixel, eight per
      RGBA16F, sixteen per RGBA32, and the packed depth/stencil sizes. */
  lemma KnownPixelSizes(f: Format)
    ensures f == R8G8B8A8_UNORM ==> GetPixelByteSize(f) == Ok(4)
    ensures f == R16G16B16A16_SFLOAT ==> GetPixelByteSize(f) == Ok(8)
    ensures R32G32B32A32_UINT <= f <= R32G32B32A32_SFLOAT ==> GetPixelByteSize(f) == Ok(16)
    ensures f == D16_UNORM_S8_UINT ==> GetPixelByteSize(f) == Ok(3)
    ensures f == D24_UNORM_S8_UINT ==> GetPixelByteSize(f) == Ok(4)
    ensures f == D32_SFLOAT_S8_UINT ==> GetPixelByteSize(f) == Ok(5)
  {
  }
}

=== FILE: logger.dfy ===
/** api/Logger.cpp: the process-wide "current logger" slot with its console
    fallback, and the three line formats of the console logger. */
module Logger {
  import opened Wrappers
  import opened Utilities

  datatype Severity = Error | Warning | Info

  /** The tag each console line starts with. */
  function SeverityTag(s: Severity): string
  {
    match s
    case Error => "ERROR"
    case Warning => "WARNING"
    case Info => "INFO"
  }

  /** The line ConsoleLogger writes: `[<TAG> <who>]: <message>`. */
  function ConsoleLine(s: Severity, who: string, message: string): (line: string)
    ensures |line| == |SeverityTag(s)| + |who| + |message| + 5
    ensures line[..|SeverityTag(s)| + 2] == "[" + SeverityTag(s) + " "
    ensures line[|SeverityTag(s)| + 2..|SeverityTag(s)| + 2 + |who|] == who
    ensures line[|line| - |message| - 3..] == "]: " + message
  {
    "[" + SeverityTag(s) + " " + who + "]: " + message
  }

  /** Reads the severity back from a console line by its first letter. */
  function SeverityOfLine(line: string): (s: Option<Severity>)
  {
    if |line| < 2 || line[0] != '[' then None
    else if line[1] == 'E' then Some(Error)
    else if line[1] == 'W' then Some(Warning)
    else if line[1] == 'I' then Some(Info)
    else None
  }

  /** The severity of a console line can be told from the line alone. */
  lemma SeverityRoundTrip(s: Severity, who: string, message: string)
    ensures SeverityOfLine(ConsoleLine(s, who, message)) == Some(s)
  {
    var line := ConsoleLine(s, who, message);
    assert line[..|SeverityTag(s)| + 2] == "[" + SeverityTag(s) + " ";
    assert line[0] == '[' && line[1] == SeverityTag(s)[0];
  }

  /** The console logger; its output stream, std::cerr, is the list of lines
      written so far. */
  class ConsoleLogger {
    var written: seq<string>

    constructor ()
      ensures written == []
    {
      written := [];
    }

    method LogError(who: string, message: string)
      modifies this
      ensures written == old(written) + [ConsoleLine(Error, who, message)]
    {
      written := written + [ConsoleLine(Error, who, message)];
    }

    method LogWarning(who: string, message: string)
      modifies this
      ensures written == old(written) + [ConsoleLine(Warning, who, message)]
    {
      written := written + [ConsoleLine(Warning, who, message)];
    }

    method LogInfo(who: string, message: string)
      modifies this
      ensures written == old(written) + [ConsoleLine(Info, who, message)]
    {
      written := written + [ConsoleLine(Info, who, message)];
    }
  }

  /** The logger slot. `consoleLogger` is the address of the static console
      logger, which is never null. */
  class LoggerRegistry {
    var currentLogger: Handle
    const consoleLogger: LiveHandle

    constructor (console: LiveHandle)
      ensures currentLogger == NULL_HANDLE && consoleLogger == console
    {
      currentLogger := NULL_HANDLE;
      consoleLogger := console;
    }

    /** SetCurrentLogger: registers `logger` (possibly null) and hands back
        the logger it replaced. */
    method SetCurrentLogger(logger: Handle) returns (oldLogger: Handle)
      modifies this
      ensures oldLogger == old(currentLogger)
      ensures currentLogger == logger
    {
      oldLogger := currentLogger;
      currentLogger := logger;
    }

    /** GetCurrentLogger: the registered logger, or the console logger when
        none is registered; never null. */
    function GetCurrentLogger(): (l: Handle)
      reads this
      ensures l != NULL_HANDLE
      ensures currentLogger != NULL_HANDLE ==> l == currentLogger
      ensures currentLogger == NULL_HANDLE ==> l == consoleLogger
    {
      if currentLogger != NULL_HANDLE then currentLogger else consoleLogger
    }

    /** Unregistering (setting null) falls back to the console logger. */
    method Unregister() returns (oldLogger: Handle)
      modifies this
      ensures oldLogger == old(currentLogger)
      ensures GetCurrentLogger() == consoleLogger
    {
      oldLogger := SetCurrentLogger(NULL_HANDLE);
    }
  }
}

=== FILE: texture.dfy ===
/** api/Texture.h: the texture description shared by the loader and the
    Vulkan texture. */
module Textures {
  import opened Utilities
  import opened Formats

  datatype TextureType = TEXTURE_2D | TEXTURE_3D | TEXTURE_CUBE

  datatype SampleCount =
    | SAMPLES_1
    | SAMPLES_2
    | SAMPLES_4
    | SAMPLES_8
    | SAMPLES_16
    | SAMPLES_32
    | SAMPLES_64

  /** The TextureFlags enumerators, one bit each. */
  const TEXTURE_FLAGS_NONE: Flags := 0
  const TEXTURE_COPY_SRC: Flags := 0x01
  const TEXTURE_COPY_DST: Flags := 0x02
  const TEXTURE_SAMPLED: Flags := 0x04
  const TEXTURE_STORAGE: Flags := 0x08
  const TEXTURE_COLOR_ATTACHMENT: Flags := 0x10
  const TEXTURE_DEPTH_STENCIL_ATTACHMENT: Flags := 0x20

  /** `Mips` value asking for the full mip chain. */
  const ALL_MIPS: U32 := 0

  datatype TextureInfo = TextureInfo(
    name: string,
    textureType: TextureType,
    textureFormat: Format,
    samples: SampleCount,
    flags: Flags,
    width: U32,
    height: U32,
    depth: U32,
    layers: U32,
    mips: U32)
}

=== FILE: texture_loader.dfy ===
/** api/TextureLoader.cpp: choosing the image decoder by file extension, and
    turning a 2D texture that holds a horizontal-cross cube atlas (4 cells
    wide, 3 cells high) into a cube texture of six layers per atlas layer.

    The decoders themselves (tinyddsloader, stb zlib, stb_image) and file
    I/O are not part of this model; a decoded DDS file is represented by the
    two facts ConvertTextureType reads from it. */
module TextureLoader {
  import opened Wrappers
  import opened Utilities
  import opened Formats
  import opened Textures

  /** A `char` of a texel buffer. */
  type Byte = bv8

  // ---------------------------------------------------------------------
  // Decoder dispatch
  // ---------------------------------------------------------------------

  /** The last component of a path: what follows its last '/'. */
  function FileName(path: string): string
  {
    if |path| == 0 || path[|path| - 1] == '/' then []
    else FileName(path[..|path| - 1]) + [path[|path| - 1]]
  }

  /** The file name is the longest suffix of the path without a '/'. */
  lemma {:induction false} FileNameIsLastComponent(path: string)
    ensures var name := FileName(path);
            && '/' !in name
            && |name| <= |path| && name == path[|path| - |name|..]
            && (|name| < |path| ==> path[|path| - |name| - 1] == '/')
  {
    if |path| > 0 && path[|path| - 1] != '/' {
      var init, last := path[..|path| - 1], path[|path| - 1];
      assert path == init + [last];
      FileNameIsLastComponent(init);
      var name := FileName(init);
      assert FileName(path) == name + [last];
      SuffixOfAppend(init, last, |init| - |name|);
      if |name| < |init| {
        assert path[|path| - |name| - 2] == init[|init| - |name| - 1];
      }
    }
  }

  lemma SuffixOfAppend(init: string, last: char, a: nat)
    requires a <= |init|
    ensures (init + [last])[a..] == init[a..] + [last]
  {
  }

  /** The index of the rightmost '.' of a name, if any. */
  function LastDot(name: string): (r: Option<nat>)
    ensures r.None? ==> '.' !in name
    ensures r.Some? ==> r.value < |name| && name[r.value] == '.' && '.' !in name[r.value + 1..]
  {
    if |name| == 0 then None
    else if name[|name| - 1] == '.' then Some(|name| - 1)
    else
      var r := LastDot(name[..|name| - 1]);
      assert name == name[..|name| - 1] + [name[|name| - 1]];
      r
  }

  /** std::filesystem::path::extension: the file name from its rightmost
      '.' on, and empty when the name has no '.', when that '.' is the
      name's first character, or when the name is "." or "..". */
  function Extension(path: string): (ext: string)
    ensures ext == [] || (ext[0] == '.' && '.' !in ext[1..] && '/' !in ext)
    ensures |ext| <= |path| && ext == path[|path| - |ext|..]
  {
    FileNameIsLastComponent(path);
    var name := FileName(path);
    if name == "." || name == ".." then []
    else
      match LastDot(name)
      case None => []
      case Some(i) => if i == 0 then [] else name[i..]
  }

  /** An extension as the source writes it: a '.' followed by at least one
      character, none of them a '.' or a '/'. */
  predicate IsExtension(ext: string)
  {
    |ext| >= 2 && ext[0] == '.' && '.' !in ext[1..] && '/' !in ext
  }

  lemma {:induction false} FileNameAppend(base: string, ext: string)
    requires forall k :: 0 <= k < |ext| ==> ext[k] != '/'
    ensures FileName(base + ext) == FileName(base) + ext
    decreases |ext|
  {
    if |ext| == 0 {
      assert base + ext == base;
    } else {
      var path := base + ext;
      var init := ext[..|ext| - 1];
      assert path[|path| - 1] == ext[|ext| - 1];
      assert path[..|path| - 1] == base + init;
      var last := ext[|ext| - 1];
      assert FileName(path) == FileName(base + init) + [last];
      FileNameAppend(base, init);
      assert init + [last] == ext;
      assert (FileName(base) + init) + [last] == FileName(base) + (init + [last]);
    }
  }

  /** The rightmost '.' of `stem + ext` is the first character of `ext`
      when `ext` has no other '.'. */
  lemma {:induction false} LastDotAppend(stem: string, ext: string)
    requires |ext| >= 1 && ext[0] == '.' && '.' !in ext[1..]
    ensures LastDot(stem + ext) == Some(|stem|)
    decreases |ext|
  {
    var name := stem + ext;
    if |ext| > 1 {
      var init := ext[..|ext| - 1];
      assert name[|name| - 1] == ext[1..][|ext| - 2];
      assert name[..|name| - 1] == stem + init;
      assert init[1..] == ext[1..][..|ext| - 2];
      LastDotAppend(stem, init);
    }
  }

  lemma FileNameNonEmpty(path: string)
    requires |path| > 0 && path[|path| - 1] != '/'
    ensures |FileName(path)| > 0
  {
    assert FileName(path) == FileName(path[..|path| - 1]) + [path[|path| - 1]];
  }

  lemma ExtensionFromName(path: string, stem: string, ext: string)
    requires |stem| > 0 && IsExtension(ext)
    requires FileName(path) == stem + ext
    requires LastDot(stem + ext) == Some(|stem|)
    ensures Extension(path) == ext
  {
    var name := stem + ext;
    assert |name| >= 3 && name != "." && name != "..";
    assert name[|stem|..] == ext;
  }

  /** A path made of a file name and an extension has that extension. */
  lemma ExtensionOfName(base: string, ext: string)
    requires |base| > 0 && base[|base| - 1] != '/'
    requires IsExtension(ext)
    ensures Extension(base + ext) == ext
  {
    FileNameNonEmpty(base);
    FileNameAppend(base, ext);
    LastDotAppend(FileName(base), ext);
    ExtensionFromName(base + ext, FileName(base), ext);
  }

  /** A file whose whole name is an extension (".dds" in some directory)
      has no extension at all. */
  lemma ExtensionOfHiddenName(dir: string, ext: string)
    requires |dir| == 0 || dir[|dir| - 1] == '/'
    requires IsExtension(ext)
    ensures Extension(dir + ext) == []
  {
    FileNameAppend(dir, ext);
    assert FileName(dir) == [];
    LastDotAppend([], ext);
    assert [] + ext == ext;
  }

  predicate IsDDSImage(path: string)
  {
    Extension(path) == ".dds"
  }

  predicate IsZLIBImage(path: string)
  {
    Extension(path) == ".zlib"
  }

  /** The decoder LoadTextureFromFile hands a path to. */
  datatype ImageLoader = DDS_LOADER | ZLIB_LOADER | STB_LOADER

  function LoaderFor(path: string): (loader: ImageLoader)
    ensures loader == DDS_LOADER <==> IsDDSImage(path)
    ensures loader == ZLIB_LOADER <==> IsZLIBImage(path)
    ensures loader == STB_LOADER <==> !IsDDSImage(path) && !IsZLIBImage(path)
  {
    if IsDDSImage(path) then DDS_LOADER
    else if IsZLIBImage(path) then ZLIB_LOADER
    else STB_LOADER
  }

  /** Dispatch on a named file: ".dds" goes to the DDS loader, ".zlib" to
      the zlib loader, every other extension to stb_image. */
  lemma LoaderForExtension(base: string, ext: string)
    requires |base| > 0 && base[|base| - 1] != '/'
    requires IsExtension(ext)
    ensures LoaderFor(base + ext) ==
              if ext == ".dds" then DDS_LOADER
              else if ext == ".zlib" then ZLIB_LOADER
              else STB_LOADER
  {
    ExtensionOfName(base, ext);
  }

  /** The dimension tinyddsloader reports for a DDS file. */
  datatype TextureDimension = DIMENSION_UNKNOWN | TEXTURE_1D | TEXTURE_2D_DIMENSION | TEXTURE_3D_DIMENSION

  /** What ConvertTextureType reads from a decoded DDS file. */
  datatype DdsHeader = DdsHeader(isCubemap: bool, dimension: TextureDimension)

  /** ConvertTextureType: a cubemap flag wins over the dimension; only a 3D
      dimension gives a 3D texture; everything else is 2D. */
  function ConvertTextureType(dds: DdsHeader): (t: TextureType)
    ensures t == TEXTURE_CUBE <==> dds.isCubemap
    ensures t == TEXTURE_3D <==> !dds.isCubemap && dds.dimension == TEXTURE_3D_DIMENSION
    ensures t == TEXTURE_2D <==> !dds.isCubemap && dds.dimension != TEXTURE_3D_DIMENSION
  {
    if dds.isCubemap then TEXTURE_CUBE
    else if dds.dimension == TEXTURE_3D_DIMENSION then TEXTURE_3D
    else TEXTURE_2D
  }

  // ---------------------------------------------------------------------
  // One cube face out of an atlas
  // ---------------------------------------------------------------------

  /** Where face row `i` starts in the atlas: atlas row
      `sliceY * h + (h - 1 - i)` (rows are flipped), atlas column
      `sliceX * w`, four faces to an atlas row, `ps` bytes to a pixel. */
  function RowOffset(w: nat, h: nat, ps: nat, sliceX: nat, sliceY: nat, i: nat): nat
    requires i < h
  {
    var row: nat := sliceY * h + (h - 1 - i);
    var pixel: nat := row * (4 * w) + sliceX * w;
    pixel * ps
  }

  /** The copies ExtractCubemapFace makes stay inside both buffers: the
      `h` face rows fit in the `size / 6` bytes of the result, and every
      face row lies inside the atlas. */
  predicate FaceInBounds(size: nat, w: nat, h: nat, ps: nat, sliceX: nat, sliceY: nat)
  {
    h * (w * ps) <= size / 6 && RowsInside(size, RowStarts(w, h, ps, sliceX, sliceY), w * ps)
  }

  lemma MulNonneg(a: nat, b: nat)
    ensures 0 <= a * b
  {
  }

  lemma MulLeftMono(a: nat, b: nat, c: nat)
    requires a <= b
    ensures c * a <= c * b
  {
  }

  lemma MulSucc(k: nat, n: nat)
    ensures (k + 1) * n == k * n + n
  {
  }

  lemma MulAddRight(a: nat, b: nat, c: nat)
    ensures (a + b) * c == a * c + b * c
  {
  }

  /** Offset `c` of row `i` comes before row `k` when `i < k`. */
  lemma RowBeforeLater(i: nat, k: nat, n: nat, c: nat)
    requires i < k && c < n
    ensures i * n + c < k * n
  {
    MulLeftMono(i + 1, k, n);
    MulSucc(i, n);
  }

  /** Later face rows start no further into the atlas than row 0. */
  lemma RowOffsetMono(w: nat, h: nat, ps: nat, sliceX: nat, sliceY: nat, i: nat)
    requires i < h
    ensures RowOffset(w, h, ps, sliceX, sliceY, i) <= RowOffset(w, h, ps, sliceX, sliceY, 0)
  {
    var a := sliceY * h + (h - 1 - i);
    var b := sliceY * h + (h - 1);
    MulLeftMono(a, b, 4 * w);
    MulLeftMono(a * (4 * w) + sliceX * w, b * (4 * w) + sliceX * w, ps);
  }

  /** Every row, `n` bytes from its start, lies inside a buffer of `size`
      bytes. */
  predicate RowsInside(size: nat, starts: seq<nat>, n: nat)
  {
    forall i :: 0 <= i < |starts| ==> starts[i] + n <= size
  }

  /** The first `k` rows of `n` bytes, starting at `starts`, one after the
      other. */
  function Rows(bytes: seq<Byte>, starts: seq<nat>, n: nat, k: nat): seq<Byte>
    requires RowsInside(|bytes|, starts, n) && k <= |starts|
  {
    if k == 0 then []
    else Rows(bytes, starts, n, k - 1) + bytes[starts[k - 1]..starts[k - 1] + n]
  }

  lemma {:induction false} RowsLength(bytes: seq<Byte>, starts: seq<nat>, n: nat, k: nat)
    requires RowsInside(|bytes|, starts, n) && k <= |starts|
    ensures |Rows(bytes, starts, n, k)| == k * n
  {
    if k > 0 {
      RowsLength(bytes, starts, n, k - 1);
      MulSucc(k - 1, n);
    }
  }

  /** Byte `c` of row `i` sits at `i * n + c` of the rows. */
  lemma {:induction false} RowsAt(bytes: seq<Byte>, starts: seq<nat>, n: nat, k: nat, i: nat, c: nat)
    requires RowsInside(|bytes|, starts, n) && k <= |starts|
    requires i < k && c < n
    ensures i * n + c < |Rows(bytes, starts, n, k)|
    ensures Rows(bytes, starts, n, k)[i * n + c] == bytes[starts[i] + c]
  {
    RowsLength(bytes, starts, n, k - 1);
    RowsLength(bytes, starts, n, k);
    RowBeforeLater(i, k, n, c);
    if i < k - 1 {
      RowBeforeLater(i, k - 1, n, c);
      RowsAt(bytes, starts, n, k - 1, i, c);
    }
  }

  /** The atlas offsets of the `h` face rows. */
  function RowStarts(w: nat, h: nat, ps: nat, sliceX: nat, sliceY: nat): (starts: seq<nat>)
    ensures |starts| == h
  {
    seq(h, i requires 0 <= i < h => RowOffset(w, h, ps, sliceX, sliceY, i))
  }

  /** The first face row lies furthest into the atlas, so the bounds hold
      exactly when the rows fit in the result and row 0 ends inside the
      atlas. */
  lemma FirstRowDecides(size: nat, w: nat, h: nat, ps: nat, sliceX: nat, sliceY: nat)
    ensures FaceInBounds(size, w, h, ps, sliceX, sliceY) <==>
              h * (w * ps) <= size / 6 && (h == 0 || RowOffset(w, h, ps, sliceX, sliceY, 0) + w * ps <= size)
  {
    var starts := RowStarts(w, h, ps, sliceX, sliceY);
    if h > 0 {
      assert starts[0] == RowOffset(w, h, ps, sliceX, sliceY, 0);
      if RowOffset(w, h, ps, sliceX, sliceY, 0) + w * ps <= size {
        forall i | 0 <= i < h
          ensures starts[i] + w * ps <= size
        {
          RowOffsetMono(w, h, ps, sliceX, sliceY, i);
        }
      }
    }
  }

  /** The buffer ExtractCubemapFace returns: `size / 6` bytes, the `h`
      face rows first and zeros after them. */
  function Face(bytes: seq<Byte>, w: nat, h: nat, ps: nat, sliceX: nat, sliceY: nat): (face: seq<Byte>)
    requires FaceInBounds(|bytes|, w, h, ps, sliceX, sliceY)
    ensures |face| == |bytes| / 6
  {
    RowsLength(bytes, RowStarts(w, h, ps, sliceX, sliceY), w * ps, h);
    var rows := Rows(bytes, RowStarts(w, h, ps, sliceX, sliceY), w * ps, h);
    rows + Zeros(|bytes| / 6 - |rows|)
  }

  /** Byte `c` of face row `i` is byte `c` of atlas row
      `sliceY * h + (h - 1 - i)` from column `sliceX * w` on. */
  lemma FaceLayout(bytes: seq<Byte>, w: nat, h: nat, ps: nat, sliceX: nat, sliceY: nat, i: nat, c: nat)
    requires FaceInBounds(|bytes|, w, h, ps, sliceX, sliceY)
    requires i < h && c < w * ps
    ensures i * (w * ps) + c < |bytes| / 6
    ensures RowOffset(w, h, ps, sliceX, sliceY, i) + c < |bytes|
    ensures Face(bytes, w, h, ps, sliceX, sliceY)[i * (w * ps) + c]
              == bytes[RowOffset(w, h, ps, sliceX, sliceY, i) + c]
  {
    var starts := RowStarts(w, h, ps, sliceX, sliceY);
    RowsAt(bytes, starts, w * ps, h, i, c);
    RowsLength(bytes, starts, w * ps, h);
  }

  /** The bytes after the `h` face rows are zero. */
  lemma FaceTail(bytes: seq<Byte>, w: nat, h: nat, ps: nat, sliceX: nat, sliceY: nat, n: nat)
    requires FaceInBounds(|bytes|, w, h, ps, sliceX, sliceY)
    requires h * (w * ps) <= n < |bytes| / 6
    ensures Face(bytes, w, h, ps, sliceX, sliceY)[n] == 0
  {
    RowsLength(bytes, RowStarts(w, h, ps, sliceX, sliceY), w * ps, h);
  }

  /** The byte at (x, y, channel) of an atlas `atlasWidth` pixels wide. */
  function AtlasByte(bytes: seq<Byte>, atlasWidth: nat, ps: nat, x: nat, y: nat, channel: nat): Byte
    requires (y * atlasWidth + x) * ps + channel < |bytes|
  {
    bytes[(y * atlasWidth + x) * ps + channel]
  }

  /** Pixel (x, y) of the face is atlas pixel (sliceX * w + x,
      sliceY * h + h - 1 - y): the cell at (sliceX, sliceY), flipped
      vertically. */
  lemma FacePixel(bytes: seq<Byte>, w: nat, h: nat, ps: nat, sliceX: nat, sliceY: nat,
                  x: nat, y: nat, channel: nat)
    requires FaceInBounds(|bytes|, w, h, ps, sliceX, sliceY)
    requires x < w && y < h && channel < ps
    ensures 0 <= sliceX * w && 0 <= sliceY * h && 0 <= (y * w + x) * ps
    ensures (y * w + x) * ps + channel < |bytes| / 6
    ensures ((sliceY * h + (h - 1 - y)) * (4 * w) + (sliceX * w + x)) * ps + channel < |bytes|
    ensures Face(bytes, w, h, ps, sliceX, sliceY)[(y * w + x) * ps + channel]
              == AtlasByte(bytes, 4 * w, ps, sliceX * w + x, sliceY * h + (h - 1 - y), channel)
  {
    PixelOffsets(w, h, ps, sliceX, sliceY, x, y, channel);
    FaceLayout(bytes, w, h, ps, sliceX, sliceY, y, x * ps + channel);
  }

  /** Pixel (x, y) of the face and its atlas pixel as byte offsets: byte
      `x * ps + channel` of face row `y`. */
  lemma PixelOffsets(w: nat, h: nat, ps: nat, sliceX: nat, sliceY: nat, x: nat, y: nat, channel: nat)
    requires x < w && y < h && channel < ps
    ensures 0 <= sliceX * w && 0 <= sliceY * h && 0 <= (y * w + x) * ps
    ensures x * ps + channel < w * ps
    ensures (y * w + x) * ps + channel == y * (w * ps) + (x * ps + channel)
    ensures ((sliceY * h + (h - 1 - y)) * (4 * w) + (sliceX * w + x)) * ps + channel
              == RowOffset(w, h, ps, sliceX, sliceY, y) + (x * ps + channel)
  {
    RowBeforeLater(x, w, ps, channel);
    MulAddRight(y * w, x, ps);
    assert (y * w) * ps == y * (w * ps);
    var row := sliceY * h + (h - 1 - y);
    MulAddRight(row * (4 * w) + sliceX * w, x, ps);
  }

  /** The source offset ExtractCubemapFace computes for row `i` is the
      row's offset. */
  lemma SourceIsRowOffset(w: nat, h: nat, ps: nat, sliceX: nat, sliceY: nat, i: nat)
    requires i < h
    ensures (((h - i - 1) + sliceY * h) * (w * 4) + sliceX * w) * ps == RowOffset(w, h, ps, sliceX, sliceY, i)
    ensures 0 <= w * ps && 0 <= i * (w * ps)
  {
    assert (h - i - 1) + sliceY * h == sliceY * h + (h - 1 - i);
    assert w * 4 == 4 * w;
  }

  /** The pixel size of a format, 0 for a format whose size query asserts. */
  function PixelSize(format: Format): (ps: nat)
    ensures GetPixelByteSize(format).Ok? ==> ps == GetPixelByteSize(format).value
    ensures ps <= 32
  {
    match GetPixelByteSize(format)
    case Ok(n) => n
    case Fail(_) => 0
  }

  /** ExtractCubemapFace: a zeroed buffer of `|bytes| / 6` bytes receives
      the `h` rows of the cell (sliceX, sliceY) bottom row first, each row
      `w * pixelSize` bytes from an atlas four faces wide. The pixel-size
      query asserts for block-compressed formats. */
  method ExtractCubemapFace(bytes: seq<Byte>, faceWidth: U32, faceHeight: U32, format: Format,
                            sliceX: U32, sliceY: U32)
    returns (r: Result<seq<Byte>>)
    requires FaceInBounds(|bytes|, faceWidth, faceHeight, PixelSize(format), sliceX, sliceY)
    ensures r.Fail? <==> GetPixelByteSize(format).Fail?
    ensures r.Fail? ==> r.message == GetPixelByteSize(format).message
    ensures r.Ok? ==> r.value == Face(bytes, faceWidth, faceHeight, PixelSize(format), sliceX, sliceY)
    ensures r.Ok? ==> |r.value| == |bytes| / 6
  {
    var result := new Byte[|bytes| / 6](_ => 0);
    var size := GetPixelByteSize(format);
    if size.Fail? {
      return Fail(size.message);
    }
    var pixelSize := size.value;
    ghost var starts := RowStarts(faceWidth, faceHeight, pixelSize, sliceX, sliceY);
    var i := 0;
    while i < faceHeight
      invariant i <= faceHeight
      invariant result[..] == Copied(bytes, starts, faceWidth * pixelSize, result.Length, i)
    {
      CopyFaceRow(result, bytes, faceWidth, faceHeight, pixelSize, sliceX, sliceY, i);
      i := i + 1;
    }
    CopiedIsFace(bytes, faceWidth, faceHeight, pixelSize, sliceX, sliceY);
    r := Ok(result[..]);
  }

  /** One iteration of the loop of ExtractCubemapFace: the atlas row of
      face row `i` is copied to offset `i * bytesInRow` of the result. */
  method CopyFaceRow(result: array<Byte>, bytes: seq<Byte>, faceWidth: U32, faceHeight: U32, pixelSize: nat,
                     sliceX: U32, sliceY: U32, i: nat)
    requires FaceInBounds(|bytes|, faceWidth, faceHeight, pixelSize, sliceX, sliceY)
    requires result.Length == |bytes| / 6 && i < faceHeight
    requires result[..] == Copied(bytes, RowStarts(faceWidth, faceHeight, pixelSize, sliceX, sliceY),
                                  faceWidth * pixelSize, result.Length, i)
    modifies result
    ensures result[..] == Copied(bytes, RowStarts(faceWidth, faceHeight, pixelSize, sliceX, sliceY),
                                 faceWidth * pixelSize, result.Length, i + 1)
  {
    var sourceWidth := faceWidth * 4;
    var y := (faceHeight - i - 1) + sliceY * faceHeight;
    var x := sliceX * faceWidth;
    var bytesInRow := faceWidth * pixelSize;
    ghost var starts := RowStarts(faceWidth, faceHeight, pixelSize, sliceX, sliceY);
    SourceIsRowOffset(faceWidth, faceHeight, pixelSize, sliceX, sliceY, i);
    assert starts[i] == (y * sourceWidth + x) * pixelSize;
    CopiedNext(bytes, starts, bytesInRow, result.Length, i);
    Memcpy(result, i * bytesInRow, bytes, (y * sourceWidth + x) * pixelSize, bytesInRow);
  }

  /** A buffer of `length` zero bytes after the first `k` of the rows
      `starts` (each `n` bytes) are copied one after the other to offsets
      `0`, `n`, `2 * n`, ... */
  function Copied(bytes: seq<Byte>, starts: seq<nat>, n: nat, length: nat, k: nat): (s: seq<Byte>)
    requires RowsInside(|bytes|, starts, n) && |starts| * n <= length && k <= |starts|
    ensures |s| == length
  {
    if k == 0 then Zeros(length)
    else
      var before := Copied(bytes, starts, n, length, k - 1);
      CopiedRowFits(k - 1, |starts|, n, length);
      before[..(k - 1) * n] + bytes[starts[k - 1]..starts[k - 1] + n] + before[(k - 1) * n + n..]
  }

  /** Once all `h` rows are copied the buffer is the face. */
  lemma CopiedIsFace(bytes: seq<Byte>, w: nat, h: nat, ps: nat, sliceX: nat, sliceY: nat)
    requires FaceInBounds(|bytes|, w, h, ps, sliceX, sliceY)
    ensures Copied(bytes, RowStarts(w, h, ps, sliceX, sliceY), w * ps, |bytes| / 6, h)
              == Face(bytes, w, h, ps, sliceX, sliceY)
  {
    var starts := RowStarts(w, h, ps, sliceX, sliceY);
    MulNonneg(w, ps);
    var n: nat := w * ps;
    assert |starts| * n <= |bytes| / 6;
    CopiedAll(bytes, starts, n, |bytes| / 6);
  }

  /** Copying every row leaves the rows followed by zeros. */
  lemma CopiedAll(bytes: seq<Byte>, starts: seq<nat>, n: nat, length: nat)
    requires RowsInside(|bytes|, starts, n) && |starts| * n <= length
    ensures |Rows(bytes, starts, n, |starts|)| <= length
    ensures Copied(bytes, starts, n, length, |starts|)
            == Rows(bytes, starts, n, |starts|) + Zeros(length - |Rows(bytes, starts, n, |starts|)|)
  {
    CopiedRows(bytes, starts, n, length, |starts|);
    RowsLength(bytes, starts, n, |starts|);
  }

  /** The copy of row `k` overwrites `n` bytes at `k * n`. */
  lemma CopiedNext(bytes: seq<Byte>, starts: seq<nat>, n: nat, length: nat, k: nat)
    requires RowsInside(|bytes|, starts, n) && |starts| * n <= length && k < |starts|
    ensures k * n + n <= length && starts[k] + n <= |bytes|
    ensures var before := Copied(bytes, starts, n, length, k);
            Copied(bytes, starts, n, length, k + 1)
              == before[..k * n] + bytes[starts[k]..starts[k] + n] + before[k * n + n..]
  {
    CopiedRowFits(k, |starts|, n, length);
  }

  /** After `k` copies the buffer holds the first `k` rows, then zeros. */
  lemma {:induction false} CopiedRows(bytes: seq<Byte>, starts: seq<nat>, n: nat, length: nat, k: nat)
    requires RowsInside(|bytes|, starts, n) && |starts| * n <= length && k <= |starts|
    ensures k * n <= length
    ensures Copied(bytes, starts, n, length, k) == Rows(bytes, starts, n, k) + Zeros(length - k * n)
  {
    MulLeftMono(k, |starts|, n);
    if k > 0 {
      var j := k - 1;
      CopiedRows(bytes, starts, n, length, j);
      var before := Copied(bytes, starts, n, length, j);
      CopiedNext(bytes, starts, n, length, j);
      RowsStep(bytes, starts, n, j, length, before);
    }
  }

  /** Copying row `k` over the zeros after the first `k` rows gives the
      first `k + 1` rows. */
  lemma RowsStep(bytes: seq<Byte>, starts: seq<nat>, n: nat, k: nat, length: nat, before: seq<Byte>)
    requires RowsInside(|bytes|, starts, n) && k < |starts|
    requires k * n + n <= length && |before| == length
    requires before == Rows(bytes, starts, n, k) + Zeros(length - k * n)
    ensures (k + 1) * n == k * n + n
    ensures before[..k * n] + bytes[starts[k]..starts[k] + n] + before[k * n + n..]
              == Rows(bytes, starts, n, k + 1) + Zeros(length - (k + 1) * n)
  {
    MulSucc(k, n);
    RowsLength(bytes, starts, n, k);
    AppendRow(before, Rows(bytes, starts, n, k), bytes[starts[k]..starts[k] + n], length);
  }

  /** `std::memcpy(dst + dstOffset, src + srcOffset, count)`. */
  method Memcpy(dst: array<Byte>, dstOffset: nat, src: seq<Byte>, srcOffset: nat, count: nat)
    requires dstOffset + count <= dst.Length && srcOffset + count <= |src|
    modifies dst
    ensures dst[..] == old(dst[..])[..dstOffset] + src[srcOffset..srcOffset + count]
                       + old(dst[..])[dstOffset + count..]
  {
    forall k | 0 <= k < count {
      dst[dstOffset + k] := src[srcOffset + k];
    }
  }

  /** `k` zero bytes. */
  function Zeros(k: nat): (z: seq<Byte>)
    ensures |z| == k && forall j :: 0 <= j < k ==> z[j] == 0
  {
    seq(k, _ => 0)
  }

  /** Copying a row over the zeros after a prefix extends the prefix. */
  lemma AppendRow(s: seq<Byte>, prefix: seq<Byte>, row: seq<Byte>, length: nat)
    requires |prefix| + |row| <= length
    requires s == prefix + Zeros(length - |prefix|)
    ensures s[..|prefix|] + row + s[|prefix| + |row|..] == (prefix + row) + Zeros(length - |prefix| - |row|)
  {
    assert s[..|prefix|] == prefix;
  }

  /** The rows copied so far and the next one fit in the result. */
  lemma CopiedRowFits(i: nat, h: nat, n: nat, length: nat)
    requires i < h && h * n <= length
    ensures (i + 1) * n == i * n + n && (i + 1) * n <= length
  {
    MulSucc(i, n);
    MulLeftMono(i + 1, h, n);
  }

  // ---------------------------------------------------------------------
  // Cube texture from a cross atlas
  // ---------------------------------------------------------------------

  /** TextureData::MipData, LayerData and TextureData. */
  datatype MipData = MipData(bytes: seq<Byte>)

  datatype LayerData = LayerData(mips: seq<MipData>)

  datatype TextureData = TextureData(
    filePath: string,
    width: U32,
    height: U32,
    depth: U32,
    mipCount: U32,
    layers: U32,
    textureType: TextureType,
    textureFormat: Format,
    data: seq<LayerData>)

  /** The atlas cell of cube face `face`: +X (2,1), -X (0,1), +Y (1,2),
      -Y (1,0), +Z (1,1), -Z (3,1). */
  function CellX(face: nat): nat
    requires face < 6
  {
    [2, 0, 1, 1, 1, 3][face]
  }

  function CellY(face: nat): nat
    requires face < 6
  {
    [1, 1, 2, 0, 1, 1][face]
  }

  /** `std::max(size / (1 << mip), 1u)`. */
  function MipExtent(size: U32, mip: nat): (e: U32)
    ensures e >= 1 && (size >= 1 ==> e <= size)
  {
    if size / Pow2(mip) >= 1 then size / Pow2(mip) else 1
  }

  /** The conversion's two assertions carry no message; a failed assertion
      reports the text of its condition. */
  const NOT_2D := "texture.Type == TextureType::TEXTURE_2D"
  const NOT_SQUARE := "result.Width == result.Height"

  /** The conversion gets past its two assertions. */
  predicate PassesChecks(texture: TextureData)
  {
    texture.textureType == TEXTURE_2D && texture.width / 4 == texture.height / 3
  }

  /** The six cells of one atlas mip can be cut: every copy stays inside
      the atlas and the result. */
  predicate CellsInBounds(bytes: seq<Byte>, w: nat, h: nat, ps: nat)
  {
    && FaceInBounds(|bytes|, w, h, ps, 2, 1) && FaceInBounds(|bytes|, w, h, ps, 0, 1)
    && FaceInBounds(|bytes|, w, h, ps, 1, 2) && FaceInBounds(|bytes|, w, h, ps, 1, 0)
    && FaceInBounds(|bytes|, w, h, ps, 1, 1) && FaceInBounds(|bytes|, w, h, ps, 3, 1)
  }

  /** Mip `m` of atlas layer `l`. */
  function AtlasMip(texture: TextureData, l: nat, m: nat): seq<Byte>
    requires l < |texture.data| && m < |texture.data[l].mips|
  {
    texture.data[l].mips[m].bytes
  }

  /** What the conversion loops index and copy is there: `6 * Layers`
      fits in 32 bits, `1 << mip` is defined, the atlas has its layers and
      mips, and every face copy stays inside its buffers. */
  predicate AtlasReadable(texture: TextureData)
  {
    && 6 * texture.layers < 0x1_0000_0000
    && texture.mipCount <= 32
    && |texture.data| >= texture.layers
    && (forall l :: 0 <= l < texture.layers ==> |texture.data[l].mips| >= texture.mipCount)
    && (forall l, m :: 0 <= l < texture.layers && 0 <= m < texture.mipCount ==>
          CellsInBounds(AtlasMip(texture, l, m), MipExtent(texture.width / 4, m),
                        MipExtent(texture.height / 3, m), PixelSize(texture.textureFormat)))
  }

  /** The six faces of a cross atlas, in cube-face order. */
  function CellFaces(bytes: seq<Byte>, w: nat, h: nat, ps: nat): (faces: seq<seq<Byte>>)
    requires CellsInBounds(bytes, w, h, ps)
    ensures |faces| == 6
  {
    [Face(bytes, w, h, ps, 2, 1), Face(bytes, w, h, ps, 0, 1), Face(bytes, w, h, ps, 1, 2),
     Face(bytes, w, h, ps, 1, 0), Face(bytes, w, h, ps, 1, 1), Face(bytes, w, h, ps, 3, 1)]
  }

  /** Face `k` of the six is the cell (CellX(k), CellY(k)), and it can be
      cut. */
  lemma CellFace(bytes: seq<Byte>, w: nat, h: nat, ps: nat, k: nat)
    requires CellsInBounds(bytes, w, h, ps) && k < 6
    ensures FaceInBounds(|bytes|, w, h, ps, CellX(k), CellY(k))
    ensures CellFaces(bytes, w, h, ps)[k] == Face(bytes, w, h, ps, CellX(k), CellY(k))
  {
  }

  /** The six faces cut from mip `m` of atlas layer `l`. */
  function CubeFaces(texture: TextureData, l: nat, m: nat): (faces: seq<seq<Byte>>)
    requires AtlasReadable(texture) && l < texture.layers && m < texture.mipCount
    ensures |faces| == 6
  {
    CellFaces(AtlasMip(texture, l, m), MipExtent(texture.width / 4, m),
              MipExtent(texture.height / 3, m), PixelSize(texture.textureFormat))
  }

  /** Face `k` of mip `m` of atlas layer `l` is its cell (CellX(k),
      CellY(k)), and it can be cut. */
  lemma CubeFaceCell(texture: TextureData, l: nat, m: nat, k: nat)
    requires AtlasReadable(texture) && l < texture.layers && m < texture.mipCount && k < 6
    ensures FaceInBounds(|AtlasMip(texture, l, m)|, MipExtent(texture.width / 4, m),
                         MipExtent(texture.height / 3, m), PixelSize(texture.textureFormat), CellX(k), CellY(k))
    ensures CubeFaces(texture, l, m)[k]
              == Face(AtlasMip(texture, l, m), MipExtent(texture.width / 4, m),
                      MipExtent(texture.height / 3, m), PixelSize(texture.textureFormat), CellX(k), CellY(k))
  {
    MipCells(texture, l, m);
    CellFace(AtlasMip(texture, l, m), MipExtent(texture.width / 4, m),
             MipExtent(texture.height / 3, m), PixelSize(texture.textureFormat), k);
  }

  /** Output layer `j` once its first `mip` mips are assigned: mip `m` is
      face `j % 6` of mip `m` of atlas layer `j / 6`; the others are still
      the empty buffers the resize made. */
  function PartialLayer(texture: TextureData, j: nat, mip: nat): (layer: LayerData)
    requires AtlasReadable(texture)
    requires j < 6 * texture.layers && mip <= texture.mipCount
    ensures |layer.mips| == texture.mipCount
  {
    LayerData(seq(texture.mipCount, m requires 0 <= m < texture.mipCount =>
      if m < mip then MipData(CubeFaces(texture, j / 6, m)[j % 6]) else MipData([])))
  }

  /** Reference description of Convert2DTextureToCubeMap. */
  function CubeMapOf(texture: TextureData): Result<TextureData>
    requires PassesChecks(texture) ==> AtlasReadable(texture)
  {
    if texture.textureType != TEXTURE_2D then Fail(NOT_2D)
    else if texture.width / 4 != texture.height / 3 then Fail(NOT_SQUARE)
    else if texture.layers > 0 && texture.mipCount > 0 && GetPixelByteSize(texture.textureFormat).Fail? then
      Fail(GetPixelByteSize(texture.textureFormat).message)
    else
      Ok(TextureData(texture.filePath, texture.width / 4, texture.height / 3, texture.depth,
                     texture.mipCount, 6 * texture.layers, TEXTURE_CUBE, texture.textureFormat,
                     seq(6 * texture.layers, j requires 0 <= j < 6 * texture.layers =>
                       PartialLayer(texture, j, texture.mipCount))))
  }

  /** What the conversion promises: it fails exactly on a non-2D input, on
      non-square cells, or on a block-compressed atlas it has to cut; the
      cube has `W / 4` by `H / 3` square faces, six layers per atlas layer,
      the atlas's depth, format, path and mip count, and mip `m` of layer
      `6 * l + k` is face `k` cut from mip `m` of atlas layer `l`. */
  lemma CubeMapShape(texture: TextureData)
    requires PassesChecks(texture) ==> AtlasReadable(texture)
    ensures CubeMapOf(texture).Fail? <==>
              !PassesChecks(texture)
              || (texture.layers > 0 && texture.mipCount > 0 && GetPixelByteSize(texture.textureFormat).Fail?)
    ensures texture.textureType != TEXTURE_2D ==> CubeMapOf(texture) == Fail(NOT_2D)
    ensures CubeMapOf(texture).Ok? ==>
              var cube := CubeMapOf(texture).value;
              && cube.textureType == TEXTURE_CUBE
              && cube.width == cube.height == texture.width / 4
              && cube.layers == 6 * texture.layers && |cube.data| == cube.layers
              && cube.depth == texture.depth && cube.mipCount == texture.mipCount
              && cube.textureFormat == texture.textureFormat && cube.filePath == texture.filePath
              && (forall j :: 0 <= j < |cube.data| ==> |cube.data[j].mips| == texture.mipCount)
  {
  }

  /** Mip `m` of cube layer `6 * l + k` is face `k` cut from mip `m` of
      atlas layer `l`: the cell (CellX(k), CellY(k)) of that mip. */
  lemma CubeMapFace(texture: TextureData, l: nat, k: nat, m: nat)
    requires PassesChecks(texture) && AtlasReadable(texture)
    requires CubeMapOf(texture).Ok?
    requires l < texture.layers && k < 6 && m < texture.mipCount
    ensures 6 * l + k < |CubeMapOf(texture).value.data|
    ensures m < |CubeMapOf(texture).value.data[6 * l + k].mips|
    ensures FaceInBounds(|AtlasMip(texture, l, m)|, MipExtent(texture.width / 4, m),
                         MipExtent(texture.height / 3, m), PixelSize(texture.textureFormat), CellX(k), CellY(k))
    ensures CubeMapOf(texture).value.data[6 * l + k].mips[m].bytes
              == Face(AtlasMip(texture, l, m), MipExtent(texture.width / 4, m),
                      MipExtent(texture.height / 3, m), PixelSize(texture.textureFormat), CellX(k), CellY(k))
  {
    var j := 6 * l + k;
    DivMod6(l, k);
    CubeMapLayer(texture, j);
    PartialLayerMip(texture, j, texture.mipCount, m);
    CubeFaceCell(texture, l, m, k);
  }

  lemma DivMod6(l: nat, k: nat)
    requires k < 6
    ensures (6 * l + k) / 6 == l && (6 * l + k) % 6 == k
  {
  }

  /** An assigned mip of an output layer is its face. */
  lemma PartialLayerMip(texture: TextureData, j: nat, mip: nat, m: nat)
    requires AtlasReadable(texture)
    requires j < 6 * texture.layers && mip <= texture.mipCount && m < mip
    ensures j / 6 < texture.layers && j % 6 < 6
    ensures PartialLayer(texture, j, mip).mips[m] == MipData(CubeFaces(texture, j / 6, m)[j % 6])
  {
  }

  /** Layer `j` of the cube is the fully assigned output layer `j`. */
  lemma CubeMapLayer(texture: TextureData, j: nat)
    requires PassesChecks(texture) && AtlasReadable(texture)
    requires CubeMapOf(texture).Ok? && j < 6 * texture.layers
    ensures j < |CubeMapOf(texture).value.data|
    ensures CubeMapOf(texture).value.data[j] == PartialLayer(texture, j, texture.mipCount)
  {
  }

  /** Storing mip `mip` of a layer. */
  function SetMip(layer: LayerData, mip: nat, bytes: seq<Byte>): (stored: LayerData)
    requires mip < |layer.mips|
    ensures |stored.mips| == |layer.mips| && stored.mips[mip] == MipData(bytes)
    ensures forall m :: 0 <= m < |layer.mips| && m != mip ==> stored.mips[m] == layer.mips[m]
  {
    LayerData(layer.mips[mip := MipData(bytes)])
  }

  /** The six assignments `result.Data.Layers[6 * layer + k].Mips[mip].Bytes = ...`. */
  function StoreFaces(layers: seq<LayerData>, layer: nat, mip: nat, faces: seq<seq<Byte>>): (stored: seq<LayerData>)
    requires 6 * layer + 6 <= |layers| && |faces| == 6
    requires forall j :: 6 * layer <= j < 6 * layer + 6 ==> mip < |layers[j].mips|
    ensures |stored| == |layers|
    ensures forall j :: 0 <= j < |layers| && !(6 * layer <= j < 6 * layer + 6) ==> stored[j] == layers[j]
    ensures forall j :: 6 * layer <= j < 6 * layer + 6 ==> stored[j] == SetMip(layers[j], mip, faces[j - 6 * layer])
  {
    seq(|layers|, j requires 0 <= j < |layers| =>
      if 6 * layer <= j < 6 * layer + 6 then SetMip(layers[j], mip, faces[j - 6 * layer]) else layers[j])
  }

  /** Assigning the six faces of mip `mip` moves each output layer of atlas
      layer `layer` from `mip` assigned mips to `mip + 1`. */
  lemma StoreMip(texture: TextureData, layers: seq<LayerData>, layer: nat, mip: nat)
    requires AtlasReadable(texture)
    requires layer < texture.layers && mip < texture.mipCount && |layers| == 6 * texture.layers
    requires forall j :: 6 * layer <= j < 6 * layer + 6 ==> layers[j] == PartialLayer(texture, j, mip)
    ensures forall j :: 6 * layer <= j < 6 * layer + 6 ==> mip < |layers[j].mips|
    ensures var stored := StoreFaces(layers, layer, mip, CubeFaces(texture, layer, mip));
            forall j :: 6 * layer <= j < 6 * layer + 6 ==> stored[j] == PartialLayer(texture, j, mip + 1)
  {
    var stored := StoreFaces(layers, layer, mip, CubeFaces(texture, layer, mip));
    forall j | 6 * layer <= j < 6 * layer + 6
      ensures stored[j] == PartialLayer(texture, j, mip + 1)
    {
      assert j / 6 == layer && j % 6 == j - 6 * layer;
      assert stored[j].mips == PartialLayer(texture, j, mip + 1).mips;
    }
  }

  /** The six cells of one mip can be cut. */
  lemma MipCells(texture: TextureData, l: nat, m: nat)
    requires AtlasReadable(texture) && l < texture.layers && m < texture.mipCount
    ensures CellsInBounds(AtlasMip(texture, l, m), MipExtent(texture.width / 4, m),
                          MipExtent(texture.height / 3, m), PixelSize(texture.textureFormat))
  {
  }

  /** The body of the mip loop: the six ExtractCubemapFace calls on mip
      `mip` of atlas layer `layer`, in cube-face order. They all query the
      same pixel size, so they fail together. */
  method CutFaces(texture: TextureData, layer: nat, mip: nat) returns (r: Result<seq<seq<Byte>>>)
    requires AtlasReadable(texture) && layer < texture.layers && mip < texture.mipCount
    ensures r.Fail? <==> GetPixelByteSize(texture.textureFormat).Fail?
    ensures r.Fail? ==> r.message == GetPixelByteSize(texture.textureFormat).message
    ensures r.Ok? ==> r.value == CubeFaces(texture, layer, mip)
  {
    var bytes := AtlasMip(texture, layer, mip);
    var w := MipExtent(texture.width / 4, mip);
    var h := MipExtent(texture.height / 3, mip);
    MipCells(texture, layer, mip);
    var face0 := ExtractCubemapFace(bytes, w, h, texture.textureFormat, 2, 1);
    if face0.Fail? {
      return Fail(face0.message);
    }
    var face1 := ExtractCubemapFace(bytes, w, h, texture.textureFormat, 0, 1);
    var face2 := ExtractCubemapFace(bytes, w, h, texture.textureFormat, 1, 2);
    var face3 := ExtractCubemapFace(bytes, w, h, texture.textureFormat, 1, 0);
    var face4 := ExtractCubemapFace(bytes, w, h, texture.textureFormat, 1, 1);
    var face5 := ExtractCubemapFace(bytes, w, h, texture.textureFormat, 3, 1);
    r := Ok([face0.value, face1.value, face2.value, face3.value, face4.value, face5.value]);
  }

  /** Convert2DTextureToCubeMap: checks the input, sizes the output, then
      for every atlas layer resizes its six output layers to the mip count
      and cuts the six faces out of every mip. */
  method Convert2DTextureToCubeMap(texture: TextureData) returns (r: Result<TextureData>)
    requires PassesChecks(texture) ==> AtlasReadable(texture)
    ensures r == CubeMapOf(texture)
  {
    if texture.textureType != TEXTURE_2D {
      return Fail(NOT_2D);
    }
    var width := texture.width / 4;
    var height := texture.height / 3;
    var layerCount := texture.layers * 6;
    if width != height {
      return Fail(NOT_SQUARE);
    }
    var layers: seq<LayerData> := seq(layerCount, _ => LayerData([]));
    var layer := 0;
    while layer < texture.layers
      invariant layer <= texture.layers && |layers| == layerCount
      invariant forall j :: 0 <= j < 6 * layer ==> layers[j] == PartialLayer(texture, j, texture.mipCount)
      invariant forall j :: 6 * layer <= j < layerCount ==> layers[j] == LayerData([])
      invariant layer > 0 && texture.mipCount > 0 ==> GetPixelByteSize(texture.textureFormat).Ok?
    {
      var converted := ConvertLayer(texture, layers, layer);
      if converted.Fail? {
        return Fail(converted.message);
      }
      layers := converted.value;
      layer := layer + 1;
    }
    assert layers == seq(6 * texture.layers, j requires 0 <= j < 6 * texture.layers =>
                          PartialLayer(texture, j, texture.mipCount));
    r := Ok(TextureData(texture.filePath, width, height, texture.depth, texture.mipCount,
                        layerCount, TEXTURE_CUBE, texture.textureFormat, layers));
  }

  /** One pass of the outer loop: resize the six output layers of atlas
      layer `layer`, then cut and store the faces of every mip; a failed
      cut is returned at the first mip. */
  method ConvertLayer(texture: TextureData, layers: seq<LayerData>, layer: nat)
    returns (r: Result<seq<LayerData>>)
    requires AtlasReadable(texture)
    requires layer < texture.layers && |layers| == 6 * texture.layers
    requires forall j :: 0 <= j < 6 * layer ==> layers[j] == PartialLayer(texture, j, texture.mipCount)
    requires forall j :: 6 * layer <= j < |layers| ==> layers[j] == LayerData([])
    ensures r.Fail? <==> texture.mipCount > 0 && GetPixelByteSize(texture.textureFormat).Fail?
    ensures r.Fail? ==> r.message == GetPixelByteSize(texture.textureFormat).message
    ensures r.Ok? ==> |r.value| == |layers|
    ensures r.Ok? ==> forall j :: 0 <= j < 6 * layer + 6 ==>
                        r.value[j] == PartialLayer(texture, j, texture.mipCount)
    ensures r.Ok? ==> forall j :: 6 * layer + 6 <= j < |layers| ==> r.value[j] == LayerData([])
  {
    var current := ResizeLayers(texture, layers, layer);
    var mip := 0;
    while mip < texture.mipCount
      invariant mip <= texture.mipCount && |current| == |layers|
      invariant forall j :: 0 <= j < 6 * layer ==> current[j] == PartialLayer(texture, j, texture.mipCount)
      invariant forall j :: 6 * layer <= j < 6 * layer + 6 ==> current[j] == PartialLayer(texture, j, mip)
      invariant forall j :: 6 * layer + 6 <= j < |layers| ==> current[j] == LayerData([])
      invariant mip > 0 ==> GetPixelByteSize(texture.textureFormat).Ok?
    {
      var faces := CutFaces(texture, layer, mip);
      if faces.Fail? {
        return Fail(faces.message);
      }
      StoreMip(texture, current, layer, mip);
      current := StoreFaces(current, layer, mip, faces.value);
      mip := mip + 1;
    }
    r := Ok(current);
  }

  /** The resize loop: the six output layers of atlas layer `layer` get
      `MipCount` empty mips each, which is every one of them with no mip
      assigned yet. */
  method ResizeLayers(texture: TextureData, layers: seq<LayerData>, layer: nat) returns (resized: seq<LayerData>)
    requires AtlasReadable(texture)
    requires layer < texture.layers && |layers| == 6 * texture.layers
    ensures |resized| == |layers|
    ensures forall j :: 0 <= j < |layers| && !(6 * layer <= j < 6 * layer + 6) ==> resized[j] == layers[j]
    ensures forall j :: 6 * layer <= j < 6 * layer + 6 ==> resized[j] == PartialLayer(texture, j, 0)
  {
    resized := layers;
    var emptyMips := seq(texture.mipCount, _ => MipData([]));
    var face := 0;
    while face < 6
      invariant face <= 6 && |resized| == |layers|
      invariant forall j :: 0 <= j < |layers| && !(6 * layer <= j < 6 * layer + face) ==> resized[j] == layers[j]
      invariant forall j :: 6 * layer <= j < 6 * layer + face ==> resized[j] == LayerData(emptyMips)
    {
      resized := resized[6 * layer + face := LayerData(emptyMips)];
      face := face + 1;
    }
    forall j | 6 * layer <= j < 6 * layer + 6
      ensures resized[j] == PartialLayer(texture, j, 0)
    {
      assert resized[j].mips == PartialLayer(texture, j, 0).mips;
    }
  }
}

=== FILE: utilities.dfy ===
/** api/Utilities.h: the mip-level count and the operators that
    VALX_GENERATE_ENUM_OPS generates for every bit-flag enumeration, plus the
    integer and handle conventions shared by the other modules. */
module Utilities {

  /** The source's `uint32_t`. */
  type U32 = x: nat | x < 0x1_0000_0000

  /** An opaque native handle (VkInstance, VkSwapchainKHR, VmaAllocation, a
      `Context*` or `Logger*`, ...). Zero plays VK_NULL_HANDLE and nullptr. */
  type Handle = nat

  const NULL_HANDLE: Handle := 0

  /** A handle the driver or the allocator has actually handed out. */
  type LiveHandle = h: Handle | h != NULL_HANDLE witness 1

  /** Bit-flag enumerations (TextureFlags, BufferFlags, Vk*Flags) as the bits
      of their underlying 32-bit value. */
  type Flags = bv32

  function Pow2(k: nat): (r: nat)
    ensures r >= 1
  {
    if k == 0 then 1 else 2 * Pow2(k - 1)
  }

  /** Reference definition of the number of mip levels of a dimension `size`:
      one level for 0 and 1, one more for every halving. */
  function MipLevels(size: nat): nat
  {
    if size < 2 then 1 else 1 + MipLevels(size / 2)
  }

  /** GetMipLevelCount: `count = 1; while (size >>= 1) ++count;`.
      The count is the number of binary digits of `size` (floor(log2 size)+1),
      and 1 for a zero size. */
  method GetMipLevelCount(size: U32) returns (count: nat)
    ensures count == MipLevels(size)
    ensures size == 0 ==> count == 1
    ensures size > 0 ==> Pow2(count - 1) <= size < Pow2(count)
    ensures 1 <= count <= 32
  {
    count := 1;
    var s: nat := size / 2;
    while s != 0
      invariant MipLevels(size) == count + (if s == 0 then 0 else MipLevels(s))
      decreases s
    {
      count := count + 1;
      s := s / 2;
    }
    if size > 0 {
      MipLevelsBounds(size);
    }
    MipLevelsOfU32(size);
  }

  lemma {:induction false} MipLevelsBounds(size: nat)
    requires size >= 1
    ensures Pow2(MipLevels(size) - 1) <= size < Pow2(MipLevels(size))
  {
    if size >= 2 {
      MipLevelsBounds(size / 2);
    }
  }

  lemma {:induction false} MipLevelsOfPow2(k: nat)
    ensures MipLevels(Pow2(k)) == k + 1
  {
    if k > 0 {
      MipLevelsOfPow2(k - 1);
      assert Pow2(k) / 2 == Pow2(k - 1);
    }
  }

  lemma {:induction false} Pow2Monotone(a: nat, b: nat)
    requires a <= b
    ensures Pow2(a) <= Pow2(b)
  {
    if a < b {
      Pow2Monotone(a, b - 1);
    }
  }

  lemma {:induction false} Pow2Add(a: nat, b: nat)
    ensures Pow2(a + b) == Pow2(a) * Pow2(b)
  {
    if a > 0 {
      Pow2Add(a - 1, b);
    }
  }

  lemma Pow2Of32()
    ensures Pow2(32) == 0x1_0000_0000
  {
    assert Pow2(8) == 256;
    Pow2Add(8, 8);
    Pow2Add(16, 16);
  }

  /** For every 32-bit size the mip count lies in [1, 32]. */
  lemma MipLevelsOfU32(size: U32)
    ensures 1 <= MipLevels(size) <= 32
  {
    if size >= 1 {
      MipLevelsBounds(size);
      if MipLevels(size) > 32 {
        Pow2Monotone(32, MipLevels(size) - 1);
        Pow2Of32();
      }
    }
  }

  /** Bit `i` (0 to 31) of a flag value. */
  predicate Bit(x: Flags, i: bv5)
  {
    (x >> i) & 1 == 1
  }

  lemma AndBit(f1: Flags, f2: Flags, i: bv5)
    ensures Bit(f1 & f2, i) <==> Bit(f1, i) && Bit(f2, i)
  {
  }

  lemma OrBit(f1: Flags, f2: Flags, i: bv5)
    ensures Bit(f1 | f2, i) <==> Bit(f1, i) || Bit(f2, i)
  {
  }

  /** The generated `operator&`: bitwise AND of the underlying values. */
  function FlagAnd(f1: Flags, f2: Flags): (r: Flags)
    ensures forall i: bv5 :: Bit(r, i) <==> Bit(f1, i) && Bit(f2, i)
  {
    forall i: bv5 ensures Bit(f1 & f2, i) <==> Bit(f1, i) && Bit(f2, i) {
      AndBit(f1, f2, i);
    }
    f1 & f2
  }

  /** The generated `operator|`: bitwise OR of the underlying values. */
  function FlagOr(f1: Flags, f2: Flags): (r: Flags)
    ensures forall i: bv5 :: Bit(r, i) <==> Bit(f1, i) || Bit(f2, i)
  {
    forall i: bv5 ensures Bit(f1 | f2, i) <==> Bit(f1, i) || Bit(f2, i) {
      OrBit(f1, f2, i);
    }
    f1 | f2
  }

  /** A flag variable that the generated `&=` and `|=` assign through a
      reference. */
  class FlagVariable {
    var value: Flags

    constructor (initial: Flags)
      ensures value == initial
    {
      value := initial;
    }

    /** `f1 &= f2`: stores `f1 & f2` into the variable and returns it. */
    method AndAssign(f: Flags) returns (r: Flags)
      modifies this
      ensures value == FlagAnd(old(value), f)
      ensures r == value
    {
      value := FlagAnd(value, f);
      r := value;
    }

    /** `f1 |= f2`: stores `f1 | f2` into the variable and returns it. */
    method OrAssign(f: Flags) returns (r: Flags)
      modifies this
      ensures value == FlagOr(old(value), f)
      ensures r == value
    {
      value := FlagOr(value, f);
      r := value;
    }
  }
}

=== FILE: vulkan_buffer.dfy ===
/** backend/vulkan/VulkanBuffer.cpp with the buffer description of
    api/Buffer.h: the usage and memory translations, and the buffer object
    that keeps its description. The buffer and its allocation, which the
    allocator hands out, are given as input. */
module VulkanBuffer {
  import opened Wrappers
  import opened Utilities

  datatype BufferMemory = CPU_ONLY | GPU_ONLY | FROM_CPU_TO_GPU | FROM_GPU_TO_CPU | CPU_AS_BACKUP

  /** The BufferFlags enumerators, one bit each. */
  const BUFFER_FLAGS_NONE: Flags := 0
  const BUFFER_COPY_SRC: Flags := 0x01
  const BUFFER_COPY_DST: Flags := 0x02
  const BUFFER_UNIFORM_BUFFER: Flags := 0x04
  const BUFFER_STORAGE_BUFFER: Flags := 0x08
  const BUFFER_INDEX_BUFFER: Flags := 0x10
  const BUFFER_VERTEX_BUFFER: Flags := 0x20
  const BUFFER_INDIRECT_BUFFER: Flags := 0x40

  datatype BufferInfo = BufferInfo(name: string, flags: Flags, memoryType: BufferMemory, size: U32)

  const VK_BUFFER_USAGE_TRANSFER_SRC_BIT: Flags := 0x001
  const VK_BUFFER_USAGE_TRANSFER_DST_BIT: Flags := 0x002
  const VK_BUFFER_USAGE_UNIFORM_BUFFER_BIT: Flags := 0x010
  const VK_BUFFER_USAGE_STORAGE_BUFFER_BIT: Flags := 0x020
  const VK_BUFFER_USAGE_INDEX_BUFFER_BIT: Flags := 0x040
  const VK_BUFFER_USAGE_VERTEX_BUFFER_BIT: Flags := 0x080
  const VK_BUFFER_USAGE_INDIRECT_BUFFER_BIT: Flags := 0x100

  /** VmaMemoryUsage, by value. */
  const VMA_MEMORY_USAGE_GPU_ONLY: nat := 1
  const VMA_MEMORY_USAGE_CPU_ONLY: nat := 2
  const VMA_MEMORY_USAGE_CPU_TO_GPU: nat := 3
  const VMA_MEMORY_USAGE_GPU_TO_CPU: nat := 4
  const VMA_MEMORY_USAGE_CPU_COPY: nat := 5

  const VK_SHARING_MODE_EXCLUSIVE: nat := 0

  /** One `if (flags & F) result |= U;` step of ConvertBufferFlags. */
  function AddUsage(result: Flags, flags: Flags, f: Flags, u: Flags): Flags
  {
    if flags & f != 0 then result | u else result
  }

  /** ConvertBufferFlags: each of the seven buffer flags adds its usage
      bit. The two copy flags keep their position; the five others sit two
      places lower than their usage bits, skipping the texel-buffer usages;
      every other bit is dropped. */
  function ConvertBufferFlags(flags: Flags): (r: Flags)
    ensures r == (flags & 0x03) | ((flags & 0x7C) << 2)
  {
    var r1 := AddUsage(0, flags, BUFFER_COPY_SRC, VK_BUFFER_USAGE_TRANSFER_SRC_BIT);
    var r2 := AddUsage(r1, flags, BUFFER_COPY_DST, VK_BUFFER_USAGE_TRANSFER_DST_BIT);
    var r3 := AddUsage(r2, flags, BUFFER_UNIFORM_BUFFER, VK_BUFFER_USAGE_UNIFORM_BUFFER_BIT);
    var r4 := AddUsage(r3, flags, BUFFER_STORAGE_BUFFER, VK_BUFFER_USAGE_STORAGE_BUFFER_BIT);
    var r5 := AddUsage(r4, flags, BUFFER_INDEX_BUFFER, VK_BUFFER_USAGE_INDEX_BUFFER_BIT);
    var r6 := AddUsage(r5, flags, BUFFER_VERTEX_BUFFER, VK_BUFFER_USAGE_VERTEX_BUFFER_BIT);
    AddUsage(r6, flags, BUFFER_INDIRECT_BUFFER, VK_BUFFER_USAGE_INDIRECT_BUFFER_BIT)
  }

  /** No flag gives no usage, each flag gives its own usage bit, and the
      translation of a union is the union of the translations. */
  lemma ConvertBufferFlagsDistributes(a: Flags, b: Flags)
    ensures ConvertBufferFlags(BUFFER_FLAGS_NONE) == 0
    ensures ConvertBufferFlags(BUFFER_COPY_SRC) == VK_BUFFER_USAGE_TRANSFER_SRC_BIT
    ensures ConvertBufferFlags(BUFFER_COPY_DST) == VK_BUFFER_USAGE_TRANSFER_DST_BIT
    ensures ConvertBufferFlags(BUFFER_UNIFORM_BUFFER) == VK_BUFFER_USAGE_UNIFORM_BUFFER_BIT
    ensures ConvertBufferFlags(BUFFER_STORAGE_BUFFER) == VK_BUFFER_USAGE_STORAGE_BUFFER_BIT
    ensures ConvertBufferFlags(BUFFER_INDEX_BUFFER) == VK_BUFFER_USAGE_INDEX_BUFFER_BIT
    ensures ConvertBufferFlags(BUFFER_VERTEX_BUFFER) == VK_BUFFER_USAGE_VERTEX_BUFFER_BIT
    ensures ConvertBufferFlags(BUFFER_INDIRECT_BUFFER) == VK_BUFFER_USAGE_INDIRECT_BUFFER_BIT
    ensures ConvertBufferFlags(FlagOr(a, b)) == FlagOr(ConvertBufferFlags(a), ConvertBufferFlags(b))
  {
  }

  /** ConvertBufferMemory: the five memory kinds, backup memory being the
      allocator's CPU_COPY. */
  function ConvertBufferMemory(memory: BufferMemory): (r: nat)
    ensures VMA_MEMORY_USAGE_GPU_ONLY <= r <= VMA_MEMORY_USAGE_CPU_COPY
    ensures memory == CPU_AS_BACKUP <==> r == VMA_MEMORY_USAGE_CPU_COPY
    ensures memory == GPU_ONLY <==> r == VMA_MEMORY_USAGE_GPU_ONLY
    ensures memory == CPU_ONLY <==> r == VMA_MEMORY_USAGE_CPU_ONLY
    ensures memory == FROM_CPU_TO_GPU <==> r == VMA_MEMORY_USAGE_CPU_TO_GPU
    ensures memory == FROM_GPU_TO_CPU <==> r == VMA_MEMORY_USAGE_GPU_TO_CPU
  {
    match memory
    case CPU_ONLY => VMA_MEMORY_USAGE_CPU_ONLY
    case GPU_ONLY => VMA_MEMORY_USAGE_GPU_ONLY
    case FROM_CPU_TO_GPU => VMA_MEMORY_USAGE_CPU_TO_GPU
    case FROM_GPU_TO_CPU => VMA_MEMORY_USAGE_GPU_TO_CPU
    case CPU_AS_BACKUP => VMA_MEMORY_USAGE_CPU_COPY
  }

  /** Different memory kinds get different allocator usages. */
  lemma ConvertBufferMemoryInjective(m1: BufferMemory, m2: BufferMemory)
    requires ConvertBufferMemory(m1) == ConvertBufferMemory(m2)
    ensures m1 == m2
  {
  }

  /** VkBufferCreateInfo and the allocation usage, as handed to
      vmaCreateBuffer. */
  datatype BufferCreateInfo = BufferCreateInfo(sharingMode: nat, size: U32, usage: Flags,
                                               memoryUsage: nat)

  class VulkanBuffer {
    var info: BufferInfo
    var buffer: Handle
    var allocation: Handle
    /** The create info the buffer was made from. */
    ghost var bufferCreateInfo: BufferCreateInfo

    /** The constructor: the buffer is created with the translated usage
        and memory kind, then the description is stored. */
    constructor (info: BufferInfo, buffer: LiveHandle, allocation: LiveHandle)
      ensures GetInfo() == info && GetHandle() == buffer && this.allocation == allocation
      ensures bufferCreateInfo == BufferCreateInfo(VK_SHARING_MODE_EXCLUSIVE, info.size,
                                                   ConvertBufferFlags(info.flags),
                                                   ConvertBufferMemory(info.memoryType))
    {
      bufferCreateInfo := BufferCreateInfo(VK_SHARING_MODE_EXCLUSIVE, info.size,
                                           ConvertBufferFlags(info.flags),
                                           ConvertBufferMemory(info.memoryType));
      this.buffer := buffer;
      this.allocation := allocation;
      this.info := info;
    }

    function GetInfo(): BufferInfo
      reads this`info
    {
      info
    }

    function GetHandle(): Handle
      reads this`buffer
    {
      buffer
    }
  }
}

=== FILE: vulkan_context.dfy ===
/** backend/vulkan/VulkanContext.cpp: the decisions the Vulkan context makes
    on plain data while it starts up and shuts down.

    Every driver query is replaced by its answer, given as input: the queue
    families of a physical device, the list of physical devices with their
    properties, and the handles the driver hands out. A queue fetched with
    vkGetDeviceQueue is identified by its (family, index) pair. */
module VulkanContext {
  import opened Wrappers
  import opened Utilities
  import Logger

  // ---------------------------------------------------------------------
  // Queue families and CollectDeviceQueues
  // ---------------------------------------------------------------------

  const VK_QUEUE_GRAPHICS_BIT: Flags := 0x1
  const VK_QUEUE_COMPUTE_BIT: Flags := 0x2
  const VK_QUEUE_TRANSFER_BIT: Flags := 0x4

  /** One VkQueueFamilyProperties record, reduced to what is looked at. */
  datatype QueueFamily = QueueFamily(queueFlags: Flags, queueCount: U32)

  /** A VkDeviceQueueCreateInfo reduced to what is filled in. The
      value-initialised record is QueueCreateInfo(0, 0). */
  datatype QueueCreateInfo = QueueCreateInfo(queueFamilyIndex: nat, queueCount: nat)

  const ZERO_CREATE_INFO := QueueCreateInfo(0, 0)

  /** The DeviceQueues struct: one create info per role. The queue priority
      vectors hold `queueCount` copies of 1.0 and are not modelled. */
  datatype DeviceQueues = DeviceQueues(main: QueueCreateInfo, compute: QueueCreateInfo,
                                       transfer: QueueCreateInfo)

  datatype Role = Main | Compute | Transfer

  /** The test each branch of the else-if chain applies to a family. The main
      test is `flags & (GRAPHICS | COMPUTE)`: graphics OR compute. */
  predicate Qualifies(role: Role, f: QueueFamily)
  {
    match role
    case Main => f.queueFlags & (VK_QUEUE_GRAPHICS_BIT | VK_QUEUE_COMPUTE_BIT) != 0
    case Compute => f.queueFlags & VK_QUEUE_COMPUTE_BIT != 0 && f.queueFlags & VK_QUEUE_GRAPHICS_BIT == 0
    case Transfer =>
      f.queueFlags & VK_QUEUE_TRANSFER_BIT != 0
      && f.queueFlags & (VK_QUEUE_GRAPHICS_BIT | VK_QUEUE_COMPUTE_BIT) == 0
  }

  /** A compute family always passes the main test, and a transfer family
      passes neither of the other two. */
  lemma RoleTests(f: QueueFamily)
    ensures Qualifies(Compute, f) ==> Qualifies(Main, f)
    ensures Qualifies(Transfer, f) ==> !Qualifies(Main, f) && !Qualifies(Compute, f)
  {
  }

  /** The loop's state: the struct being filled and the three found-flags. */
  datatype Scan = Scan(queues: DeviceQueues, mainFound: bool, computeFound: bool,
                       transferFound: bool)

  const INITIAL_SCAN := Scan(DeviceQueues(ZERO_CREATE_INFO, ZERO_CREATE_INFO, ZERO_CREATE_INFO),
                             false, false, false)

  function Min(a: nat, b: nat): nat
  {
    if a <= b then a else b
  }

  /** One iteration of the loop over the families: family `f` at position
      `index` is offered to main, then compute, then transfer. */
  function ScanStep(s: Scan, f: QueueFamily, index: nat): Scan
  {
    if !s.mainFound && Qualifies(Main, f) then
      s.(queues := s.queues.(main := QueueCreateInfo(index, Min(4, f.queueCount))), mainFound := true)
    else if !s.computeFound && Qualifies(Compute, f) then
      s.(queues := s.queues.(compute := QueueCreateInfo(index, 1)), computeFound := true)
    else if !s.transferFound && Qualifies(Transfer, f) then
      s.(queues := s.queues.(transfer := QueueCreateInfo(index, f.queueCount)), transferFound := true)
    else
      s
  }

  /** The state after the loop has visited every family of `fs`. */
  function ScanFamilies(fs: seq<QueueFamily>): Scan
  {
    if |fs| == 0 then INITIAL_SCAN
    else ScanStep(ScanFamilies(fs[..|fs| - 1]), fs[|fs| - 1], |fs| - 1)
  }

  /** `i` is the first position of `fs` that qualifies for `role`, not
      counting position `skip`. */
  predicate IsFirst(fs: seq<QueueFamily>, role: Role, i: nat, skip: Option<nat>)
  {
    i < |fs| && Qualifies(role, fs[i]) && skip != Some(i)
    && forall j :: 0 <= j < i && Qualifies(role, fs[j]) ==> skip == Some(j)
  }

  /** No position of `fs` other than `skip` qualifies for `role`. */
  predicate NoneQualifies(fs: seq<QueueFamily>, role: Role, skip: Option<nat>)
  {
    forall j :: 0 <= j < |fs| && Qualifies(role, fs[j]) ==> skip == Some(j)
  }

  function IndexIf(found: bool, info: QueueCreateInfo): Option<nat>
  {
    if found then Some(info.queueFamilyIndex) else None
  }

  /** What a role gets when the scan is over: the first qualifying family
      (skipping the family already taken by main, for compute) with the
      role's queue count, or the value-initialised record if there is none. */
  predicate RoleOutcome(fs: seq<QueueFamily>, role: Role, found: bool, info: QueueCreateInfo,
                        skip: Option<nat>)
  {
    if found then
      IsFirst(fs, role, info.queueFamilyIndex, skip)
      && info.queueCount == (match role
                             case Main => Min(4, fs[info.queueFamilyIndex].queueCount)
                             case Compute => 1
                             case Transfer => fs[info.queueFamilyIndex].queueCount)
    else
      NoneQualifies(fs, role, skip) && info == ZERO_CREATE_INFO
  }

  /** Main goes to the first family that passes the main test. */
  lemma {:induction false} ScanMainRole(fs: seq<QueueFamily>)
    ensures var s := ScanFamilies(fs); RoleOutcome(fs, Main, s.mainFound, s.queues.main, None)
  {
    if |fs| > 0 {
      var n := |fs| - 1;
      ScanMainRole(fs[..n]);
      assert forall j :: 0 <= j < n ==> fs[j] == fs[..n][j];
    }
  }

  /** Compute goes to the first family, other than the main one, that passes
      the compute test. */
  lemma {:induction false} ScanComputeRole(fs: seq<QueueFamily>)
    ensures var s := ScanFamilies(fs);
      RoleOutcome(fs, Compute, s.computeFound, s.queues.compute, IndexIf(s.mainFound, s.queues.main))
  {
    if |fs| > 0 {
      var n := |fs| - 1;
      var prefix := fs[..n];
      var p := ScanFamilies(prefix);
      ScanComputeRole(prefix);
      ScanMainRole(prefix);
      assert forall j :: 0 <= j < n ==> fs[j] == prefix[j];
      if !p.mainFound {
        // Before the main family is found no family can pass the compute test.
        forall j | 0 <= j < n
          ensures !Qualifies(Compute, prefix[j])
        {
          RoleTests(prefix[j]);
        }
        RoleTests(fs[n]);
      }
    }
  }

  /** Transfer goes to the first family that passes the transfer test. */
  lemma {:induction false} ScanTransferRole(fs: seq<QueueFamily>)
    ensures var s := ScanFamilies(fs);
      RoleOutcome(fs, Transfer, s.transferFound, s.queues.transfer, None)
  {
    if |fs| > 0 {
      var n := |fs| - 1;
      var prefix := fs[..n];
      ScanTransferRole(prefix);
      RoleTests(fs[n]);
      assert forall j :: 0 <= j < n ==> fs[j] == prefix[j];
    }
  }

  /** No family index is given two roles. */
  lemma ScanRolesDisjoint(fs: seq<QueueFamily>)
    ensures var s := ScanFamilies(fs);
      && (s.computeFound ==> s.mainFound
                             && s.queues.compute.queueFamilyIndex != s.queues.main.queueFamilyIndex)
      && (s.transferFound && s.mainFound ==>
            s.queues.transfer.queueFamilyIndex != s.queues.main.queueFamilyIndex)
      && (s.transferFound && s.computeFound ==>
            s.queues.transfer.queueFamilyIndex != s.queues.compute.queueFamilyIndex)
  {
    var s := ScanFamilies(fs);
    ScanMainRole(fs);
    ScanComputeRole(fs);
    ScanTransferRole(fs);
    if s.computeFound {
      RoleTests(fs[s.queues.compute.queueFamilyIndex]);
    }
    if s.transferFound {
      RoleTests(fs[s.queues.transfer.queueFamilyIndex]);
    }
  }

  /** CollectDeviceQueues: one greedy pass over the device's queue families,
      then the "cannot find main queue" assertion on the main count. */
  method CollectDeviceQueues(families: seq<QueueFamily>) returns (r: Result<DeviceQueues>)
    ensures r.Ok? <==> ScanFamilies(families).queues.main.queueCount > 0
    ensures r.Ok? ==> r.value == ScanFamilies(families).queues
    ensures r.Fail? ==> r.message == "cannot find main queue"
    ensures r.Ok? ==> IsFirst(families, Main, r.value.main.queueFamilyIndex, None)
                      && r.value.main.queueCount == Min(4, families[r.value.main.queueFamilyIndex].queueCount)
  {
    var deviceQueues := DeviceQueues(ZERO_CREATE_INFO, ZERO_CREATE_INFO, ZERO_CREATE_INFO);
    var mainFamilyFound := false;
    var computeFamilyFound := false;
    var transferFamilyFound := false;
    var queueFamilyIndex: nat := 0;
    while queueFamilyIndex < |families|
      invariant queueFamilyIndex <= |families|
      invariant Scan(deviceQueues, mainFamilyFound, computeFamilyFound, transferFamilyFound)
                == ScanFamilies(families[..queueFamilyIndex])
    {
      var properties := families[queueFamilyIndex];
      assert families[..queueFamilyIndex + 1][..queueFamilyIndex] == families[..queueFamilyIndex];
      if !mainFamilyFound && Qualifies(Main, properties) {
        deviceQueues := deviceQueues.(main := QueueCreateInfo(queueFamilyIndex, Min(4, properties.queueCount)));
        mainFamilyFound := true;
      } else if !computeFamilyFound && Qualifies(Compute, properties) {
        deviceQueues := deviceQueues.(compute := QueueCreateInfo(queueFamilyIndex, 1));
        computeFamilyFound := true;
      } else if !transferFamilyFound && Qualifies(Transfer, properties) {
        deviceQueues := deviceQueues.(transfer := QueueCreateInfo(queueFamilyIndex, properties.queueCount));
        transferFamilyFound := true;
      }
      queueFamilyIndex := queueFamilyIndex + 1;
    }
    assert families[..|families|] == families;
    ScanMainRole(families);
    if deviceQueues.main.queueCount > 0 {
      r := Ok(deviceQueues);
    } else {
      r := Fail("cannot find main queue");
    }
  }

  /** The create infos passed to vkCreateDevice: the roles whose queue count
      is non-zero, in the order main, compute, transfer. */
  function QueueCreateInfos(dq: DeviceQueues): (infos: seq<QueueCreateInfo>)
    ensures |infos| == (if dq.main.queueCount > 0 then 1 else 0)
                       + (if dq.compute.queueCount > 0 then 1 else 0)
                       + (if dq.transfer.queueCount > 0 then 1 else 0)
    ensures forall k :: 0 <= k < |infos| ==> infos[k].queueCount > 0
    ensures dq.main.queueCount > 0 ==> infos[0] == dq.main
    ensures dq.transfer.queueCount > 0 ==> infos[|infos| - 1] == dq.transfer
    ensures dq.compute.queueCount > 0 ==> infos[if dq.main.queueCount > 0 then 1 else 0] == dq.compute
  {
    (if dq.main.queueCount > 0 then [dq.main] else [])
    + (if dq.compute.queueCount > 0 then [dq.compute] else [])
    + (if dq.transfer.queueCount > 0 then [dq.transfer] else [])
  }

  /** The struct CollectDeviceQueues returns on success: a main role with
      queues, and no family shared between two roles that request queues. */
  predicate WellFormedQueues(dq: DeviceQueues)
  {
    && dq.main.queueCount > 0
    && (dq.compute.queueCount > 0 ==> dq.compute.queueFamilyIndex != dq.main.queueFamilyIndex)
    && (dq.transfer.queueCount > 0 ==>
          && dq.transfer.queueFamilyIndex != dq.main.queueFamilyIndex
          && (dq.compute.queueCount > 0 ==>
                dq.transfer.queueFamilyIndex != dq.compute.queueFamilyIndex))
  }

  /** What CollectDeviceQueues produces is a valid request for
      vkCreateDevice: at least one create info, every family index names a
      family of the device and appears once, and no family is asked for more
      queues than it has (every Vulkan queue family has at least one). */
  lemma CollectedQueuesValid(families: seq<QueueFamily>)
    requires forall k :: 0 <= k < |families| ==> families[k].queueCount >= 1
    requires ScanFamilies(families).queues.main.queueCount > 0
    ensures WellFormedQueues(ScanFamilies(families).queues)
    ensures var infos := QueueCreateInfos(ScanFamilies(families).queues);
      && |infos| >= 1
      && (forall k :: 0 <= k < |infos| ==>
            infos[k].queueFamilyIndex < |families|
            && infos[k].queueCount <= families[infos[k].queueFamilyIndex].queueCount)
      && (forall k1, k2 :: 0 <= k1 < k2 < |infos| ==>
            infos[k1].queueFamilyIndex != infos[k2].queueFamilyIndex)
  {
    var s := ScanFamilies(families);
    ScanMainRole(families);
    ScanComputeRole(families);
    ScanTransferRole(families);
    ScanRolesDisjoint(families);
  }

  // ---------------------------------------------------------------------
  // Queue retrieval
  // ---------------------------------------------------------------------

  /** A VkQueue: the queue at `queueIndex` in family `familyIndex`, as
      vkGetDeviceQueue returns it, or VK_NULL_HANDLE. */
  datatype Queue = NullQueue | DeviceQueue(familyIndex: nat, queueIndex: nat)

  /** The queue fields of VulkanContext. */
  datatype QueueSelection = QueueSelection(
    mainQueue: Queue, mainQueueFamilyIndex: nat,
    computeQueue: Queue, computeQueueFamilyIndex: nat,
    transferQueues: seq<Queue>, transferQueueFamilyIndex: nat)

  /** The in-class initial values of those fields. */
  const NO_QUEUES_SELECTED := QueueSelection(NullQueue, 0, NullQueue, 0, [], 0)

  /** `count` consecutive queues of one family, starting at `first`. */
  function QueuesOfFamily(family: nat, first: nat, count: nat): (qs: seq<Queue>)
    ensures |qs| == count
    ensures forall i :: 0 <= i < count ==> qs[i] == DeviceQueue(family, first + i)
  {
    seq(count, i requires 0 <= i => DeviceQueue(family, first + i))
  }

  /** The queue-selection block run on fields holding `s`: one queue per role
      that has a family, then the fallbacks that borrow queue 1 (compute) and
      queues 2.. (transfer) of the main family. */
  function SelectQueues(dq: DeviceQueues, s: QueueSelection): QueueSelection
  {
    var m := dq.main;
    var c := dq.compute;
    var t := dq.transfer;
    var s1 := if m.queueCount > 0
              then s.(mainQueueFamilyIndex := m.queueFamilyIndex,
                      mainQueue := DeviceQueue(m.queueFamilyIndex, 0))
              else s;
    var s2 := if c.queueCount > 0
              then s1.(computeQueueFamilyIndex := c.queueFamilyIndex,
                       computeQueue := DeviceQueue(c.queueFamilyIndex, 0))
              else s1;
    var s3 := if t.queueCount > 0
              then s2.(transferQueueFamilyIndex := t.queueFamilyIndex,
                       transferQueues := QueuesOfFamily(t.queueFamilyIndex, 0, t.queueCount))
              else s2;
    var s4 := if s3.computeQueue == NullQueue && m.queueCount > 1
              then s3.(computeQueueFamilyIndex := m.queueFamilyIndex,
                       computeQueue := DeviceQueue(m.queueFamilyIndex, 1))
              else s3;
    if |s4.transferQueues| == 0 && m.queueCount > 2
    then s4.(transferQueueFamilyIndex := m.queueFamilyIndex,
             transferQueues := QueuesOfFamily(m.queueFamilyIndex, 2, m.queueCount - 2))
    else s4
  }

  /** Every queue the context ends up holding, main first. */
  function HeldQueues(s: QueueSelection): seq<Queue>
  {
    [s.mainQueue] + (if s.computeQueue == NullQueue then [] else [s.computeQueue]) + s.transferQueues
  }

  /** `q` is one of the queues vkCreateDevice was asked to create. */
  predicate Requested(dq: DeviceQueues, q: Queue)
  {
    var infos := QueueCreateInfos(dq);
    q.DeviceQueue? && exists k :: 0 <= k < |infos| && infos[k].queueFamilyIndex == q.familyIndex
                                                  && q.queueIndex < infos[k].queueCount
  }

  /** On a fresh context, the queue-selection block fetches only queues that
      were requested at device creation, never the same queue for two
      purposes, and each queue from the family recorded for its role. The
      compute queue exists iff there is a compute family or the main family
      has at least two queues; the transfer queues are the whole transfer
      family, or else the main family's queues beyond the second. */
  lemma {:induction false} SelectedQueuesRequested(dq: DeviceQueues)
    requires WellFormedQueues(dq)
    ensures var sel := SelectQueues(dq, NO_QUEUES_SELECTED);
      && sel.mainQueue == DeviceQueue(dq.main.queueFamilyIndex, 0)
      && sel.mainQueueFamilyIndex == dq.main.queueFamilyIndex
      && (sel.computeQueue != NullQueue <==> dq.compute.queueCount > 0 || dq.main.queueCount > 1)
      && (sel.computeQueue != NullQueue ==> sel.computeQueue.familyIndex == sel.computeQueueFamilyIndex)
      && (dq.compute.queueCount > 0 ==>
            sel.computeQueue == DeviceQueue(dq.compute.queueFamilyIndex, 0)
            && sel.computeQueueFamilyIndex == dq.compute.queueFamilyIndex)
      && (dq.transfer.queueCount > 0 ==>
            sel.transferQueues == QueuesOfFamily(dq.transfer.queueFamilyIndex, 0, dq.transfer.queueCount)
            && sel.transferQueueFamilyIndex == dq.transfer.queueFamilyIndex)
      && (dq.compute.queueCount == 0 && dq.main.queueCount > 1 ==>
            sel.computeQueue == DeviceQueue(dq.main.queueFamilyIndex, 1)
            && sel.computeQueueFamilyIndex == dq.main.queueFamilyIndex)
      && (dq.transfer.queueCount == 0 && dq.main.queueCount > 2 ==>
            sel.transferQueues == QueuesOfFamily(dq.main.queueFamilyIndex, 2, dq.main.queueCount - 2)
            && sel.transferQueueFamilyIndex == dq.main.queueFamilyIndex)
      && |sel.transferQueues| == (if dq.transfer.queueCount > 0 then dq.transfer.queueCount
                                  else if dq.main.queueCount > 2 then dq.main.queueCount - 2
                                  else 0)
      && (forall i :: 0 <= i < |sel.transferQueues| ==>
            sel.transferQueues[i].DeviceQueue?
            && sel.transferQueues[i].familyIndex == sel.transferQueueFamilyIndex)
    ensures var held := HeldQueues(SelectQueues(dq, NO_QUEUES_SELECTED));
      && (forall i :: 0 <= i < |held| ==> Requested(dq, held[i]))
      && (forall i, j :: 0 <= i < j < |held| ==> held[i] != held[j])
  {
    var sel := SelectQueues(dq, NO_QUEUES_SELECTED);
    var held := HeldQueues(sel);
    var infos := QueueCreateInfos(dq);
    var c := if sel.computeQueue == NullQueue then 0 else 1;
    assert |held| == 1 + c + |sel.transferQueues|;
    assert forall i :: 1 + c <= i < |held| ==> held[i] == sel.transferQueues[i - 1 - c];
    // Indices of the create infos of each role.
    var ci := 1;
    var ti := |infos| - 1;
    forall i | 0 <= i < |held|
      ensures Requested(dq, held[i])
    {
      if i == 0 {
        assert infos[0] == dq.main;
      } else if i < 1 + c {
        if dq.compute.queueCount > 0 {
          assert infos[ci] == dq.compute;
        } else {
          assert infos[0] == dq.main;
        }
      } else if dq.transfer.queueCount > 0 {
        assert infos[ti] == dq.transfer;
      } else {
        assert infos[0] == dq.main;
      }
    }
  }

  // ---------------------------------------------------------------------
  // Physical-device selection
  // ---------------------------------------------------------------------

  /** The facade's DeviceType. */
  datatype DeviceType = CPU | DISCRETE_GPU | INTEGRATED_GPU | VIRTUAL_GPU | ANY

  /** VkPhysicalDeviceType, by its numeric value. */
  type VkPhysicalDeviceType = nat

  const VK_PHYSICAL_DEVICE_TYPE_OTHER: VkPhysicalDeviceType := 0
  const VK_PHYSICAL_DEVICE_TYPE_INTEGRATED_GPU: VkPhysicalDeviceType := 1
  const VK_PHYSICAL_DEVICE_TYPE_DISCRETE_GPU: VkPhysicalDeviceType := 2
  const VK_PHYSICAL_DEVICE_TYPE_VIRTUAL_GPU: VkPhysicalDeviceType := 3
  const VK_PHYSICAL_DEVICE_TYPE_CPU: VkPhysicalDeviceType := 4

  /** ConvertDeviceTypeVulkan: each concrete type to its Vulkan namesake and
      ANY to OTHER. The enumeration is closed, so the "invalid device type"
      default cannot be reached. */
  function ConvertDeviceTypeVulkan(t: DeviceType): (r: VkPhysicalDeviceType)
    ensures r <= VK_PHYSICAL_DEVICE_TYPE_CPU
    ensures r == VK_PHYSICAL_DEVICE_TYPE_OTHER <==> t == ANY
    ensures r == VK_PHYSICAL_DEVICE_TYPE_CPU <==> t == CPU
    ensures r == VK_PHYSICAL_DEVICE_TYPE_DISCRETE_GPU <==> t == DISCRETE_GPU
    ensures r == VK_PHYSICAL_DEVICE_TYPE_INTEGRATED_GPU <==> t == INTEGRATED_GPU
    ensures r == VK_PHYSICAL_DEVICE_TYPE_VIRTUAL_GPU <==> t == VIRTUAL_GPU
  {
    match t
    case CPU => VK_PHYSICAL_DEVICE_TYPE_CPU
    case DISCRETE_GPU => VK_PHYSICAL_DEVICE_TYPE_DISCRETE_GPU
    case INTEGRATED_GPU => VK_PHYSICAL_DEVICE_TYPE_INTEGRATED_GPU
    case VIRTUAL_GPU => VK_PHYSICAL_DEVICE_TYPE_VIRTUAL_GPU
    case ANY => VK_PHYSICAL_DEVICE_TYPE_OTHER
  }

  /** Different facade types name different Vulkan types. */
  lemma ConvertDeviceTypeVulkanInjective(t1: DeviceType, t2: DeviceType)
    requires ConvertDeviceTypeVulkan(t1) == ConvertDeviceTypeVulkan(t2)
    ensures t1 == t2
  {
  }

  /** VkPhysicalDeviceProperties, reduced to what the selection reads. */
  datatype PhysicalDeviceProperties = PhysicalDeviceProperties(
    apiVersion: bv32, deviceType: VkPhysicalDeviceType, deviceName: string)

  const EMPTY_PROPERTIES := PhysicalDeviceProperties(0, VK_PHYSICAL_DEVICE_TYPE_OTHER, "")

  /** A physical device as the driver reports it. */
  datatype PhysicalDevice = PhysicalDevice(
    handle: LiveHandle, properties: PhysicalDeviceProperties, queueFamilies: seq<QueueFamily>)

  /** The two `continue` tests of the device loop, negated: the device's API
      version is not older than the requested one, and its type is the
      preferred one unless ANY type is preferred. Versions compare as
      unsigned 32-bit integers. */
  predicate IsSuitable(p: PhysicalDeviceProperties, apiVersion: bv32, preferred: DeviceType)
  {
    !(p.apiVersion < apiVersion)
    && (preferred == ANY || p.deviceType == ConvertDeviceTypeVulkan(preferred))
  }

  /** The position of the last suitable device of `ds`, if any. */
  function LastSuitable(ds: seq<PhysicalDevice>, apiVersion: bv32, preferred: DeviceType): (r: Option<nat>)
    ensures r.Some? ==> r.value < |ds|
  {
    if |ds| == 0 then None
    else if IsSuitable(ds[|ds| - 1].properties, apiVersion, preferred) then Some(|ds| - 1)
    else LastSuitable(ds[..|ds| - 1], apiVersion, preferred)
  }

  /** LastSuitable finds a suitable device with no suitable device after it,
      and finds nothing only when no device is suitable. */
  lemma {:induction false} LastSuitableIsLast(ds: seq<PhysicalDevice>, apiVersion: bv32, preferred: DeviceType)
    ensures match LastSuitable(ds, apiVersion, preferred)
      case Some(i) =>
        i < |ds| && IsSuitable(ds[i].properties, apiVersion, preferred)
        && forall j :: i < j < |ds| ==> !IsSuitable(ds[j].properties, apiVersion, preferred)
      case None =>
        forall j :: 0 <= j < |ds| ==> !IsSuitable(ds[j].properties, apiVersion, preferred)
  {
    if |ds| > 0 && !IsSuitable(ds[|ds| - 1].properties, apiVersion, preferred) {
      var n := |ds| - 1;
      LastSuitableIsLast(ds[..n], apiVersion, preferred);
      assert forall j :: 0 <= j < n ==> ds[j] == ds[..n][j];
    }
  }

  lemma LastSuitableStep(ds: seq<PhysicalDevice>, i: nat, apiVersion: bv32, preferred: DeviceType)
    requires i < |ds|
    ensures LastSuitable(ds[..i + 1], apiVersion, preferred)
            == if IsSuitable(ds[i].properties, apiVersion, preferred) then Some(i)
               else LastSuitable(ds[..i], apiVersion, preferred)
  {
    assert ds[..i + 1][..i] == ds[..i];
  }

  /** The handle and properties held after selecting `selected` among `ds`:
      those of the selected device, or the previous ones if none. */
  predicate Picked(ds: seq<PhysicalDevice>, selected: Option<nat>, handle: Handle,
                   properties: PhysicalDeviceProperties, previousHandle: Handle,
                   previousProperties: PhysicalDeviceProperties)
  {
    match selected
    case Some(i) => i < |ds| && handle == ds[i].handle && properties == ds[i].properties
    case None => handle == previousHandle && properties == previousProperties
  }

  /** The queue families the driver reports for a physical-device handle. */
  function QueueFamiliesOf(ds: seq<PhysicalDevice>, handle: Handle): seq<QueueFamily>
  {
    if |ds| == 0 then []
    else if ds[0].handle == handle then ds[0].queueFamilies
    else QueueFamiliesOf(ds[1..], handle)
  }

  // ---------------------------------------------------------------------
  // Instance and device creation parameters
  // ---------------------------------------------------------------------

  /** ContextCreateInfo. */
  datatype ContextCreateInfo = ContextCreateInfo(
    apiMajorVersion: bv32, apiMinorVersion: bv32, useValidationLayer: bool,
    applicationName: string, engineName: string, preferredDeviceType: DeviceType,
    extensions: seq<string>)

  /** The member initialisers of ContextCreateInfo: Vulkan 1.2, validation
      on, a discrete GPU preferred. */
  const DEFAULT_CONTEXT_CREATE_INFO :=
    ContextCreateInfo(1, 2, true, "VALX", "VALX", DISCRETE_GPU, [])

  const VK_EXT_DEBUG_UTILS_EXTENSION_NAME := "VK_EXT_debug_utils"
  const VK_KHR_SWAPCHAIN_EXTENSION_NAME := "VK_KHR_swapchain"
  const VK_EXT_DESCRIPTOR_INDEXING_EXTENSION_NAME := "VK_EXT_descriptor_indexing"
  const VK_KHR_MULTIVIEW_EXTENSION_NAME := "VK_KHR_multiview"
  const VALIDATION_LAYER_NAME := "VK_LAYER_KHRONOS_validation"

  /** VK_MAKE_API_VERSION(0, major, minor, 0) on 32-bit unsigned values:
      the major number in bits 22 up, the minor number in bits 12 up. */
  function MakeApiVersion(major: bv32, minor: bv32): bv32
  {
    (major << 22) | (minor << 12)
  }

  /** VK_API_VERSION_MAJOR and VK_API_VERSION_MINOR. */
  function ApiVersionMajor(v: bv32): bv32 { (v >> 22) & 0x7F }
  function ApiVersionMinor(v: bv32): bv32 { (v >> 12) & 0x3FF }

  /** For the version numbers Vulkan can encode (major below 128, minor below
      1024) the packed version gives both numbers back. */
  lemma ApiVersionRoundTrip(major: bv32, minor: bv32)
    requires major < 128 && minor < 1024
    ensures ApiVersionMajor(MakeApiVersion(major, minor)) == major
    ensures ApiVersionMinor(MakeApiVersion(major, minor)) == minor
  {
  }

  /** The instance extensions: the caller's, in order, then the debug-utils
      extension when validation is on. */
  function InstanceExtensions(info: ContextCreateInfo): (r: seq<string>)
    ensures |r| == |info.extensions| + (if info.useValidationLayer then 1 else 0)
    ensures r[..|info.extensions|] == info.extensions
    ensures info.useValidationLayer ==> r[|r| - 1] == VK_EXT_DEBUG_UTILS_EXTENSION_NAME
  {
    info.extensions + (if info.useValidationLayer then [VK_EXT_DEBUG_UTILS_EXTENSION_NAME] else [])
  }

  /** The instance layers: only the Khronos validation layer, and only when
      validation is on. */
  function InstanceLayers(info: ContextCreateInfo): (r: seq<string>)
    ensures VALIDATION_LAYER_NAME in r <==> info.useValidationLayer
    ensures |r| <= 1
  {
    if info.useValidationLayer then [VALIDATION_LAYER_NAME] else []
  }

  /** The device extensions, always the same three. */
  const DEVICE_EXTENSIONS := [VK_KHR_SWAPCHAIN_EXTENSION_NAME,
                              VK_EXT_DESCRIPTOR_INDEXING_EXTENSION_NAME,
                              VK_KHR_MULTIVIEW_EXTENSION_NAME]

  // ---------------------------------------------------------------------
  // Validation messages
  // ---------------------------------------------------------------------

  const VK_DEBUG_UTILS_MESSAGE_SEVERITY_VERBOSE_BIT_EXT: Flags := 0x1
  const VK_DEBUG_UTILS_MESSAGE_SEVERITY_INFO_BIT_EXT: Flags := 0x10
  const VK_DEBUG_UTILS_MESSAGE_SEVERITY_WARNING_BIT_EXT: Flags := 0x100
  const VK_DEBUG_UTILS_MESSAGE_SEVERITY_ERROR_BIT_EXT: Flags := 0x1000

  const VK_DEBUG_UTILS_MESSAGE_TYPE_GENERAL_BIT_EXT: Flags := 0x1
  const VK_DEBUG_UTILS_MESSAGE_TYPE_VALIDATION_BIT_EXT: Flags := 0x2
  const VK_DEBUG_UTILS_MESSAGE_TYPE_PERFORMANCE_BIT_EXT: Flags := 0x4

  /** The severities and message types the messenger subscribes to: every
      severity but verbose, every type. */
  const MESSENGER_SEVERITIES: Flags := VK_DEBUG_UTILS_MESSAGE_SEVERITY_ERROR_BIT_EXT
    | VK_DEBUG_UTILS_MESSAGE_SEVERITY_WARNING_BIT_EXT | VK_DEBUG_UTILS_MESSAGE_SEVERITY_INFO_BIT_EXT
  const MESSENGER_TYPES: Flags := VK_DEBUG_UTILS_MESSAGE_TYPE_GENERAL_BIT_EXT
    | VK_DEBUG_UTILS_MESSAGE_TYPE_VALIDATION_BIT_EXT | VK_DEBUG_UTILS_MESSAGE_TYPE_PERFORMANCE_BIT_EXT

  /** Which logger method DebugUtilsMessengerCallback calls for a severity
      mask: the most severe of the error, warning and info bits wins, and a
      mask with none of them (verbose) is dropped. */
  function ValidationMessageLevel(severity: Flags): (level: Option<Logger.Severity>)
    ensures level == Some(Logger.Error) <==> severity & VK_DEBUG_UTILS_MESSAGE_SEVERITY_ERROR_BIT_EXT != 0
    ensures level == Some(Logger.Warning) <==>
              severity & VK_DEBUG_UTILS_MESSAGE_SEVERITY_ERROR_BIT_EXT == 0
              && severity & VK_DEBUG_UTILS_MESSAGE_SEVERITY_WARNING_BIT_EXT != 0
    ensures level == Some(Logger.Info) <==>
              severity & (VK_DEBUG_UTILS_MESSAGE_SEVERITY_ERROR_BIT_EXT
                          | VK_DEBUG_UTILS_MESSAGE_SEVERITY_WARNING_BIT_EXT) == 0
              && severity & VK_DEBUG_UTILS_MESSAGE_SEVERITY_INFO_BIT_EXT != 0
    ensures level == None <==>
              severity & (VK_DEBUG_UTILS_MESSAGE_SEVERITY_ERROR_BIT_EXT
                          | VK_DEBUG_UTILS_MESSAGE_SEVERITY_WARNING_BIT_EXT
                          | VK_DEBUG_UTILS_MESSAGE_SEVERITY_INFO_BIT_EXT) == 0
  {
    if severity & VK_DEBUG_UTILS_MESSAGE_SEVERITY_ERROR_BIT_EXT != 0 then Some(Logger.Error)
    else if severity & VK_DEBUG_UTILS_MESSAGE_SEVERITY_WARNING_BIT_EXT != 0 then Some(Logger.Warning)
    else if severity & VK_DEBUG_UTILS_MESSAGE_SEVERITY_INFO_BIT_EXT != 0 then Some(Logger.Info)
    else None
  }

  /** DebugUtilsMessengerCallback with the console logger as the current
      logger: at most one line, tagged "Vulkan Validation", and VK_FALSE so
      that the call that raised the message is not aborted. */
  method DebugUtilsMessengerCallback(severity: Flags, message: string, logger: Logger.ConsoleLogger)
    returns (abortCall: bool)
    modifies logger
    ensures !abortCall
    ensures match ValidationMessageLevel(severity)
      case Some(level) =>
        logger.written == old(logger.written) + [Logger.ConsoleLine(level, "Vulkan Validation", message)]
      case None => logger.written == old(logger.written)
  {
    if severity & VK_DEBUG_UTILS_MESSAGE_SEVERITY_ERROR_BIT_EXT != 0 {
      logger.LogError("Vulkan Validation", message);
    } else if severity & VK_DEBUG_UTILS_MESSAGE_SEVERITY_WARNING_BIT_EXT != 0 {
      logger.LogWarning("Vulkan Validation", message);
    } else if severity & VK_DEBUG_UTILS_MESSAGE_SEVERITY_INFO_BIT_EXT != 0 {
      logger.LogInfo("Vulkan Validation", message);
    }
    abortCall := false;
  }

  // ---------------------------------------------------------------------
  // The context object: construction and destruction
  // ---------------------------------------------------------------------

  /** The driver and library calls that create or destroy something. */
  datatype DriverCall =
    | CreateInstance(apiVersion: bv32, extensions: seq<string>, layers: seq<string>)
    | CreateDevice(physicalDevice: Handle, queueCreateInfos: seq<QueueCreateInfo>,
                   deviceExtensions: seq<string>)
    | CreateDebugUtilsMessenger(messageSeverity: Flags, messageType: Flags)
    | CreateAllocator(allocatorApiVersion: bv32, allocatorPhysicalDevice: Handle,
                      allocatorDevice: Handle, allocatorInstance: Handle)
    | InitializeCompiler
    | FinalizeCompiler
    | DestroyAllocator(allocator: Handle)
    | DestroyDebugUtilsMessenger(messenger: Handle)
    | DestroyDevice(device: Handle)
    | DestroyInstance(instance: Handle)

  datatype Resource = InstanceResource | DeviceResource | MessengerResource | AllocatorResource
                    | CompilerResource

  /** The resource a call creates, if any. */
  function Creates(c: DriverCall): seq<Resource>
  {
    match c
    case CreateInstance(_, _, _) => [InstanceResource]
    case CreateDevice(_, _, _) => [DeviceResource]
    case CreateDebugUtilsMessenger(_, _) => [MessengerResource]
    case CreateAllocator(_, _, _, _) => [AllocatorResource]
    case InitializeCompiler => [CompilerResource]
    case _ => []
  }

  /** The resource a call destroys, if any. */
  function Destroys(c: DriverCall): seq<Resource>
  {
    match c
    case FinalizeCompiler => [CompilerResource]
    case DestroyAllocator(_) => [AllocatorResource]
    case DestroyDebugUtilsMessenger(_) => [MessengerResource]
    case DestroyDevice(_) => [DeviceResource]
    case DestroyInstance(_) => [InstanceResource]
    case _ => []
  }

  /** The resources created by `calls`, in order. */
  function Created(calls: seq<DriverCall>): seq<Resource>
  {
    if |calls| == 0 then [] else Created(calls[..|calls| - 1]) + Creates(calls[|calls| - 1])
  }

  /** The resources destroyed by `calls`, in order. */
  function Destroyed(calls: seq<DriverCall>): seq<Resource>
  {
    if |calls| == 0 then [] else Destroyed(calls[..|calls| - 1]) + Destroys(calls[|calls| - 1])
  }

  function Reverse<T>(s: seq<T>): seq<T>
  {
    if |s| == 0 then [] else [s[|s| - 1]] + Reverse(s[..|s| - 1])
  }

  lemma ReverseAppend<T>(s: seq<T>, x: T)
    ensures Reverse(s + [x]) == [x] + Reverse(s)
  {
    assert (s + [x])[..|s|] == s;
  }

  lemma Associative<T>(a: seq<T>, b: seq<T>, c: seq<T>)
    ensures a + (b + c) == (a + b) + c
  {
  }

  /** Appending one call extends the created and the destroyed resources by
      what that call creates and destroys. */
  lemma AppendCall(calls: seq<DriverCall>, c: DriverCall)
    ensures Created(calls + [c]) == Created(calls) + Creates(c)
    ensures Destroyed(calls + [c]) == Destroyed(calls) + Destroys(c)
  {
    assert (calls + [c])[..|calls|] == calls;
  }

  /** Created and Destroyed distribute over concatenation. */
  lemma {:induction false} AppendCalls(calls: seq<DriverCall>, more: seq<DriverCall>)
    ensures Created(calls + more) == Created(calls) + Created(more)
    ensures Destroyed(calls + more) == Destroyed(calls) + Destroyed(more)
    decreases |more|
  {
    if |more| == 0 {
      assert calls + more == calls;
    } else {
      var n := |more| - 1;
      var init, last := more[..n], more[n];
      assert more == init + [last];
      assert calls + more == (calls + init) + [last];
      AppendCalls(calls, init);
      AppendCall(calls + init, last);
      AppendCall(init, last);
      Associative(Created(calls), Created(init), Creates(last));
      Associative(Destroyed(calls), Destroyed(init), Destroys(last));
    }
  }

  /** What construction creates, in order: instance, device, the messenger
      when validation is on, allocator, and the shader compiler. */
  function SetupOrder(withMessenger: bool): seq<Resource>
  {
    if withMessenger
    then [InstanceResource, DeviceResource, MessengerResource, AllocatorResource, CompilerResource]
    else [InstanceResource, DeviceResource, AllocatorResource, CompilerResource]
  }

  /** The constructor's creation calls, in order. */
  function Setup(info: ContextCreateInfo, apiVersion: bv32, physicalDevice: Handle,
                 queueInfos: seq<QueueCreateInfo>, instance: Handle, device: Handle): seq<DriverCall>
  {
    var withDevice := [CreateInstance(apiVersion, InstanceExtensions(info), InstanceLayers(info))]
                      + [CreateDevice(physicalDevice, queueInfos, DEVICE_EXTENSIONS)];
    var withMessenger :=
      if info.useValidationLayer
      then withDevice + [CreateDebugUtilsMessenger(MESSENGER_SEVERITIES, MESSENGER_TYPES)]
      else withDevice;
    withMessenger + [CreateAllocator(apiVersion, physicalDevice, device, instance)] + [InitializeCompiler]
  }

  /** The setup destroys nothing and creates the instance, the device, the
      messenger exactly when validation is on, the allocator and the
      compiler, in that order. */
  lemma SetupCreates(info: ContextCreateInfo, apiVersion: bv32, physicalDevice: Handle,
                     queueInfos: seq<QueueCreateInfo>, instance: Handle, device: Handle)
    ensures Created(Setup(info, apiVersion, physicalDevice, queueInfos, instance, device))
            == SetupOrder(info.useValidationLayer)
    ensures Destroyed(Setup(info, apiVersion, physicalDevice, queueInfos, instance, device)) == []
  {
    var c1 := CreateInstance(apiVersion, InstanceExtensions(info), InstanceLayers(info));
    var c2 := CreateDevice(physicalDevice, queueInfos, DEVICE_EXTENSIONS);
    var c3 := CreateDebugUtilsMessenger(MESSENGER_SEVERITIES, MESSENGER_TYPES);
    var c4 := CreateAllocator(apiVersion, physicalDevice, device, instance);
    var t1 := [c1];
    var t2 := t1 + [c2];
    var t3 := if info.useValidationLayer then t2 + [c3] else t2;
    var t4 := t3 + [c4];
    var t5 := t4 + [InitializeCompiler];
    assert Setup(info, apiVersion, physicalDevice, queueInfos, instance, device) == t5;
    AppendCall([], c1);
    AppendCall(t1, c2);
    if info.useValidationLayer {
      AppendCall(t2, c3);
    }
    AppendCall(t3, c4);
    AppendCall(t4, InitializeCompiler);
  }

  /** The destructor's calls, in order: finalize the compiler, destroy the
      allocator, the messenger (only if one was created), the device and the
      instance. */
  function Teardown(messenger: Handle, allocator: Handle, device: Handle, instance: Handle)
    : seq<DriverCall>
  {
    [FinalizeCompiler, DestroyAllocator(allocator)]
    + (if messenger != NULL_HANDLE then [DestroyDebugUtilsMessenger(messenger)] else [])
    + [DestroyDevice(device), DestroyInstance(instance)]
  }

  /** The teardown creates nothing and destroys the compiler, the allocator,
      the messenger if there is one, the device and the instance. */
  lemma TeardownDestroys(messenger: Handle, allocator: Handle, device: Handle, instance: Handle)
    ensures Created(Teardown(messenger, allocator, device, instance)) == []
    ensures Destroyed(Teardown(messenger, allocator, device, instance))
            == if messenger != NULL_HANDLE
               then [CompilerResource, AllocatorResource, MessengerResource, DeviceResource,
                     InstanceResource]
               else [CompilerResource, AllocatorResource, DeviceResource, InstanceResource]
  {
    var t1 := [FinalizeCompiler];
    var t2 := t1 + [DestroyAllocator(allocator)];
    var t3 := if messenger != NULL_HANDLE then t2 + [DestroyDebugUtilsMessenger(messenger)] else t2;
    var t4 := t3 + [DestroyDevice(device)];
    var t5 := t4 + [DestroyInstance(instance)];
    assert Teardown(messenger, allocator, device, instance) == t5;
    AppendCall([], FinalizeCompiler);
    AppendCall(t1, DestroyAllocator(allocator));
    if messenger != NULL_HANDLE {
      AppendCall(t2, DestroyDebugUtilsMessenger(messenger));
    }
    AppendCall(t3, DestroyDevice(device));
    AppendCall(t4, DestroyInstance(instance));
  }

  /** Teardown order is setup order reversed. */
  lemma ReverseSetupOrder(withMessenger: bool)
    ensures Reverse(SetupOrder(withMessenger))
            == if withMessenger
               then [CompilerResource, AllocatorResource, MessengerResource, DeviceResource,
                     InstanceResource]
               else [CompilerResource, AllocatorResource, DeviceResource, InstanceResource]
  {
    var s1 := [InstanceResource];
    var s2 := s1 + [DeviceResource];
    var s3 := if withMessenger then s2 + [MessengerResource] else s2;
    var s4 := s3 + [AllocatorResource];
    var s5 := s4 + [CompilerResource];
    assert SetupOrder(withMessenger) == s5;
    ReverseAppend([], InstanceResource);
    ReverseAppend(s1, DeviceResource);
    if withMessenger {
      ReverseAppend(s2, MessengerResource);
    }
    ReverseAppend(s3, AllocatorResource);
    ReverseAppend(s4, CompilerResource);
  }

  /** A driver that answers every query and whose creation calls succeed,
      handing out the handles listed here. */
  datatype Driver = Driver(
    instance: LiveHandle, physicalDevices: seq<PhysicalDevice>, device: LiveHandle,
    debugUtilsMessenger: LiveHandle, allocator: LiveHandle)

  /** The queue-selection block of the constructor, on the six queue members
      held in `queues` (initially `initial`): fetches the queue of each role
      that has a family, then borrows queue 1 of the main family for a missing
      compute role and queues 2.. for a missing transfer role. */
  method RetrieveQueues(dq: DeviceQueues, initial: QueueSelection) returns (queues: QueueSelection)
    ensures queues == SelectQueues(dq, initial)
  {
    queues := initial;
    if dq.main.queueCount > 0 {
      queues := queues.(mainQueueFamilyIndex := dq.main.queueFamilyIndex,
                        mainQueue := DeviceQueue(dq.main.queueFamilyIndex, 0));
    }
    if dq.compute.queueCount > 0 {
      queues := queues.(computeQueueFamilyIndex := dq.compute.queueFamilyIndex,
                        computeQueue := DeviceQueue(dq.compute.queueFamilyIndex, 0));
    }
    if dq.transfer.queueCount > 0 {
      var fetched := FetchQueues(dq.transfer.queueFamilyIndex, 0, dq.transfer.queueCount);
      queues := queues.(transferQueueFamilyIndex := dq.transfer.queueFamilyIndex,
                        transferQueues := fetched);
    }
    if queues.computeQueue == NullQueue && dq.main.queueCount > 1 {
      queues := queues.(computeQueueFamilyIndex := dq.main.queueFamilyIndex,
                        computeQueue := DeviceQueue(dq.main.queueFamilyIndex, 1));
    }
    if |queues.transferQueues| == 0 && dq.main.queueCount > 2 {
      var fetched := FetchQueues(dq.main.queueFamilyIndex, 2, dq.main.queueCount - 2);
      queues := queues.(transferQueueFamilyIndex := dq.main.queueFamilyIndex,
                        transferQueues := fetched);
    }
  }

  /** The physical-device loop of the constructor: every suitable device
      overwrites the selection, so the last suitable one is kept; with none,
      the handle and properties keep their initial (null, empty) values. */
  method SelectPhysicalDevice(devices: seq<PhysicalDevice>, apiVersion: bv32, preferred: DeviceType)
    returns (physicalDevice: Handle, properties: PhysicalDeviceProperties)
    ensures Picked(devices, LastSuitable(devices, apiVersion, preferred), physicalDevice,
                   properties, NULL_HANDLE, EMPTY_PROPERTIES)
  {
    physicalDevice, properties := NULL_HANDLE, EMPTY_PROPERTIES;
    var i := 0;
    while i < |devices|
      invariant i <= |devices|
      invariant Picked(devices, LastSuitable(devices[..i], apiVersion, preferred), physicalDevice,
                       properties, NULL_HANDLE, EMPTY_PROPERTIES)
    {
      var d := devices[i];
      LastSuitableStep(devices, i, apiVersion, preferred);
      if IsSuitable(d.properties, apiVersion, preferred) {
        physicalDevice := d.handle;
        properties := d.properties;
      }
      i := i + 1;
    }
    assert devices[..|devices|] == devices;
  }

  /** Construction stops at an assertion: no physical device is suitable,
      or the selected one has no queue family for the main queue. */
  /** No physical device passes the suitability test. */
  predicate NoSuitableDevice(info: ContextCreateInfo, driver: Driver)
  {
    LastSuitable(driver.physicalDevices, MakeApiVersion(info.apiMajorVersion, info.apiMinorVersion),
                 info.preferredDeviceType).None?
  }

  predicate CreationFails(info: ContextCreateInfo, driver: Driver)
  {
    var ds := driver.physicalDevices;
    var selected := LastSuitable(ds, MakeApiVersion(info.apiMajorVersion, info.apiMinorVersion),
                                 info.preferredDeviceType);
    || selected.None?
    || ScanFamilies(QueueFamiliesOf(ds, ds[selected.value].handle)).queues.main.queueCount == 0
  }

  class VulkanContext {
    var instance: Handle
    var apiVersion: bv32
    var physicalDevice: Handle
    var physicalDeviceProperties: PhysicalDeviceProperties
    var device: Handle
    var mainQueue: Queue
    var mainQueueFamilyIndex: nat
    var computeQueue: Queue
    var computeQueueFamilyIndex: nat
    var transferQueues: seq<Queue>
    var transferQueueFamilyIndex: nat
    var debugUtilsMessenger: Handle
    var allocator: Handle
    /** The creation and destruction calls made so far. */
    var driverCalls: seq<DriverCall>

    function Queues(): QueueSelection
      reads this`mainQueue, this`mainQueueFamilyIndex, this`computeQueue,
            this`computeQueueFamilyIndex, this`transferQueues, this`transferQueueFamilyIndex
    {
      QueueSelection(mainQueue, mainQueueFamilyIndex, computeQueue, computeQueueFamilyIndex,
                     transferQueues, transferQueueFamilyIndex)
    }

    /** The constructor. Fails with the message of the assertion that stops
        it: no suitable physical device, or no main queue family. */
    static method Create(info: ContextCreateInfo, driver: Driver) returns (r: Result<VulkanContext>)
      ensures r.Fail? <==> CreationFails(info, driver)
      ensures r.Fail? ==> r.message in {"no suitable physical device", "cannot find main queue"}
      ensures r.Fail? ==> (r.message == "no suitable physical device" <==> NoSuitableDevice(info, driver))
      ensures r.Ok? ==> fresh(r.value) && r.value.Constructed(info, driver)
    {
      var version := MakeApiVersion(info.apiMajorVersion, info.apiMinorVersion);
      var gpu, properties := SelectPhysicalDevice(driver.physicalDevices, version,
                                                  info.preferredDeviceType);
      if gpu == NULL_HANDLE {
        return Fail("no suitable physical device");
      }
      var collected := CollectDeviceQueues(QueueFamiliesOf(driver.physicalDevices, gpu));
      if collected.Fail? {
        return Fail(collected.message);
      }
      var c := new VulkanContext.WithDevice(info, driver, gpu, properties, collected.value);
      r := Ok(c);
    }

    /** The part of the constructor after the checks: the member
        initialisers, then instance and device creation, queue retrieval,
        the validation messenger, the allocator and the shader compiler. */
    constructor WithDevice(info: ContextCreateInfo, driver: Driver, gpu: Handle,
                           properties: PhysicalDeviceProperties, dq: DeviceQueues)
      ensures apiVersion == MakeApiVersion(info.apiMajorVersion, info.apiMinorVersion)
      ensures instance == driver.instance
      ensures physicalDevice == gpu && physicalDeviceProperties == properties
      ensures DeviceCreated(info, driver, dq)
    {
      apiVersion := MakeApiVersion(info.apiMajorVersion, info.apiMinorVersion);
      instance := driver.instance;
      physicalDevice := gpu;
      physicalDeviceProperties := properties;
      device := driver.device;
      var queues := RetrieveQueues(dq, NO_QUEUES_SELECTED);
      mainQueue, mainQueueFamilyIndex := queues.mainQueue, queues.mainQueueFamilyIndex;
      computeQueue, computeQueueFamilyIndex := queues.computeQueue, queues.computeQueueFamilyIndex;
      transferQueues, transferQueueFamilyIndex := queues.transferQueues, queues.transferQueueFamilyIndex;
      debugUtilsMessenger := if info.useValidationLayer then driver.debugUtilsMessenger else NULL_HANDLE;
      allocator := driver.allocator;
      driverCalls := Setup(info, MakeApiVersion(info.apiMajorVersion, info.apiMinorVersion), gpu,
                           QueueCreateInfos(dq), driver.instance, driver.device);
    }

    /** The first half of a successful construction: the requested API
        version, the instance, and the last suitable physical device. */
    predicate DeviceSelected(info: ContextCreateInfo, driver: Driver)
      reads this`apiVersion, this`instance, this`physicalDevice, this`physicalDeviceProperties
    {
      var ds := driver.physicalDevices;
      var version := MakeApiVersion(info.apiMajorVersion, info.apiMinorVersion);
      var selected := LastSuitable(ds, version, info.preferredDeviceType);
      && apiVersion == version
      && instance == driver.instance
      && selected.Some?
      && physicalDevice == ds[selected.value].handle
      && physicalDeviceProperties == ds[selected.value].properties
    }

    /** The second half: the queues chosen from the given device queues, the
        driver's handles, and the creation calls in order. */
    predicate DeviceCreated(info: ContextCreateInfo, driver: Driver, dq: DeviceQueues)
      reads this`apiVersion, this`instance, this`physicalDevice, this`device, this`mainQueue,
            this`mainQueueFamilyIndex, this`computeQueue, this`computeQueueFamilyIndex,
            this`transferQueues, this`transferQueueFamilyIndex, this`debugUtilsMessenger,
            this`allocator, this`driverCalls
    {
      && device == driver.device
      && Queues() == SelectQueues(dq, NO_QUEUES_SELECTED)
      && debugUtilsMessenger == (if info.useValidationLayer then driver.debugUtilsMessenger
                                 else NULL_HANDLE)
      && allocator == driver.allocator
      && driverCalls == Setup(info, apiVersion, physicalDevice, QueueCreateInfos(dq), instance, device)
    }

    /** The state a successful construction leaves. */
    predicate Constructed(info: ContextCreateInfo, driver: Driver)
      reads this
    {
      var dq := ScanFamilies(QueueFamiliesOf(driver.physicalDevices, physicalDevice)).queues;
      && DeviceSelected(info, driver)
      && dq.main.queueCount > 0
      && DeviceCreated(info, driver, dq)
    }

    /** The destructor: compiler, allocator, messenger (only if one was
        created), device, instance; that is, everything construction created,
        in the reverse order. */
    method Destroy()
      modifies this`driverCalls
      requires Created(driverCalls) == SetupOrder(debugUtilsMessenger != NULL_HANDLE)
      requires Destroyed(driverCalls) == []
      ensures driverCalls
              == old(driverCalls) + Teardown(debugUtilsMessenger, allocator, device, instance)
      ensures Created(driverCalls) == Created(old(driverCalls))
      ensures Destroyed(driverCalls) == Reverse(Created(driverCalls))
    {
      var teardown := Teardown(debugUtilsMessenger, allocator, device, instance);
      AppendCalls(driverCalls, teardown);
      TeardownDestroys(debugUtilsMessenger, allocator, device, instance);
      ReverseSetupOrder(debugUtilsMessenger != NULL_HANDLE);
      driverCalls := driverCalls + teardown;
    }
  }

  /** A constructed context meets the destructor's precondition: the
      messenger handle is set exactly when validation was requested, so the
      destructor knows what was created. */
  lemma ConstructedIsDestroyable(c: VulkanContext, info: ContextCreateInfo, driver: Driver)
    requires c.Constructed(info, driver)
    ensures Created(c.driverCalls) == SetupOrder(c.debugUtilsMessenger != NULL_HANDLE)
    ensures Destroyed(c.driverCalls) == []
  {
    var version := MakeApiVersion(info.apiMajorVersion, info.apiMinorVersion);
    var dq := ScanFamilies(QueueFamiliesOf(driver.physicalDevices, c.physicalDevice)).queues;
    SetupCreates(info, version, c.physicalDevice, QueueCreateInfos(dq), c.instance, c.device);
  }

  /** The resize-and-fill loop: `count` queues of `family`, the i-th at
      queue index `first + i`. */
  method FetchQueues(family: nat, first: nat, count: nat) returns (qs: seq<Queue>)
    ensures qs == QueuesOfFamily(family, first, count)
  {
    qs := seq(count, _ => NullQueue);
    var i := 0;
    while i < |qs|
      invariant |qs| == count && 0 <= i <= count
      invariant forall k :: 0 <= k < i ==> qs[k] == DeviceQueue(family, first + k)
    {
      qs := qs[i := DeviceQueue(family, first + i)];
      i := i + 1;
    }
  }
}

=== FILE: vulkan_format.dfy ===
/** backend/vulkan/VulkanFormat.cpp: translation of the facade's pixel
    formats into Vulkan's. */
module VulkanFormat {
  import opened Wrappers
  import opened Formats

  /** VkFormat, by its numeric value in the Vulkan headers. */
  type VkFormat = nat

  const VK_FORMAT_UNDEFINED: VkFormat := 0
  const VK_FORMAT_R8_UNORM: VkFormat := 9
  const VK_FORMAT_R8G8_UNORM: VkFormat := 16
  const VK_FORMAT_R8G8B8_UNORM: VkFormat := 23
  const VK_FORMAT_R8G8B8A8_UNORM: VkFormat := 37
  const VK_FORMAT_B8G8R8A8_UNORM: VkFormat := 44
  const VK_FORMAT_D32_SFLOAT: VkFormat := 126
  const VK_FORMAT_D24_UNORM_S8_UINT: VkFormat := 129
  const VK_FORMAT_D32_SFLOAT_S8_UINT: VkFormat := 130

  /** ConvertFormatVulkan: the eight formats declared in api/Format.h map to
      the VkFormat of the same name; any other value fails "invalid format".
      Because the facade's formats are numbered in Vulkan's order, "the same
      name" is "the same number". */
  function ConvertFormatVulkan(f: Format): (r: Result<VkFormat>)
    ensures r.Ok? <==> IsDeclaredFormat(f)
    ensures r.Ok? ==> r.value == f as int
    ensures r.Fail? ==> r.message == "invalid format"
  {
    if f == UNKNOWN then Ok(VK_FORMAT_UNDEFINED)
    else if f == R8_UNORM then Ok(VK_FORMAT_R8_UNORM)
    else if f == R8G8_UNORM then Ok(VK_FORMAT_R8G8_UNORM)
    else if f == R8G8B8_UNORM then Ok(VK_FORMAT_R8G8B8_UNORM)
    else if f == R8G8B8A8_UNORM then Ok(VK_FORMAT_R8G8B8A8_UNORM)
    else if f == D24_UNORM_S8_UINT then Ok(VK_FORMAT_D24_UNORM_S8_UINT)
    else if f == D32_SFLOAT then Ok(VK_FORMAT_D32_SFLOAT)
    else if f == D32_SFLOAT_S8_UINT then Ok(VK_FORMAT_D32_SFLOAT_S8_UINT)
    else Fail("invalid format")
  }

  /** Distinct declared formats never share a VkFormat. */
  lemma ConvertFormatVulkanInjective(f1: Format, f2: Format)
    requires ConvertFormatVulkan(f1).Ok? && ConvertFormatVulkan(f2).Ok?
    requires ConvertFormatVulkan(f1).value == ConvertFormatVulkan(f2).value
    ensures f1 == f2
  {
  }
}

=== FILE: vulkan_sampler.dfy ===
/** backend/vulkan/VulkanSampler.cpp with the sampler description of
    api/Sampler.h: the five enum translations and the sampler create info
    the constructor fills in. The sampler handle the driver hands out is
    given as input. */
module VulkanSampler {
  import opened Utilities

  datatype Filter = NEAREST | LINEAR

  datatype AddressMode = REPEAT | MIRRORED_REPEAT | CLAMP_TO_EDGE | CLAMP_TO_BORDER

  datatype CompareOp = NEVER | LESS | EQUAL | LESS_OR_EQUAL | GREATER | NOT_EQUAL
                     | GREATER_OR_EQUAL | ALWAYS

  datatype BorderColor = FLOAT_TRANSPARENT_BLACK | INT_TRANSPARENT_BLACK | FLOAT_OPAQUE_BLACK
                       | INT_OPAQUE_BLACK | FLOAT_OPAQUE_WHITE | INT_OPAQUE_WHITE

  /** A `float` field, kept as its bit pattern: the sampler copies these
      verbatim and never computes with them. */
  datatype Float32 = Float32(bits: bv32)

  datatype SamplerInfo = SamplerInfo(
    name: string, magFilter: Filter, minFilter: Filter, mipMapFilter: Filter,
    addressModeU: AddressMode, addressModeV: AddressMode, addressModeW: AddressMode,
    mipLodBias: Float32, enableAnisotropy: bool, maxAnisotropy: Float32, compare: CompareOp,
    minLod: Float32, maxLod: Float32, border: BorderColor)

  /** VkFilter and VkSamplerMipmapMode, by value. */
  const VK_FILTER_NEAREST: nat := 0
  const VK_FILTER_LINEAR: nat := 1
  const VK_SAMPLER_MIPMAP_MODE_NEAREST: nat := 0
  const VK_SAMPLER_MIPMAP_MODE_LINEAR: nat := 1

  /** VkSamplerAddressMode, by value. */
  const VK_SAMPLER_ADDRESS_MODE_REPEAT: nat := 0
  const VK_SAMPLER_ADDRESS_MODE_MIRRORED_REPEAT: nat := 1
  const VK_SAMPLER_ADDRESS_MODE_CLAMP_TO_EDGE: nat := 2
  const VK_SAMPLER_ADDRESS_MODE_CLAMP_TO_BORDER: nat := 3

  /** VkCompareOp, by value. */
  const VK_COMPARE_OP_NEVER: nat := 0
  const VK_COMPARE_OP_LESS: nat := 1
  const VK_COMPARE_OP_EQUAL: nat := 2
  const VK_COMPARE_OP_LESS_OR_EQUAL: nat := 3
  const VK_COMPARE_OP_GREATER: nat := 4
  const VK_COMPARE_OP_NOT_EQUAL: nat := 5
  const VK_COMPARE_OP_GREATER_OR_EQUAL: nat := 6
  const VK_COMPARE_OP_ALWAYS: nat := 7

  /** VkBorderColor, by value. */
  const VK_BORDER_COLOR_FLOAT_TRANSPARENT_BLACK: nat := 0
  const VK_BORDER_COLOR_INT_TRANSPARENT_BLACK: nat := 1
  const VK_BORDER_COLOR_FLOAT_OPAQUE_BLACK: nat := 2
  const VK_BORDER_COLOR_INT_OPAQUE_BLACK: nat := 3
  const VK_BORDER_COLOR_FLOAT_OPAQUE_WHITE: nat := 4
  const VK_BORDER_COLOR_INT_OPAQUE_WHITE: nat := 5

  /** ConvertFilter: nearest stays nearest, linear stays linear. */
  function ConvertFilter(filter: Filter): (r: nat)
    ensures r == VK_FILTER_LINEAR <==> filter == LINEAR
    ensures r == VK_FILTER_NEAREST <==> filter == NEAREST
  {
    match filter
    case NEAREST => VK_FILTER_NEAREST
    case LINEAR => VK_FILTER_LINEAR
  }

  /** ConvertMipMapFilter: the same choice between mip levels. */
  function ConvertMipMapFilter(filter: Filter): (r: nat)
    ensures r == VK_SAMPLER_MIPMAP_MODE_LINEAR <==> filter == LINEAR
    ensures r == VK_SAMPLER_MIPMAP_MODE_NEAREST <==> filter == NEAREST
  {
    match filter
    case NEAREST => VK_SAMPLER_MIPMAP_MODE_NEAREST
    case LINEAR => VK_SAMPLER_MIPMAP_MODE_LINEAR
  }

  /** ConvertAddressMode: each of the four modes to the Vulkan mode of the
      same name. */
  function ConvertAddressMode(mode: AddressMode): (r: nat)
    ensures r <= VK_SAMPLER_ADDRESS_MODE_CLAMP_TO_BORDER
    ensures r == VK_SAMPLER_ADDRESS_MODE_REPEAT <==> mode == REPEAT
    ensures r == VK_SAMPLER_ADDRESS_MODE_MIRRORED_REPEAT <==> mode == MIRRORED_REPEAT
    ensures r == VK_SAMPLER_ADDRESS_MODE_CLAMP_TO_EDGE <==> mode == CLAMP_TO_EDGE
    ensures r == VK_SAMPLER_ADDRESS_MODE_CLAMP_TO_BORDER <==> mode == CLAMP_TO_BORDER
  {
    match mode
    case REPEAT => VK_SAMPLER_ADDRESS_MODE_REPEAT
    case MIRRORED_REPEAT => VK_SAMPLER_ADDRESS_MODE_MIRRORED_REPEAT
    case CLAMP_TO_EDGE => VK_SAMPLER_ADDRESS_MODE_CLAMP_TO_EDGE
    case CLAMP_TO_BORDER => VK_SAMPLER_ADDRESS_MODE_CLAMP_TO_BORDER
  }

  /** ConvertCompareOp: each of the eight comparisons to the Vulkan
      comparison of the same name. */
  function ConvertCompareOp(compare: CompareOp): (r: nat)
    ensures r <= VK_COMPARE_OP_ALWAYS
    ensures r == VK_COMPARE_OP_NEVER <==> compare == NEVER
    ensures r == VK_COMPARE_OP_LESS <==> compare == LESS
    ensures r == VK_COMPARE_OP_EQUAL <==> compare == EQUAL
    ensures r == VK_COMPARE_OP_LESS_OR_EQUAL <==> compare == LESS_OR_EQUAL
    ensures r == VK_COMPARE_OP_GREATER <==> compare == GREATER
    ensures r == VK_COMPARE_OP_NOT_EQUAL <==> compare == NOT_EQUAL
    ensures r == VK_COMPARE_OP_GREATER_OR_EQUAL <==> compare == GREATER_OR_EQUAL
    ensures r == VK_COMPARE_OP_ALWAYS <==> compare == ALWAYS
  {
    match compare
    case NEVER => VK_COMPARE_OP_NEVER
    case LESS => VK_COMPARE_OP_LESS
    case EQUAL => VK_COMPARE_OP_EQUAL
    case LESS_OR_EQUAL => VK_COMPARE_OP_LESS_OR_EQUAL
    case GREATER => VK_COMPARE_OP_GREATER
    case NOT_EQUAL => VK_COMPARE_OP_NOT_EQUAL
    case GREATER_OR_EQUAL => VK_COMPARE_OP_GREATER_OR_EQUAL
    case ALWAYS => VK_COMPARE_OP_ALWAYS
  }

  /** ConvertBorderColor: each of the six border colours to the Vulkan
      colour of the same name. */
  function ConvertBorderColor(border: BorderColor): (r: nat)
    ensures r <= VK_BORDER_COLOR_INT_OPAQUE_WHITE
    ensures r == VK_BORDER_COLOR_FLOAT_TRANSPARENT_BLACK <==> border == FLOAT_TRANSPARENT_BLACK
    ensures r == VK_BORDER_COLOR_INT_TRANSPARENT_BLACK <==> border == INT_TRANSPARENT_BLACK
    ensures r == VK_BORDER_COLOR_FLOAT_OPAQUE_BLACK <==> border == FLOAT_OPAQUE_BLACK
    ensures r == VK_BORDER_COLOR_INT_OPAQUE_BLACK <==> border == INT_OPAQUE_BLACK
    ensures r == VK_BORDER_COLOR_FLOAT_OPAQUE_WHITE <==> border == FLOAT_OPAQUE_WHITE
    ensures r == VK_BORDER_COLOR_INT_OPAQUE_WHITE <==> border == INT_OPAQUE_WHITE
  {
    match border
    case FLOAT_TRANSPARENT_BLACK => VK_BORDER_COLOR_FLOAT_TRANSPARENT_BLACK
    case INT_TRANSPARENT_BLACK => VK_BORDER_COLOR_INT_TRANSPARENT_BLACK
    case FLOAT_OPAQUE_BLACK => VK_BORDER_COLOR_FLOAT_OPAQUE_BLACK
    case INT_OPAQUE_BLACK => VK_BORDER_COLOR_INT_OPAQUE_BLACK
    case FLOAT_OPAQUE_WHITE => VK_BORDER_COLOR_FLOAT_OPAQUE_WHITE
    case INT_OPAQUE_WHITE => VK_BORDER_COLOR_INT_OPAQUE_WHITE
  }

  /** The address-mode, compare-op and border-colour tables are one-to-one:
      distinct values never share a Vulkan value. */
  lemma ConvertersInjective(a1: AddressMode, a2: AddressMode, c1: CompareOp, c2: CompareOp,
                            b1: BorderColor, b2: BorderColor)
    ensures ConvertAddressMode(a1) == ConvertAddressMode(a2) ==> a1 == a2
    ensures ConvertCompareOp(c1) == ConvertCompareOp(c2) ==> c1 == c2
    ensures ConvertBorderColor(b1) == ConvertBorderColor(b2) ==> b1 == b2
  {
  }

  /** VkSamplerCreateInfo, with the fields the constructor fills in. */
  datatype SamplerCreateInfo = SamplerCreateInfo(
    magFilter: nat, minFilter: nat, mipmapMode: nat, addressModeU: nat, addressModeV: nat,
    addressModeW: nat, mipLodBias: Float32, anisotropyEnable: bool, maxAnisotropy: Float32,
    compareEnable: bool, compareOp: nat, minLod: Float32, maxLod: Float32, borderColor: nat,
    unnormalizedCoordinates: bool)

  /** The create info the constructor hands to vkCreateSampler. */
  function SamplerCreateInfoOf(info: SamplerInfo): (ci: SamplerCreateInfo)
    ensures ci.compareEnable <==> info.compare != NEVER
    ensures ci.compareOp == ConvertCompareOp(info.compare)
    ensures !ci.unnormalizedCoordinates
    ensures ci.addressModeU == ConvertAddressMode(info.addressModeU)
    ensures ci.addressModeV == ConvertAddressMode(info.addressModeV)
    ensures ci.addressModeW == ConvertAddressMode(info.addressModeW)
    ensures ci.magFilter == ConvertFilter(info.magFilter) && ci.minFilter == ConvertFilter(info.minFilter)
    ensures ci.mipmapMode == ConvertMipMapFilter(info.mipMapFilter)
    ensures ci.borderColor == ConvertBorderColor(info.border)
    ensures ci.mipLodBias == info.mipLodBias && ci.anisotropyEnable == info.enableAnisotropy
            && ci.maxAnisotropy == info.maxAnisotropy && ci.minLod == info.minLod
            && ci.maxLod == info.maxLod
  {
    SamplerCreateInfo(
      ConvertFilter(info.magFilter), ConvertFilter(info.minFilter),
      ConvertMipMapFilter(info.mipMapFilter), ConvertAddressMode(info.addressModeU),
      ConvertAddressMode(info.addressModeV), ConvertAddressMode(info.addressModeW),
      info.mipLodBias, info.enableAnisotropy, info.maxAnisotropy, info.compare != NEVER,
      ConvertCompareOp(info.compare), info.minLod, info.maxLod, ConvertBorderColor(info.border),
      false)
  }

  /** The three address modes go through the same table independently: two
      axes get the same Vulkan mode exactly when they asked for the same
      mode, and the comparison is enabled exactly when its Vulkan value is
      not NEVER. */
  lemma SamplerCreateInfoAxes(info: SamplerInfo)
    ensures var ci := SamplerCreateInfoOf(info);
            && (ci.addressModeU == ci.addressModeV <==> info.addressModeU == info.addressModeV)
            && (ci.addressModeV == ci.addressModeW <==> info.addressModeV == info.addressModeW)
            && (ci.addressModeU == ci.addressModeW <==> info.addressModeU == info.addressModeW)
            && (ci.compareEnable <==> ci.compareOp != VK_COMPARE_OP_NEVER)
  {
    ConvertersInjective(info.addressModeU, info.addressModeV, NEVER, NEVER,
                        FLOAT_TRANSPARENT_BLACK, FLOAT_TRANSPARENT_BLACK);
    ConvertersInjective(info.addressModeV, info.addressModeW, NEVER, NEVER,
                        FLOAT_TRANSPARENT_BLACK, FLOAT_TRANSPARENT_BLACK);
    ConvertersInjective(info.addressModeU, info.addressModeW, NEVER, NEVER,
                        FLOAT_TRANSPARENT_BLACK, FLOAT_TRANSPARENT_BLACK);
  }

  class VulkanSampler {
    var info: SamplerInfo
    var sampler: Handle
    /** The create info the sampler was made from. */
    ghost var samplerCreateInfo: SamplerCreateInfo

    /** The constructor: the sampler is created from the filled-in create
        info, then the description is stored. */
    constructor (info: SamplerInfo, sampler: LiveHandle)
      ensures GetInfo() == info && GetHandle() == sampler
      ensures samplerCreateInfo == SamplerCreateInfoOf(info)
    {
      samplerCreateInfo := SamplerCreateInfoOf(info);
      this.sampler := sampler;
      this.info := info;
    }

    function GetInfo(): SamplerInfo
      reads this`info
    {
      info
    }

    function GetHandle(): Handle
      reads this`sampler
    {
      sampler
    }
  }
}

=== FILE: vulkan_shader.dfy ===
/** backend/vulkan/VulkanShader.cpp: the pipeline layout a shader derives from
    the reflection of its stages.

    SPIRV-Reflect is foreign: what it reports of a stage's bytecode (the
    descriptor bindings and the padded sizes of the push-constant blocks) is
    the input here. Shader modules, descriptor-set layouts and the pipeline
    layout are driver objects; the model keeps the create infos they are
    made from. */
module VulkanShader {
  import opened Wrappers
  import opened Utilities

  datatype ShaderStage =
    | VERTEX
    | TESSELLATION_CONTROL
    | TESSELLATION_EVALUATION
    | GEOMETRY
    | FRAGMENT
    | COMPUTE

  const VK_SHADER_STAGE_VERTEX_BIT: Flags := 0x01
  const VK_SHADER_STAGE_TESSELLATION_CONTROL_BIT: Flags := 0x02
  const VK_SHADER_STAGE_TESSELLATION_EVALUATION_BIT: Flags := 0x04
  const VK_SHADER_STAGE_GEOMETRY_BIT: Flags := 0x08
  const VK_SHADER_STAGE_FRAGMENT_BIT: Flags := 0x10
  const VK_SHADER_STAGE_COMPUTE_BIT: Flags := 0x20

  /** ConvertShaderStageVulkan: each stage is one bit of VkShaderStageFlagBits. */
  function ConvertShaderStageVulkan(stage: ShaderStage): (r: Flags)
    ensures r != 0 && r & (r - 1) == 0
    ensures r & 0x3F == r
    ensures r == VK_SHADER_STAGE_VERTEX_BIT <==> stage == VERTEX
    ensures r == VK_SHADER_STAGE_TESSELLATION_CONTROL_BIT <==> stage == TESSELLATION_CONTROL
    ensures r == VK_SHADER_STAGE_TESSELLATION_EVALUATION_BIT <==> stage == TESSELLATION_EVALUATION
    ensures r == VK_SHADER_STAGE_GEOMETRY_BIT <==> stage == GEOMETRY
    ensures r == VK_SHADER_STAGE_FRAGMENT_BIT <==> stage == FRAGMENT
    ensures r == VK_SHADER_STAGE_COMPUTE_BIT <==> stage == COMPUTE
  {
    match stage
    case VERTEX => VK_SHADER_STAGE_VERTEX_BIT
    case TESSELLATION_CONTROL => VK_SHADER_STAGE_TESSELLATION_CONTROL_BIT
    case TESSELLATION_EVALUATION => VK_SHADER_STAGE_TESSELLATION_EVALUATION_BIT
    case GEOMETRY => VK_SHADER_STAGE_GEOMETRY_BIT
    case FRAGMENT => VK_SHADER_STAGE_FRAGMENT_BIT
    case COMPUTE => VK_SHADER_STAGE_COMPUTE_BIT
  }

  lemma ConvertShaderStageInjective(s1: ShaderStage, s2: ShaderStage)
    ensures ConvertShaderStageVulkan(s1) == ConvertShaderStageVulkan(s2) <==> s1 == s2
  {
  }

  // ---------------------------------------------------------------------
  // The reflection input
  // ---------------------------------------------------------------------

  /** A descriptor-set number. `maxSetIndex + 1` is computed in 32 bits and
      sizes the per-set vector that every set number then indexes, so the
      largest 32-bit value would index past the end. */
  type SetIndex = s: U32 | s < 0xFFFF_FFFF

  /** One SpvReflectDescriptorBinding, reduced to what is read. */
  datatype DescriptorBinding = DescriptorBinding(setIndex: SetIndex, binding: U32, count: U32,
                                                 descriptorType: nat)

  /** One shader stage with what reflection reports of its bytecode. */
  datatype StageReflection = StageReflection(stage: ShaderStage,
                                             descriptorBindings: seq<DescriptorBinding>,
                                             pushConstantSizes: seq<U32>)

  datatype ShaderInfo = ShaderInfo(name: string, stages: seq<StageReflection>)

  /** The key of the binding map. */
  datatype SetBinding = SetBinding(setIndex: nat, binding: nat)

  /** A VkDescriptorSetLayoutBinding. */
  datatype LayoutBinding = LayoutBinding(binding: nat, descriptorCount: nat, descriptorType: nat,
                                         stageFlags: Flags)

  datatype PushConstantRange = PushConstantRange(stageFlags: Flags, offset: nat, size: U32)

  /** The result of GenerateLayoutFromReflection, with each descriptor-set
      layout given by the bindings it is created from. */
  datatype ReflectionInfo = ReflectionInfo(descriptorSetLayouts: seq<seq<LayoutBinding>>,
                                           pushConstantRange: PushConstantRange)

  /** A descriptor binding together with the flag of the stage reporting it. */
  datatype Tagged = Tagged(descriptor: DescriptorBinding, stageFlag: Flags)

  function Key(t: Tagged): SetBinding
  {
    SetBinding(t.descriptor.setIndex, t.descriptor.binding)
  }

  function StageRecords(stage: StageReflection): (rs: seq<Tagged>)
    ensures |rs| == |stage.descriptorBindings|
  {
    seq(|stage.descriptorBindings|, k requires 0 <= k < |stage.descriptorBindings| =>
      Tagged(stage.descriptorBindings[k], ConvertShaderStageVulkan(stage.stage)))
  }

  /** Every descriptor binding of every stage, in the order they are visited. */
  function Records(stages: seq<StageReflection>): seq<Tagged>
  {
    if |stages| == 0 then []
    else Records(stages[..|stages| - 1]) + StageRecords(stages[|stages| - 1])
  }

  lemma RecordsStep(stages: seq<StageReflection>, i: nat)
    requires i < |stages|
    ensures Records(stages[..i + 1]) == Records(stages[..i]) + StageRecords(stages[i])
  {
    assert stages[..i + 1][..i] == stages[..i];
  }

  lemma {:induction false} RecordsPrefix(stages: seq<StageReflection>, i: nat)
    requires i <= |stages|
    ensures Records(stages[..i]) <= Records(stages)
    decreases |stages| - i
  {
    if i == |stages| {
      assert stages[..i] == stages;
    } else {
      RecordsPrefix(stages, i + 1);
      RecordsStep(stages, i);
    }
  }

  // ---------------------------------------------------------------------
  // Merging the bindings of all stages
  // ---------------------------------------------------------------------

  /** A failed assertion reports the text of its condition; these are the
      conditions of the merge's two assertions and of the push-constant one. */
  const COUNT_MISMATCH := "it->second.descriptorCount == binding.descriptorCount"
  const TYPE_MISMATCH := "it->second.descriptorType == binding.descriptorType"
  const PUSH_CONSTANT_MISMATCH := "maxPushConstantSize == 0 || maxPushConstantSize == pushConstantSize"

  /** `stageFlags |= stage`: a stage joins a binding's VkShaderStageFlags. */
  function AddStage(flags: Flags, stage: Flags): Flags
  {
    flags | stage
  }

  /** The map after a binding is accepted: a new key stores it with the
      stage's flag; a repeated key gains the stage's flag. */
  function Stored(m: map<SetBinding, LayoutBinding>, t: Tagged): map<SetBinding, LayoutBinding>
  {
    var d := t.descriptor;
    var key := Key(t);
    if key in m then m[key := m[key].(stageFlags := AddStage(m[key].stageFlags, t.stageFlag))]
    else m[key := LayoutBinding(d.binding, d.count, d.descriptorType, t.stageFlag)]
  }

  /** One step of the binding loop: a repeated key must agree on count and
      type with what is stored. (The stored binding number always agrees: it
      is part of the key.) */
  function Merge(m: map<SetBinding, LayoutBinding>, t: Tagged): Result<map<SetBinding, LayoutBinding>>
  {
    var key := Key(t);
    if key in m && m[key].descriptorCount != t.descriptor.count then Fail(COUNT_MISMATCH)
    else if key in m && m[key].descriptorType != t.descriptor.descriptorType then Fail(TYPE_MISMATCH)
    else Ok(Stored(m, t))
  }

  /** The binding map after visiting `rs`, or the failed assertion. */
  function MergeAll(rs: seq<Tagged>): Result<map<SetBinding, LayoutBinding>>
  {
    if |rs| == 0 then Ok(map[])
    else
      var m :- MergeAll(rs[..|rs| - 1]);
      Merge(m, rs[|rs| - 1])
  }

  lemma MergeAllStep(rs: seq<Tagged>, t: Tagged)
    ensures MergeAll(rs).Fail? ==> MergeAll(rs + [t]) == MergeAll(rs)
    ensures MergeAll(rs).Ok? ==> MergeAll(rs + [t]) == Merge(MergeAll(rs).value, t)
  {
    assert (rs + [t])[..|rs|] == rs;
  }

  /** Reference condition for the merge to succeed: records sharing a
      (set, binding) key agree on descriptor count and type. */
  predicate Compatible(rs: seq<Tagged>)
  {
    forall i, j :: 0 <= i < |rs| && 0 <= j < |rs| && Key(rs[i]) == Key(rs[j]) ==>
      rs[i].descriptor.count == rs[j].descriptor.count
      && rs[i].descriptor.descriptorType == rs[j].descriptor.descriptorType
  }

  predicate HasKey(rs: seq<Tagged>, k: SetBinding)
  {
    exists i :: 0 <= i < |rs| && Key(rs[i]) == k
  }

  predicate FlagFrom(rs: seq<Tagged>, k: SetBinding, b: bv5)
  {
    exists i :: 0 <= i < |rs| && Key(rs[i]) == k && Bit(rs[i].stageFlag, b)
  }

  /** The map has an entry for exactly the keys that occur in the records. */
  ghost predicate KeysFrom(m: map<SetBinding, LayoutBinding>, rs: seq<Tagged>)
  {
    forall k :: k in m <==> HasKey(rs, k)
  }

  /** The entry of each record's key carries its binding, count and type. */
  predicate EntriesFrom(m: map<SetBinding, LayoutBinding>, rs: seq<Tagged>)
  {
    forall i :: 0 <= i < |rs| ==>
      && Key(rs[i]) in m
      && m[Key(rs[i])].binding == rs[i].descriptor.binding
      && m[Key(rs[i])].descriptorCount == rs[i].descriptor.count
      && m[Key(rs[i])].descriptorType == rs[i].descriptor.descriptorType
  }

  /** The OR of the stage flags of the records with key `k`. */
  function KeyMask(rs: seq<Tagged>, k: SetBinding): Flags
  {
    if |rs| == 0 then 0
    else
      var m := KeyMask(rs[..|rs| - 1], k);
      if Key(rs[|rs| - 1]) == k then AddStage(m, rs[|rs| - 1].stageFlag) else m
  }

  /** An entry's stage mask is the OR of the flags of the stages that report
      its key. */
  predicate FlagsFrom(m: map<SetBinding, LayoutBinding>, rs: seq<Tagged>)
  {
    forall k :: k in m ==> m[k].stageFlags == KeyMask(rs, k)
  }

  /** Reference description of the merged map. */
  ghost predicate MergedFrom(m: map<SetBinding, LayoutBinding>, rs: seq<Tagged>)
  {
    KeysFrom(m, rs) && EntriesFrom(m, rs) && FlagsFrom(m, rs)
  }

  /** The merge fails exactly on conflicting records, and otherwise yields
      the map described by MergedFrom. */
  lemma {:induction false} MergeAllCorrect(rs: seq<Tagged>)
    ensures MergeAll(rs).Ok? <==> Compatible(rs)
    ensures MergeAll(rs).Ok? ==> MergedFrom(MergeAll(rs).value, rs)
  {
    if |rs| == 0 {
      return;
    }
    var p, t := rs[..|rs| - 1], rs[|rs| - 1];
    assert rs == p + [t];
    MergeAllCorrect(p);
    MergeAllStep(p, t);
    if MergeAll(p).Fail? {
      assert !Compatible(p);
      CompatiblePrefix(p, rs);
      return;
    }
    var m := MergeAll(p).value;
    var key := Key(t);
    if key in m && (m[key].descriptorCount != t.descriptor.count
                    || m[key].descriptorType != t.descriptor.descriptorType) {
      var i :| 0 <= i < |p| && Key(p[i]) == key;
      assert rs[i] == p[i];
      assert !Compatible(rs) by {
        assert Key(rs[i]) == Key(rs[|rs| - 1]);
      }
    } else {
      StoredCorrect(p, t, m);
    }
  }

  lemma CompatiblePrefix(p: seq<Tagged>, rs: seq<Tagged>)
    requires p <= rs
    ensures Compatible(rs) ==> Compatible(p)
  {
    if Compatible(rs) {
      forall i, j | 0 <= i < |p| && 0 <= j < |p| && Key(p[i]) == Key(p[j])
        ensures p[i].descriptor.count == p[j].descriptor.count
        ensures p[i].descriptor.descriptorType == p[j].descriptor.descriptorType
      {
        assert p[i] == rs[i] && p[j] == rs[j];
      }
    }
  }

  lemma HasKeyAppend(p: seq<Tagged>, t: Tagged, k: SetBinding)
    ensures HasKey(p + [t], k) <==> HasKey(p, k) || k == Key(t)
  {
    var rs := p + [t];
    if HasKey(rs, k) {
      var i :| 0 <= i < |rs| && Key(rs[i]) == k;
      if i < |p| {
        assert rs[i] == p[i];
      }
    }
    if HasKey(p, k) {
      var i :| 0 <= i < |p| && Key(p[i]) == k;
      assert rs[i] == p[i];
    }
    assert rs[|p|] == t;
  }

  lemma FlagFromAppend(p: seq<Tagged>, t: Tagged, k: SetBinding, b: bv5)
    ensures FlagFrom(p + [t], k, b) <==> FlagFrom(p, k, b) || (k == Key(t) && Bit(t.stageFlag, b))
    ensures FlagFrom(p, k, b) ==> HasKey(p, k)
  {
    var rs := p + [t];
    if FlagFrom(rs, k, b) {
      var i :| 0 <= i < |rs| && Key(rs[i]) == k && Bit(rs[i].stageFlag, b);
      if i < |p| {
        assert rs[i] == p[i];
      }
    }
    if FlagFrom(p, k, b) {
      var i :| 0 <= i < |p| && Key(p[i]) == k && Bit(p[i].stageFlag, b);
      assert rs[i] == p[i];
    }
    assert rs[|p|] == t;
  }

  lemma KeysAppend(p: seq<Tagged>, t: Tagged, m: map<SetBinding, LayoutBinding>,
                   m': map<SetBinding, LayoutBinding>)
    requires KeysFrom(m, p)
    requires forall k :: k in m' <==> k in m || k == Key(t)
    ensures KeysFrom(m', p + [t])
  {
    forall k
      ensures k in m' <==> HasKey(p + [t], k)
    {
      HasKeyAppend(p, t, k);
    }
  }

  /** `m'` keeps the entries of the other keys and gives `t`'s key the
      descriptor fields of `t` (which an existing entry already has). */
  lemma EntriesAppend(p: seq<Tagged>, t: Tagged, m: map<SetBinding, LayoutBinding>,
                      m': map<SetBinding, LayoutBinding>)
    requires EntriesFrom(m, p)
    requires forall k :: k in m' <==> k in m || k == Key(t)
    requires forall k :: k in m && k != Key(t) ==> m'[k] == m[k]
    requires Key(t) in m ==> && m'[Key(t)].binding == m[Key(t)].binding
                             && m'[Key(t)].descriptorCount == m[Key(t)].descriptorCount
                             && m'[Key(t)].descriptorType == m[Key(t)].descriptorType
    requires m'[Key(t)].binding == t.descriptor.binding
    requires m'[Key(t)].descriptorCount == t.descriptor.count
    requires m'[Key(t)].descriptorType == t.descriptor.descriptorType
    ensures EntriesFrom(m', p + [t])
  {
    var rs := p + [t];
    forall i | 0 <= i < |rs|
      ensures Key(rs[i]) in m'
      ensures m'[Key(rs[i])].binding == rs[i].descriptor.binding
      ensures m'[Key(rs[i])].descriptorCount == rs[i].descriptor.count
      ensures m'[Key(rs[i])].descriptorType == rs[i].descriptor.descriptorType
    {
      if i < |p| {
        assert rs[i] == p[i];
        var k := Key(p[i]);
      } else {
        assert rs[i] == t;
      }
    }
  }

  lemma KeyMaskAppend(p: seq<Tagged>, t: Tagged, k: SetBinding)
    ensures KeyMask(p + [t], k) == if Key(t) == k then AddStage(KeyMask(p, k), t.stageFlag) else KeyMask(p, k)
  {
    assert (p + [t])[..|p|] == p;
  }

  lemma {:induction false} KeyMaskAbsent(rs: seq<Tagged>, k: SetBinding)
    requires !HasKey(rs, k)
    ensures KeyMask(rs, k) == 0
  {
    if |rs| > 0 {
      var p := rs[..|rs| - 1];
      forall i | 0 <= i < |p|
        ensures Key(p[i]) != k
      {
        assert rs[i] == p[i];
      }
      KeyMaskAbsent(p, k);
      assert Key(rs[|rs| - 1]) != k;
    }
  }

  /** A bit of a key's mask is set iff some record with that key comes from
      a stage with that bit. */
  lemma {:induction false} KeyMaskBits(rs: seq<Tagged>, k: SetBinding, b: bv5)
    ensures Bit(KeyMask(rs, k), b) <==> FlagFrom(rs, k, b)
  {
    if |rs| > 0 {
      var p, t := rs[..|rs| - 1], rs[|rs| - 1];
      assert rs == p + [t];
      KeyMaskBits(p, k, b);
      FlagFromAppend(p, t, k, b);
      KeyMaskAppend(p, t, k);
      if Key(t) == k {
        OrBit(KeyMask(p, k), t.stageFlag, b);
      }
    }
  }

  lemma FlagsAppend(p: seq<Tagged>, t: Tagged, m: map<SetBinding, LayoutBinding>)
    requires KeysFrom(m, p) && FlagsFrom(m, p)
    ensures FlagsFrom(Stored(m, t), p + [t])
  {
    var m' := Stored(m, t);
    var key := Key(t);
    forall k | k in m'
      ensures m'[k].stageFlags == KeyMask(p + [t], k)
    {
      KeyMaskAppend(p, t, k);
      if k != key {
        assert m'[k] == m[k];
      } else if k in m {
        assert m'[k].stageFlags == AddStage(m[k].stageFlags, t.stageFlag);
      } else {
        KeyMaskAbsent(p, k);
        OrZero(t.stageFlag);
      }
    }
  }

  lemma OrZero(f: Flags)
    ensures AddStage(0, f) == f
  {
  }



  /** Appending a record that agrees with the stored entry of its key (if
      any) keeps the records compatible. */
  lemma CompatibleAppend(p: seq<Tagged>, t: Tagged, m: map<SetBinding, LayoutBinding>)
    requires Compatible(p) && EntriesFrom(m, p)
    requires Key(t) in m ==> m[Key(t)].descriptorCount == t.descriptor.count
                             && m[Key(t)].descriptorType == t.descriptor.descriptorType
    ensures Compatible(p + [t])
  {
    var rs := p + [t];
    forall i, j | 0 <= i < |rs| && 0 <= j < |rs| && Key(rs[i]) == Key(rs[j])
      ensures rs[i].descriptor.count == rs[j].descriptor.count
      ensures rs[i].descriptor.descriptorType == rs[j].descriptor.descriptorType
    {
      if i < |p| {
        assert rs[i] == p[i] && Key(p[i]) in m;
      } else {
        assert rs[i] == t;
      }
      if j < |p| {
        assert rs[j] == p[j] && Key(p[j]) in m;
      } else {
        assert rs[j] == t;
      }
    }
  }

  /** Accepting a record that agrees with the stored entry of its key keeps
      the map described by MergedFrom. */
  lemma StoredCorrect(p: seq<Tagged>, t: Tagged, m: map<SetBinding, LayoutBinding>)
    requires Compatible(p) && MergedFrom(m, p)
    requires Key(t) in m ==> m[Key(t)].descriptorCount == t.descriptor.count
                             && m[Key(t)].descriptorType == t.descriptor.descriptorType
    ensures Compatible(p + [t]) && MergedFrom(Stored(m, t), p + [t])
  {
    CompatibleAppend(p, t, m);
    var m' := Stored(m, t);
    if Key(t) in m {
      var j :| 0 <= j < |p| && Key(p[j]) == Key(t);
      assert m[Key(p[j])].binding == p[j].descriptor.binding;
    }
    KeysAppend(p, t, m, m');
    EntriesAppend(p, t, m, m');
    FlagsAppend(p, t, m);
  }

  /** The largest set number among the records, 0 when there are none. */
  function MaxSet(rs: seq<Tagged>): (r: nat)
    ensures r < 0xFFFF_FFFF
  {
    if |rs| == 0 then 0
    else
      var m := MaxSet(rs[..|rs| - 1]);
      if rs[|rs| - 1].descriptor.setIndex > m then rs[|rs| - 1].descriptor.setIndex else m
  }

  lemma {:induction false} MaxSetIsMax(rs: seq<Tagged>)
    ensures forall i :: 0 <= i < |rs| ==> rs[i].descriptor.setIndex <= MaxSet(rs)
    ensures MaxSet(rs) == 0 || exists i :: 0 <= i < |rs| && rs[i].descriptor.setIndex == MaxSet(rs)
  {
    if |rs| > 0 {
      var p := rs[..|rs| - 1];
      MaxSetIsMax(p);
      assert forall i :: 0 <= i < |p| ==> rs[i] == p[i];
    }
  }

  // ---------------------------------------------------------------------
  // Push constants and stage masks
  // ---------------------------------------------------------------------

  /** `pushConstantSize += padded_size` over a stage's blocks, in 32 bits. */
  function BlockSum(sizes: seq<U32>): U32
  {
    if |sizes| == 0 then 0
    else (BlockSum(sizes[..|sizes| - 1]) + sizes[|sizes| - 1]) % 0x1_0000_0000
  }

  function Sum(sizes: seq<U32>): nat
  {
    if |sizes| == 0 then 0 else Sum(sizes[..|sizes| - 1]) + sizes[|sizes| - 1]
  }

  /** A stage's push-constant size is the sum of its blocks' padded sizes,
      wrapped to 32 bits. */
  lemma {:induction false} BlockSumIsSum(sizes: seq<U32>)
    ensures BlockSum(sizes) == Sum(sizes) % 0x1_0000_0000
  {
    if |sizes| > 0 {
      BlockSumIsSum(sizes[..|sizes| - 1]);
      ModAddLeft(Sum(sizes[..|sizes| - 1]), sizes[|sizes| - 1]);
    }
  }

  lemma ModAddLeft(a: nat, b: nat)
    ensures (a % 0x1_0000_0000 + b) % 0x1_0000_0000 == (a + b) % 0x1_0000_0000
  {
    ModShift(a % 0x1_0000_0000 + b, a / 0x1_0000_0000);
  }

  lemma {:induction false} ModShift(x: nat, q: nat)
    ensures (x + q * 0x1_0000_0000) % 0x1_0000_0000 == x % 0x1_0000_0000
  {
    if q > 0 {
      ModShift(x, q - 1);
    }
  }

  /** The push-constant sizes of the stages, in order. */
  function StageSizes(stages: seq<StageReflection>): (r: seq<U32>)
    ensures |r| == |stages|
  {
    seq(|stages|, i requires 0 <= i < |stages| => BlockSum(stages[i].pushConstantSizes))
  }

  /** The push-constant check over the stage sizes: once a non-zero size has
      been recorded, every later stage must have exactly that size. */
  function PushFold(sizes: seq<U32>): Result<U32>
  {
    if |sizes| == 0 then Ok(0)
    else
      var m :- PushFold(sizes[..|sizes| - 1]);
      var x := sizes[|sizes| - 1];
      if m == 0 || m == x then Ok(if m >= x then m else x) else Fail(PUSH_CONSTANT_MISMATCH)
  }

  lemma PushFoldStep(sizes: seq<U32>, x: U32)
    ensures PushFold(sizes).Fail? ==> PushFold(sizes + [x]).Fail?
    ensures PushFold(sizes).Ok? ==> var m := PushFold(sizes).value;
      PushFold(sizes + [x]) ==
        if m == 0 || m == x then Ok(if m >= x then m else x) else Fail(PUSH_CONSTANT_MISMATCH)
  {
    assert (sizes + [x])[..|sizes|] == sizes;
  }

  /** Reference condition: every size after a non-zero one equals it, a zero
      size included. */
  predicate PushConsistent(sizes: seq<U32>)
  {
    forall i, j :: 0 <= i < j < |sizes| && sizes[i] != 0 ==> sizes[j] == sizes[i]
  }

  /** The check passes exactly on consistent sizes, and the recorded size is
      then the largest one: every size is 0 or that value. */
  lemma {:induction false} PushFoldCorrect(sizes: seq<U32>)
    ensures PushFold(sizes).Ok? <==> PushConsistent(sizes)
    ensures PushFold(sizes).Ok? ==>
      && (forall i :: 0 <= i < |sizes| ==> sizes[i] == 0 || sizes[i] == PushFold(sizes).value)
      && (PushFold(sizes).value == 0 || exists i :: 0 <= i < |sizes| && sizes[i] == PushFold(sizes).value)
  {
    if |sizes| == 0 {
      return;
    }
    var p, x := sizes[..|sizes| - 1], sizes[|sizes| - 1];
    assert sizes == p + [x];
    PushFoldCorrect(p);
    PushFoldStep(p, x);
    assert forall i :: 0 <= i < |p| ==> sizes[i] == p[i];
    if PushFold(p).Fail? {
      assert !PushConsistent(sizes);
    } else {
      var m := PushFold(p).value;
      if m != 0 && m != x {
        var i :| 0 <= i < |p| && p[i] == m;
        assert sizes[i] != 0 && sizes[|p|] != sizes[i];
      } else if m == 0 {
        assert sizes[|p|] == x;
      } else {
        assert sizes[|p|] == x;
      }
    }
  }

  lemma StageSizesPrefix(stages: seq<StageReflection>, i: nat)
    requires i <= |stages|
    ensures StageSizes(stages[..i]) <= StageSizes(stages)
  {
  }

  lemma StageSizesStep(stages: seq<StageReflection>, i: nat)
    requires i < |stages|
    ensures StageSizes(stages[..i + 1]) == StageSizes(stages[..i]) + [BlockSum(stages[i].pushConstantSizes)]
  {
  }

  lemma ConsistentPrefix(p: seq<U32>, sizes: seq<U32>)
    requires p <= sizes
    ensures PushConsistent(sizes) ==> PushConsistent(p)
  {
    if PushConsistent(sizes) {
      forall i, j | 0 <= i < j < |p| && p[i] != 0
        ensures p[j] == p[i]
      {
        assert p[i] == sizes[i] && p[j] == sizes[j];
      }
    }
  }

  /** `pushConstantStages |= ConvertShaderStageVulkan(stage.Stage)` over the
      stages. */
  function StageMask(stages: seq<StageReflection>): Flags
  {
    if |stages| == 0 then 0
    else StageMask(stages[..|stages| - 1]) | ConvertShaderStageVulkan(stages[|stages| - 1].stage)
  }

  /** The push-constant stage mask has a bit iff some stage has it, whether or
      not that stage declares push constants. */
  lemma {:induction false} StageMaskBits(stages: seq<StageReflection>, b: bv5)
    ensures Bit(StageMask(stages), b) <==>
      exists i :: 0 <= i < |stages| && Bit(ConvertShaderStageVulkan(stages[i].stage), b)
  {
    if |stages| > 0 {
      var p, last := stages[..|stages| - 1], stages[|stages| - 1];
      StageMaskBits(p, b);
      OrBit(StageMask(p), ConvertShaderStageVulkan(last.stage), b);
      if Bit(StageMask(stages), b) {
        if Bit(StageMask(p), b) {
          var i :| 0 <= i < |p| && Bit(ConvertShaderStageVulkan(p[i].stage), b);
          assert stages[i] == p[i];
        } else {
          assert Bit(ConvertShaderStageVulkan(stages[|stages| - 1].stage), b);
        }
      }
      if exists i :: 0 <= i < |stages| && Bit(ConvertShaderStageVulkan(stages[i].stage), b) {
        var i :| 0 <= i < |stages| && Bit(ConvertShaderStageVulkan(stages[i].stage), b);
        if i < |p| {
          assert stages[i] == p[i];
        }
      }
    }
  }

  lemma StageMaskStep(stages: seq<StageReflection>, i: nat)
    requires i < |stages|
    ensures StageMask(stages[..i + 1]) == StageMask(stages[..i]) | ConvertShaderStageVulkan(stages[i].stage)
  {
    assert stages[..i + 1][..i] == stages[..i];
  }

  // ---------------------------------------------------------------------
  // GenerateLayoutFromReflection
  // ---------------------------------------------------------------------

  /** The per-set lists hold, for each set number below `setCount`, exactly
      the merged bindings of that set, each once; their order within a set is
      the unordered_map's iteration order and is left open. */
  predicate GroupedBySet(m: map<SetBinding, LayoutBinding>, perSet: seq<seq<LayoutBinding>>,
                         setCount: nat)
  {
    && |perSet| == setCount
    && (forall k :: k in m ==> k.setIndex < setCount && m[k] in perSet[k.setIndex])
    && (forall i, j :: 0 <= i < setCount && 0 <= j < |perSet[i]| ==>
          SetBinding(i, perSet[i][j].binding) in m
          && m[SetBinding(i, perSet[i][j].binding)] == perSet[i][j])
    && (forall i, j1, j2 :: 0 <= i < setCount && 0 <= j1 < j2 < |perSet[i]| ==>
          perSet[i][j1].binding != perSet[i][j2].binding)
  }

  /** Reflection succeeds iff no assertion trips on the way. */
  predicate ReflectionSucceeds(stages: seq<StageReflection>)
  {
    MergeAll(Records(stages)).Ok? && PushFold(StageSizes(stages)).Ok?
  }

  /** The two assertions of the reflection pass, in terms of the records. */
  lemma ReflectionSucceedsIff(stages: seq<StageReflection>)
    ensures ReflectionSucceeds(stages) <==>
      Compatible(Records(stages)) && PushConsistent(StageSizes(stages))
  {
    MergeAllCorrect(Records(stages));
    PushFoldCorrect(StageSizes(stages));
  }

  /** What a successful GenerateLayoutFromReflection returns: one binding
      list per set number up to the largest, and the push-constant range at
      offset 0 over all stages. */
  predicate LayoutOf(stages: seq<StageReflection>, info: ReflectionInfo)
    requires ReflectionSucceeds(stages)
  {
    var rs := Records(stages);
    && GroupedBySet(MergeAll(rs).value, info.descriptorSetLayouts, MaxSet(rs) + 1)
    && info.pushConstantRange == PushConstantRange(StageMask(stages), 0, PushFold(StageSizes(stages)).value)
  }

  /** The bindings-per-set loop: every map entry is appended to its set's
      list, in the map's (unspecified) iteration order. */
  method GroupBySet(m: map<SetBinding, LayoutBinding>, setCount: nat)
    returns (perSet: seq<seq<LayoutBinding>>)
    requires forall k :: k in m ==> k.setIndex < setCount && m[k].binding == k.binding
    ensures GroupedBySet(m, perSet, setCount)
  {
    perSet := seq(setCount, _ => []);
    var rest := m.Keys;
    while rest != {}
      invariant rest <= m.Keys
      invariant Grouping(m, rest, perSet, setCount)
      decreases |rest|
    {
      var k :| k in rest;
      GroupingStep(m, rest, perSet, setCount, k);
      perSet := perSet[k.setIndex := perSet[k.setIndex] + [m[k]]];
      rest := rest - {k};
    }
  }

  /** The invariant of the grouping loop: the entries already visited (those
      not in `rest`) are in their set's list, every listed binding is a
      visited entry of that set, and no list repeats a binding number. */
  predicate Grouping(m: map<SetBinding, LayoutBinding>, rest: set<SetBinding>,
                     perSet: seq<seq<LayoutBinding>>, setCount: nat)
  {
    && |perSet| == setCount
    && (forall k :: k in m && k !in rest ==> k.setIndex < setCount && m[k] in perSet[k.setIndex])
    && (forall i, j :: 0 <= i < setCount && 0 <= j < |perSet[i]| ==>
          SetBinding(i, perSet[i][j].binding) in m && SetBinding(i, perSet[i][j].binding) !in rest
          && m[SetBinding(i, perSet[i][j].binding)] == perSet[i][j])
    && (forall i, j1, j2 :: 0 <= i < setCount && 0 <= j1 < j2 < |perSet[i]| ==>
          perSet[i][j1].binding != perSet[i][j2].binding)
  }

  lemma GroupingStep(m: map<SetBinding, LayoutBinding>, rest: set<SetBinding>,
                     perSet: seq<seq<LayoutBinding>>, setCount: nat, k: SetBinding)
    requires forall k :: k in m ==> k.setIndex < setCount && m[k].binding == k.binding
    requires Grouping(m, rest, perSet, setCount)
    requires k in rest && rest <= m.Keys
    ensures Grouping(m, rest - {k}, perSet[k.setIndex := perSet[k.setIndex] + [m[k]]], setCount)
  {
    var s := k.setIndex;
    var next: seq<seq<LayoutBinding>> := perSet[s := perSet[s] + [m[k]]];
    forall i, j | 0 <= i < setCount && 0 <= j < |next[i]|
      ensures SetBinding(i, next[i][j].binding) in m && SetBinding(i, next[i][j].binding) !in rest - {k}
      ensures m[SetBinding(i, next[i][j].binding)] == next[i][j]
    {
      if i != s || j < |perSet[s]| {
        assert next[i][j] == perSet[i][j];
      } else {
        assert next[i][j] == m[k] && SetBinding(i, m[k].binding) == k;
      }
    }
    forall i, j1, j2 | 0 <= i < setCount && 0 <= j1 < j2 < |next[i]|
      ensures next[i][j1].binding != next[i][j2].binding
    {
      if i == s && j2 == |perSet[s]| {
        assert next[i][j1] == perSet[s][j1];
        assert SetBinding(s, perSet[s][j1].binding) !in rest;
      }
    }
    forall k' | k' in m && k' !in rest - {k}
      ensures k'.setIndex < setCount && m[k'] in next[k'.setIndex]
    {
      if k' == k {
        assert next[s][|perSet[s]|] == m[k];
      } else {
        assert m[k'] in perSet[k'.setIndex];
      }
    }
  }

  /** `pushConstantSize += pushConstant->padded_size` for one stage. */
  method PushConstantSize(blocks: seq<U32>) returns (size: U32)
    ensures size == BlockSum(blocks)
    ensures size == Sum(blocks) % 0x1_0000_0000
  {
    size := 0;
    var i := 0;
    while i < |blocks|
      invariant i <= |blocks|
      invariant size == BlockSum(blocks[..i])
    {
      assert blocks[..i + 1][..i] == blocks[..i];
      size := (size + blocks[i]) % 0x1_0000_0000;
      i := i + 1;
    }
    assert blocks[..|blocks|] == blocks;
    BlockSumIsSum(blocks);
  }

  /** The lookup-then-insert-or-check block for one reflected binding. */
  method MergeBinding(bindings: map<SetBinding, LayoutBinding>, d: DescriptorBinding, flag: Flags)
    returns (r: Result<map<SetBinding, LayoutBinding>>)
    ensures r == Merge(bindings, Tagged(d, flag))
    ensures r.Fail? ==> r.message in {COUNT_MISMATCH, TYPE_MISMATCH}
  {
    var key := SetBinding(d.setIndex, d.binding);
    if key !in bindings {
      return Ok(bindings[key := LayoutBinding(d.binding, d.count, d.descriptorType, flag)]);
    }
    var stored := bindings[key];
    if stored.descriptorCount != d.count {
      return Fail(COUNT_MISMATCH);
    }
    if stored.descriptorType != d.descriptorType {
      return Fail(TYPE_MISMATCH);
    }
    r := Ok(bindings[key := stored.(stageFlags := AddStage(stored.stageFlags, flag))]);
  }

  lemma MaxSetStep(rs: seq<Tagged>, t: Tagged)
    ensures MaxSet(rs + [t]) == if t.descriptor.setIndex > MaxSet(rs) then t.descriptor.setIndex else MaxSet(rs)
  {
    assert (rs + [t])[..|rs|] == rs;
  }

  /** The descriptor-binding loop of one stage: each binding raises the
      largest set number and is merged into the map. Stops at the first
      assertion that trips, as the whole merge over the records then does. */
  method MergeStage(ghost before: seq<Tagged>, bindings: map<SetBinding, LayoutBinding>,
                    maxSetIndex: nat, stage: StageReflection)
    returns (r: Result<map<SetBinding, LayoutBinding>>, newMaxSetIndex: nat)
    requires MergeAll(before) == Ok(bindings) && maxSetIndex == MaxSet(before)
    ensures r == MergeAll(before + StageRecords(stage))
    ensures r.Fail? ==> r.message in {COUNT_MISMATCH, TYPE_MISMATCH}
    ensures r.Ok? ==> newMaxSetIndex == MaxSet(before + StageRecords(stage))
  {
    var flag := ConvertShaderStageVulkan(stage.stage);
    ghost var records := StageRecords(stage);
    var merged := bindings;
    newMaxSetIndex := maxSetIndex;
    var j := 0;
    assert before + records[..0] == before;
    while j < |stage.descriptorBindings|
      invariant j <= |stage.descriptorBindings|
      invariant MergeAll(before + records[..j]) == Ok(merged)
      invariant newMaxSetIndex == MaxSet(before + records[..j])
    {
      var d := stage.descriptorBindings[j];
      RecordsTake(before, stage, j);
      if d.setIndex > newMaxSetIndex {
        newMaxSetIndex := d.setIndex;
      }
      var next := MergeBinding(merged, d, flag);
      if next.Fail? {
        r := next;
        MergeFailsOnward(before, records, j + 1);
        return;
      }
      merged := next.value;
      j := j + 1;
    }
    assert records[..|records|] == records;
    r := Ok(merged);
  }

  /** One more binding of a stage: the merge and the largest set number over
      the records so far advance by that binding's record. */
  lemma RecordsTake(before: seq<Tagged>, stage: StageReflection, j: nat)
    requires j < |stage.descriptorBindings|
    ensures var rs := before + StageRecords(stage)[..j];
            var t := Tagged(stage.descriptorBindings[j], ConvertShaderStageVulkan(stage.stage));
            && before + StageRecords(stage)[..j + 1] == rs + [t]
            && MergeAll(rs + [t]) == (if MergeAll(rs).Fail? then MergeAll(rs) else Merge(MergeAll(rs).value, t))
            && MaxSet(rs + [t]) == if t.descriptor.setIndex > MaxSet(rs) then t.descriptor.setIndex else MaxSet(rs)
  {
    var rs := before + StageRecords(stage)[..j];
    var t := Tagged(stage.descriptorBindings[j], ConvertShaderStageVulkan(stage.stage));
    assert StageRecords(stage)[..j + 1] == StageRecords(stage)[..j] + [t];
    MergeAllStep(rs, t);
    MaxSetStep(rs, t);
  }

  /** A failed merge stays failed, with the same message, whatever follows. */
  lemma {:induction false} MergeFailsOnward(before: seq<Tagged>, records: seq<Tagged>, j: nat)
    requires j <= |records|
    requires MergeAll(before + records[..j]).Fail?
    ensures MergeAll(before + records) == MergeAll(before + records[..j])
    decreases |records| - j
  {
    if j < |records| {
      MergeAllStep(before + records[..j], records[j]);
      assert before + records[..j + 1] == (before + records[..j]) + [records[j]];
      MergeFailsOnward(before, records, j + 1);
    } else {
      assert records[..j] == records;
    }
  }

  /** GenerateLayoutFromReflection: merges the bindings of all stages by
      (set, binding), checks the push-constant sizes, groups the bindings by
      set and builds the push-constant range. Fails with the condition text
      of one of its three assertions. */
  method GenerateLayoutFromReflection(stages: seq<StageReflection>) returns (r: Result<ReflectionInfo>)
    ensures r.Ok? <==> ReflectionSucceeds(stages)
    ensures r.Fail? ==> r.message in {COUNT_MISMATCH, TYPE_MISMATCH, PUSH_CONSTANT_MISMATCH}
    ensures r.Ok? ==> LayoutOf(stages, r.value)
  {
    var bindings: map<SetBinding, LayoutBinding> := map[];
    var maxSetIndex: nat := 0;
    var maxPushConstantSize: U32 := 0;
    var pushConstantStages: Flags := 0;
    var i := 0;
    while i < |stages|
      invariant i <= |stages|
      invariant MergeAll(Records(stages[..i])) == Ok(bindings)
      invariant maxSetIndex == MaxSet(Records(stages[..i]))
      invariant PushFold(StageSizes(stages[..i])) == Ok(maxPushConstantSize)
      invariant pushConstantStages == StageMask(stages[..i])
    {
      var stage := stages[i];
      RecordsStep(stages, i);
      var merged, newMax := MergeStage(Records(stages[..i]), bindings, maxSetIndex, stage);
      if merged.Fail? {
        r := Fail(merged.message);
        MergeFailsLater(stages, i);
        return;
      }
      bindings, maxSetIndex := merged.value, newMax;
      var size := PushConstantSize(stage.pushConstantSizes);
      StageSizesStep(stages, i);
      PushFoldStep(StageSizes(stages[..i]), size);
      if !(maxPushConstantSize == 0 || maxPushConstantSize == size) {
        r := Fail(PUSH_CONSTANT_MISMATCH);
        PushFailsLater(stages, i + 1);
        return;
      }
      maxPushConstantSize := if maxPushConstantSize >= size then maxPushConstantSize else size;
      StageMaskStep(stages, i);
      pushConstantStages := pushConstantStages | ConvertShaderStageVulkan(stage.stage);
      i := i + 1;
    }
    assert stages[..|stages|] == stages;
    GroupingDefined(Records(stages), bindings);
    var perSet := GroupBySet(bindings, maxSetIndex + 1);
    r := Ok(ReflectionInfo(perSet, PushConstantRange(pushConstantStages, 0, maxPushConstantSize)));
  }

  /** A binding conflict within the first i + 1 stages is a conflict of
      the whole input. */
  lemma MergeFailsLater(stages: seq<StageReflection>, i: nat)
    requires i < |stages|
    requires MergeAll(Records(stages[..i + 1])).Fail?
    ensures MergeAll(Records(stages)).Fail?
  {
    RecordsPrefix(stages, i + 1);
    MergeAllCorrect(Records(stages[..i + 1]));
    MergeAllCorrect(Records(stages));
    CompatiblePrefix(Records(stages[..i + 1]), Records(stages));
  }

  lemma PushFailsLater(stages: seq<StageReflection>, i: nat)
    requires i <= |stages|
    requires PushFold(StageSizes(stages[..i])).Fail?
    ensures PushFold(StageSizes(stages)).Fail?
  {
    StageSizesPrefix(stages, i);
    PushFoldCorrect(StageSizes(stages[..i]));
    PushFoldCorrect(StageSizes(stages));
    ConsistentPrefix(StageSizes(stages[..i]), StageSizes(stages));
  }

  /** The merged map meets the grouping loop's needs: every key's set is at
      most the largest set, and every entry's binding number is its key's. */
  lemma GroupingDefined(rs: seq<Tagged>, m: map<SetBinding, LayoutBinding>)
    requires MergeAll(rs) == Ok(m)
    ensures forall k :: k in m ==> k.setIndex < MaxSet(rs) + 1 && m[k].binding == k.binding
  {
    MergeAllCorrect(rs);
    MaxSetIsMax(rs);
    forall k | k in m
      ensures k.setIndex < MaxSet(rs) + 1 && m[k].binding == k.binding
    {
      var i :| 0 <= i < |rs| && Key(rs[i]) == k;
    }
  }

  // ---------------------------------------------------------------------
  // The shader object
  // ---------------------------------------------------------------------

  /** A VkPipelineLayoutCreateInfo: the set layouts and the push-constant
      ranges it lists. */
  datatype PipelineLayoutCreateInfo = PipelineLayoutCreateInfo(
    setLayouts: seq<seq<LayoutBinding>>, pushConstantRanges: seq<PushConstantRange>)

  /** The constructor's pipeline layout: all set layouts, and the single
      push-constant range only when its size is non-zero. */
  function PipelineLayoutInfo(reflection: ReflectionInfo): (p: PipelineLayoutCreateInfo)
    ensures p.setLayouts == reflection.descriptorSetLayouts
    ensures |p.pushConstantRanges| > 0 <==> reflection.pushConstantRange.size > 0
    ensures forall q :: q in p.pushConstantRanges ==> q == reflection.pushConstantRange
    ensures |p.pushConstantRanges| <= 1
  {
    PipelineLayoutCreateInfo(
      reflection.descriptorSetLayouts,
      if reflection.pushConstantRange.size > 0 then [reflection.pushConstantRange] else [])
  }

  /** The stage loop of the constructor: the Vulkan stage bit of every stage,
      in order (the shader modules are driver objects). */
  method ConvertStages(stages: seq<StageReflection>) returns (flags: seq<Flags>)
    ensures |flags| == |stages|
    ensures forall i :: 0 <= i < |stages| ==> flags[i] == ConvertShaderStageVulkan(stages[i].stage)
  {
    flags := [];
    var i := 0;
    while i < |stages|
      invariant i <= |stages| && |flags| == i
      invariant forall k :: 0 <= k < i ==> flags[k] == ConvertShaderStageVulkan(stages[k].stage)
    {
      flags := flags + [ConvertShaderStageVulkan(stages[i].stage)];
      i := i + 1;
    }
  }

  class VulkanShader {
    var name: string
    var stageFlags: seq<Flags>
    var pipelineLayout: PipelineLayoutCreateInfo
    var descriptorSetLayouts: seq<seq<LayoutBinding>>

    /** The constructor: converts every stage, derives the layout from
        reflection (failing with the assertion that trips) and creates the
        pipeline layout from it. */
    static method Create(info: ShaderInfo) returns (r: Result<VulkanShader>)
      ensures r.Ok? <==> ReflectionSucceeds(info.stages)
      ensures r.Fail? ==> r.message in {COUNT_MISMATCH, TYPE_MISMATCH, PUSH_CONSTANT_MISMATCH}
      ensures r.Ok? ==> fresh(r.value) && r.value.Created(info)
    {
      var flags := ConvertStages(info.stages);
      var reflection := GenerateLayoutFromReflection(info.stages);
      if reflection.Fail? {
        return Fail(reflection.message);
      }
      var s := new VulkanShader.WithLayout(info.name, flags, reflection.value);
      r := Ok(s);
    }

    constructor WithLayout(name: string, flags: seq<Flags>, reflection: ReflectionInfo)
      ensures this.name == name && stageFlags == flags
      ensures pipelineLayout == PipelineLayoutInfo(reflection)
      ensures descriptorSetLayouts == reflection.descriptorSetLayouts
    {
      this.name := name;
      stageFlags := flags;
      pipelineLayout := PipelineLayoutInfo(reflection);
      descriptorSetLayouts := reflection.descriptorSetLayouts;
    }

    /** The state a successful construction leaves. */
    predicate Created(info: ShaderInfo)
      reads this
      requires ReflectionSucceeds(info.stages)
    {
      var range := PushConstantRange(StageMask(info.stages), 0, PushFold(StageSizes(info.stages)).value);
      && name == info.name
      && |stageFlags| == |info.stages|
      && (forall i :: 0 <= i < |info.stages| ==> stageFlags[i] == ConvertShaderStageVulkan(info.stages[i].stage))
      && LayoutOf(info.stages, ReflectionInfo(descriptorSetLayouts, range))
      && pipelineLayout == PipelineLayoutInfo(ReflectionInfo(descriptorSetLayouts, range))
    }
  }
}

=== FILE: vulkan_swapchain.dfy ===
/** backend/vulkan/VulkanSwapChain.cpp: how the swapchain picks its present
    mode, image count, surface format and extent from what the surface
    offers, and in which order it creates the new swapchain and destroys
    the old one.

    The surface queries of every Recreate are given as input: the offered
    present modes, the capabilities and the offered formats, together with
    the handle and images of the swapchain the driver creates. Every driver
    call succeeds. */
module VulkanSwapChain {
  import opened Wrappers
  import opened Utilities
  import opened VulkanFormat

  const VK_PRESENT_MODE_IMMEDIATE_KHR: nat := 0
  const VK_PRESENT_MODE_MAILBOX_KHR: nat := 1

  const VK_COMPOSITE_ALPHA_OPAQUE_BIT_KHR: Flags := 0x1
  const VK_IMAGE_USAGE_TRANSFER_DST_BIT: Flags := 0x2
  const VK_IMAGE_USAGE_COLOR_ATTACHMENT_BIT: Flags := 0x10
  const VK_SHARING_MODE_EXCLUSIVE: nat := 0

  /** The largest `uint32_t`: a maximum extent component meaning "no fixed
      size". */
  const UNDEFINED_EXTENT: U32 := 0xFFFF_FFFF

  datatype Extent2D = Extent2D(width: U32, height: U32)

  datatype SurfaceFormat = SurfaceFormat(format: VkFormat, colorSpace: nat)

  /** The value-initialised VkSurfaceFormatKHR and VkExtent2D members. */
  const NO_SURFACE_FORMAT := SurfaceFormat(0, 0)
  const NO_EXTENT := Extent2D(0, 0)

  /** VkSurfaceCapabilitiesKHR, reduced to what is looked at. */
  datatype SurfaceCapabilities = SurfaceCapabilities(
    maxImageCount: U32, maxImageExtent: Extent2D, currentTransform: Flags)

  /** The driver's answers during one Recreate: the three surface queries,
      the handle vkCreateSwapchainKHR returns and the images of that
      swapchain. */
  datatype SurfaceQueries = SurfaceQueries(
    presentModes: seq<nat>, capabilities: SurfaceCapabilities, formats: seq<SurfaceFormat>,
    newSwapchain: LiveHandle, images: seq<Handle>)

  /** The window surface a swapchain is built for. */
  datatype Surface = Surface(handle: Handle, width: U32, height: U32)

  /** VkSwapchainCreateInfoKHR, with the fields Recreate fills in. */
  datatype SwapchainCreateInfo = SwapchainCreateInfo(
    surface: Handle, compositeAlpha: Flags, imageColorSpace: nat, imageFormat: VkFormat,
    imageSharingMode: nat, imageUsage: Flags, imageArrayLayers: nat, imageExtent: Extent2D,
    minImageCount: U32, presentMode: nat, preTransform: Flags, clipped: bool,
    oldSwapchain: Handle)

  /** The swapchain calls made on the device. */
  datatype SwapchainCall =
    | CreateSwapchain(info: SwapchainCreateInfo, created: Handle)
    | DestroySwapchain(swapchain: Handle)

  /** The swapchains created by `calls` and not destroyed since. */
  function Live(calls: seq<SwapchainCall>): set<Handle>
  {
    if |calls| == 0 then {}
    else
      match calls[|calls| - 1]
      case CreateSwapchain(_, h) => Live(calls[..|calls| - 1]) + {h}
      case DestroySwapchain(h) => Live(calls[..|calls| - 1]) - {h}
  }

  lemma LiveAppend(calls: seq<SwapchainCall>, c: SwapchainCall)
    ensures c.CreateSwapchain? ==> Live(calls + [c]) == Live(calls) + {c.created}
    ensures c.DestroySwapchain? ==> Live(calls + [c]) == Live(calls) - {c.swapchain}
  {
    assert (calls + [c])[..|calls|] == calls;
  }

  /** The log of one Recreate after one with `info.oldSwapchain` alive:
      the created swapchain, then the destruction of the old one if there
      is one. */
  function ReplaceCalls(info: SwapchainCreateInfo, created: Handle): seq<SwapchainCall>
  {
    [CreateSwapchain(info, created)]
    + if info.oldSwapchain != NULL_HANDLE then [DestroySwapchain(info.oldSwapchain)] else []
  }

  /** Creating before destroying keeps the swapchain alive throughout, and
      afterwards only the new one is: the old one overlaps the new one for
      exactly one call. */
  lemma ReplaceLeavesOneLive(calls: seq<SwapchainCall>, info: SwapchainCreateInfo, created: LiveHandle)
    requires Live(calls) == if info.oldSwapchain == NULL_HANDLE then {} else {info.oldSwapchain}
    requires created != info.oldSwapchain
    ensures Live(calls + [CreateSwapchain(info, created)]) == Live(calls) + {created}
    ensures Live(calls + ReplaceCalls(info, created)) == {created}
  {
    LiveAppend(calls, CreateSwapchain(info, created));
    if info.oldSwapchain != NULL_HANDLE {
      var c := calls + [CreateSwapchain(info, created)];
      LiveAppend(c, DestroySwapchain(info.oldSwapchain));
      assert c + [DestroySwapchain(info.oldSwapchain)] == calls + ReplaceCalls(info, created);
    } else {
      assert calls + [CreateSwapchain(info, created)] == calls + ReplaceCalls(info, created);
    }
  }

  /** The formats the swapchain prefers. */
  predicate Preferred(f: SurfaceFormat)
  {
    f.format == VK_FORMAT_R8G8B8A8_UNORM || f.format == VK_FORMAT_B8G8R8A8_UNORM
  }

  /** The position of the last preferred format, if any. */
  function LastPreferred(formats: seq<SurfaceFormat>): (r: Option<nat>)
    ensures r.Some? ==> r.value < |formats|
  {
    if |formats| == 0 then None
    else if Preferred(formats[|formats| - 1]) then Some(|formats| - 1)
    else LastPreferred(formats[..|formats| - 1])
  }

  /** LastPreferred finds the last preferred format, and only misses when
      there is none. */
  lemma {:induction false} LastPreferredIsLast(formats: seq<SurfaceFormat>)
    ensures LastPreferred(formats).Some? ==>
              var i := LastPreferred(formats).value;
              && i < |formats| && Preferred(formats[i])
              && forall j :: i < j < |formats| ==> !Preferred(formats[j])
    ensures LastPreferred(formats).None? ==> forall j :: 0 <= j < |formats| ==> !Preferred(formats[j])
  {
    if |formats| > 0 && !Preferred(formats[|formats| - 1]) {
      var prefix := formats[..|formats| - 1];
      LastPreferredIsLast(prefix);
      assert forall j :: 0 <= j < |prefix| ==> prefix[j] == formats[j];
    }
  }

  /** The surface format Recreate settles on: the last preferred one,
      otherwise the first one offered. */
  function ChosenFormat(formats: seq<SurfaceFormat>): SurfaceFormat
    requires |formats| > 0
  {
    match LastPreferred(formats)
    case Some(i) => formats[i]
    case None => formats[0]
  }

  lemma LastPreferredStep(formats: seq<SurfaceFormat>, i: nat)
    requires i < |formats|
    ensures LastPreferred(formats[..i + 1])
            == if Preferred(formats[i]) then Some(i) else LastPreferred(formats[..i])
  {
    assert formats[..i + 1][..i] == formats[..i];
  }

  /** The extent Recreate settles on: the requested size, replaced as a
      whole by the maximum extent when the surface fixes both dimensions,
      then floored at 1 in each dimension. */
  function ChosenExtent(width: U32, height: U32, caps: SurfaceCapabilities): (e: Extent2D)
    ensures e.width >= 1 && e.height >= 1
    ensures caps.maxImageExtent.width != UNDEFINED_EXTENT && caps.maxImageExtent.height != UNDEFINED_EXTENT
            ==> e == Extent2D(Max1(caps.maxImageExtent.width), Max1(caps.maxImageExtent.height))
    ensures caps.maxImageExtent.width == UNDEFINED_EXTENT || caps.maxImageExtent.height == UNDEFINED_EXTENT
            ==> e == Extent2D(Max1(width), Max1(height))
  {
    var requested := if caps.maxImageExtent.width != UNDEFINED_EXTENT
                         && caps.maxImageExtent.height != UNDEFINED_EXTENT
                     then caps.maxImageExtent else Extent2D(width, height);
    Extent2D(Max1(requested.width), Max1(requested.height))
  }

  function Max1(x: U32): (r: U32)
    ensures r >= 1 && r >= x && (x >= 1 ==> r == x)
  {
    if x >= 1 then x else 1
  }

  /** The maximum extent is not a clamp: once the surface fixes it, the
      requested size plays no part, even when it is smaller. */
  lemma ExtentIgnoresRequest(w1: U32, h1: U32, w2: U32, h2: U32, caps: SurfaceCapabilities)
    requires caps.maxImageExtent.width != UNDEFINED_EXTENT && caps.maxImageExtent.height != UNDEFINED_EXTENT
    ensures ChosenExtent(w1, h1, caps) == ChosenExtent(w2, h2, caps)
  {
  }

  /** The create info Recreate hands to vkCreateSwapchainKHR. */
  function CreateInfo(surface: Handle, format: SurfaceFormat, extent: Extent2D, imageCount: U32,
                      presentMode: nat, caps: SurfaceCapabilities, oldSwapchain: Handle)
    : SwapchainCreateInfo
  {
    SwapchainCreateInfo(surface, VK_COMPOSITE_ALPHA_OPAQUE_BIT_KHR, format.colorSpace, format.format,
                        VK_SHARING_MODE_EXCLUSIVE,
                        VK_IMAGE_USAGE_COLOR_ATTACHMENT_BIT | VK_IMAGE_USAGE_TRANSFER_DST_BIT,
                        1, extent, imageCount, presentMode, caps.currentTransform, true, oldSwapchain)
  }

  class VulkanSwapChain {
    var swapchain: Handle
    var surface: Handle
    var presentMode: nat
    var surfaceFormat: SurfaceFormat
    var surfaceExtent: Extent2D
    var presentImages: seq<Handle>
    /** The swapchain calls made so far. */
    var calls: seq<SwapchainCall>

    /** Exactly the current swapchain is alive, if there is one. */
    predicate Valid()
      reads this`swapchain, this`calls
    {
      Live(calls) == if swapchain == NULL_HANDLE then {} else {swapchain}
    }

    /** The constructor: stores the surface handle, then recreates the
        swapchain at the surface's size. */
    constructor (s: Surface, queries: SurfaceQueries)
      requires |queries.formats| > 0
      ensures surface == s.handle && swapchain == queries.newSwapchain
      ensures presentMode == (if VK_PRESENT_MODE_MAILBOX_KHR in queries.presentModes
                              then VK_PRESENT_MODE_MAILBOX_KHR else VK_PRESENT_MODE_IMMEDIATE_KHR)
      ensures surfaceFormat == ChosenFormat(queries.formats)
      ensures surfaceExtent == ChosenExtent(s.width, s.height, queries.capabilities)
      ensures presentImages == queries.images
      ensures calls == [CreateSwapchain(
                 CreateInfo(s.handle, surfaceFormat, surfaceExtent,
                            ImageCount(queries.capabilities), presentMode,
                            queries.capabilities, NULL_HANDLE),
                 queries.newSwapchain)]
      ensures Valid()
    {
      swapchain := NULL_HANDLE;
      surface := s.handle;
      presentMode := VK_PRESENT_MODE_IMMEDIATE_KHR;
      surfaceFormat := NO_SURFACE_FORMAT;
      surfaceExtent := NO_EXTENT;
      presentImages := [];
      calls := [];
      new;
      Recreate(s.width, s.height, queries);
    }

    /** Recreate: choose the present mode, image count, format and extent,
        create the new swapchain with the current one as `oldSwapchain`,
        then destroy the old one if there was one, and take the new
        swapchain's images. */
    method Recreate(width: U32, height: U32, queries: SurfaceQueries)
      requires |queries.formats| > 0
      requires queries.newSwapchain != swapchain
      requires Valid()
      modifies this`presentMode, this`surfaceFormat, this`surfaceExtent, this`swapchain,
               this`presentImages, this`calls
      ensures VK_PRESENT_MODE_MAILBOX_KHR in queries.presentModes ==> presentMode == VK_PRESENT_MODE_MAILBOX_KHR
      ensures VK_PRESENT_MODE_MAILBOX_KHR !in queries.presentModes ==> presentMode == VK_PRESENT_MODE_IMMEDIATE_KHR
      ensures surfaceFormat == ChosenFormat(queries.formats)
      ensures surfaceExtent == ChosenExtent(width, height, queries.capabilities)
      ensures swapchain == queries.newSwapchain && presentImages == queries.images
      ensures calls == old(calls)
                       + ReplaceCalls(CreateInfo(surface, surfaceFormat, surfaceExtent,
                                                 ImageCount(queries.capabilities), presentMode,
                                                 queries.capabilities, old(swapchain)),
                                      swapchain)
      ensures Valid()
    {
      var caps := queries.capabilities;

      var mode := VK_PRESENT_MODE_IMMEDIATE_KHR;
      if VK_PRESENT_MODE_MAILBOX_KHR in queries.presentModes {
        mode := VK_PRESENT_MODE_MAILBOX_KHR;
      }

      var presentImageCount := if caps.maxImageCount > 0 then caps.maxImageCount else 4;

      var format := SelectSurfaceFormat(queries.formats);

      var extent := Extent2D(width, height);
      if caps.maxImageExtent.width != UNDEFINED_EXTENT && caps.maxImageExtent.height != UNDEFINED_EXTENT {
        extent := caps.maxImageExtent;
      }
      extent := Extent2D(Max1(extent.width), Max1(extent.height));
      assert extent == ChosenExtent(width, height, caps);

      var info := CreateInfo(surface, format, extent, presentImageCount, mode, caps, swapchain);
      ReplaceLeavesOneLive(calls, info, queries.newSwapchain);
      presentMode, surfaceFormat, surfaceExtent := mode, format, extent;
      calls := calls + ReplaceCalls(info, queries.newSwapchain);
      swapchain := queries.newSwapchain;
      presentImages := queries.images;
    }

    /** The destructor: destroys the current swapchain. */
    method Destroy()
      requires Valid()
      modifies this`calls
      ensures calls == old(calls) + [DestroySwapchain(swapchain)]
      ensures Live(calls) == {}
    {
      LiveAppend(calls, DestroySwapchain(swapchain));
      calls := calls + [DestroySwapchain(swapchain)];
    }
  }

  /** The format loop of Recreate: start from the first offered format and
      take every preferred one met on the way. */
  method SelectSurfaceFormat(formats: seq<SurfaceFormat>) returns (format: SurfaceFormat)
    requires |formats| > 0
    ensures format == ChosenFormat(formats)
  {
    format := formats[0];
    var i := 0;
    while i < |formats|
      invariant i <= |formats|
      invariant format == match LastPreferred(formats[..i])
                          case Some(k) => formats[k]
                          case None => formats[0]
    {
      LastPreferredStep(formats, i);
      if Preferred(formats[i]) {
        format := formats[i];
      }
      i := i + 1;
    }
    assert formats[..|formats|] == formats;
  }

  /** The minimum image count: the surface's maximum, or 4 when the surface
      sets none. */
  function ImageCount(caps: SurfaceCapabilities): (n: U32)
    ensures n >= 1
    ensures caps.maxImageCount > 0 ==> n == caps.maxImageCount
    ensures caps.maxImageCount == 0 ==> n == 4
  {
    if caps.maxImageCount > 0 then caps.maxImageCount else 4
  }

  /** The chosen format is one of those offered; it is preferred whenever
      any offered format is, and then no later offered format is. */
  lemma ChosenFormatIsLastPreferred(formats: seq<SurfaceFormat>)
    requires |formats| > 0
    ensures ChosenFormat(formats) in formats
    ensures (exists j :: 0 <= j < |formats| && Preferred(formats[j])) <==> Preferred(ChosenFormat(formats))
    ensures Preferred(ChosenFormat(formats)) ==>
              exists i :: 0 <= i < |formats| && formats[i] == ChosenFormat(formats)
                          && forall j :: i < j < |formats| ==> !Preferred(formats[j])
    ensures !Preferred(ChosenFormat(formats)) ==> ChosenFormat(formats) == formats[0]
  {
    LastPreferredIsLast(formats);
  }
}

=== FILE: vulkan_texture.dfy ===
/** backend/vulkan/VulkanTexture.cpp: the image create info a texture
    description turns into, the checks the constructor makes on it, and the
    enum and flag translations it uses. The image and its allocation, which
    the allocator hands out, are given as input. */
module VulkanTexture {
  import opened Wrappers
  import opened Utilities
  import opened Formats
  import opened Textures
  import opened VulkanFormat

  const VK_IMAGE_CREATE_CUBE_COMPATIBLE_BIT: Flags := 0x10
  const VK_IMAGE_CREATE_2D_ARRAY_COMPATIBLE_BIT: Flags := 0x20

  /** VkImageType, by value. */
  const VK_IMAGE_TYPE_2D: nat := 1
  const VK_IMAGE_TYPE_3D: nat := 2

  const VK_IMAGE_USAGE_TRANSFER_SRC_BIT: Flags := 0x01
  const VK_IMAGE_USAGE_TRANSFER_DST_BIT: Flags := 0x02
  const VK_IMAGE_USAGE_SAMPLED_BIT: Flags := 0x04
  const VK_IMAGE_USAGE_STORAGE_BIT: Flags := 0x08
  const VK_IMAGE_USAGE_COLOR_ATTACHMENT_BIT: Flags := 0x10
  const VK_IMAGE_USAGE_DEPTH_STENCIL_ATTACHMENT_BIT: Flags := 0x20

  const VK_IMAGE_LAYOUT_UNDEFINED: nat := 0
  const VK_IMAGE_TILING_OPTIMAL: nat := 0
  const VK_SHARING_MODE_EXCLUSIVE: nat := 0

  /** The constructor's two shape assertions carry no message; a failed
      assertion reports the text of its condition. */
  const CUBE_SHAPE := "info.Depth == 1 && info.Layers % 6 == 0"
  const VOLUME_LAYERS := "info.Layers == 1"

  /** VkImageCreateInfo, with the fields the constructor fills in. */
  datatype ImageCreateInfo = ImageCreateInfo(
    flags: Flags, width: U32, height: U32, depth: U32, arrayLayers: U32, samples: Flags,
    format: VkFormat, imageType: nat, mipLevels: nat, initialLayout: nat, tiling: nat,
    sharingMode: nat, usage: Flags)

  /** GetImageCreateFlags: array-compatible for more than one layer,
      cube-compatible for a cube texture, nothing else. */
  function GetImageCreateFlags(info: TextureInfo): (r: Flags)
    ensures r & VK_IMAGE_CREATE_2D_ARRAY_COMPATIBLE_BIT != 0 <==> info.layers > 1
    ensures r & VK_IMAGE_CREATE_CUBE_COMPATIBLE_BIT != 0 <==> info.textureType == TEXTURE_CUBE
    ensures r & !(VK_IMAGE_CREATE_2D_ARRAY_COMPATIBLE_BIT | VK_IMAGE_CREATE_CUBE_COMPATIBLE_BIT) == 0
  {
    var withArray: Flags := if info.layers > 1 then VK_IMAGE_CREATE_2D_ARRAY_COMPATIBLE_BIT else 0;
    if info.textureType == TEXTURE_CUBE then withArray | VK_IMAGE_CREATE_CUBE_COMPATIBLE_BIT else withArray
  }

  /** ConvertTextureTypeVulkan: cube maps are 2D images. */
  function ConvertTextureTypeVulkan(t: TextureType): (r: nat)
    ensures r == VK_IMAGE_TYPE_2D || r == VK_IMAGE_TYPE_3D
    ensures r == VK_IMAGE_TYPE_3D <==> t == TEXTURE_3D
  {
    match t
    case TEXTURE_2D => VK_IMAGE_TYPE_2D
    case TEXTURE_3D => VK_IMAGE_TYPE_3D
    case TEXTURE_CUBE => VK_IMAGE_TYPE_2D
  }

  /** The `n` of SAMPLES_n. */
  function SampleCountValue(s: SampleCount): nat
  {
    match s
    case SAMPLES_1 => 1
    case SAMPLES_2 => 2
    case SAMPLES_4 => 4
    case SAMPLES_8 => 8
    case SAMPLES_16 => 16
    case SAMPLES_32 => 32
    case SAMPLES_64 => 64
  }

  /** ConvertSampleCountVulkan: SAMPLES_n becomes VK_SAMPLE_COUNT_n_BIT,
      a single bit whose value is n. */
  function ConvertSampleCountVulkan(s: SampleCount): (r: Flags)
    ensures r as int == SampleCountValue(s)
    ensures r != 0 && r & (r - 1) == 0
  {
    match s
    case SAMPLES_1 => 0x01
    case SAMPLES_2 => 0x02
    case SAMPLES_4 => 0x04
    case SAMPLES_8 => 0x08
    case SAMPLES_16 => 0x10
    case SAMPLES_32 => 0x20
    case SAMPLES_64 => 0x40
  }

  /** Different sample counts get different bits. */
  lemma ConvertSampleCountVulkanInjective(s1: SampleCount, s2: SampleCount)
    requires ConvertSampleCountVulkan(s1) == ConvertSampleCountVulkan(s2)
    ensures s1 == s2
  {
  }

  /** One `if (flags & F) result |= U;` step of ConvertTextureFlags. */
  function AddUsage(result: Flags, flags: Flags, f: Flags, u: Flags): Flags
  {
    if flags & f != 0 then result | u else result
  }

  /** ConvertTextureFlags: each of the six texture flags adds its image
      usage bit. The texture flags are numbered like the usage bits, so the
      translation keeps the six low bits and drops the rest. */
  function ConvertTextureFlags(flags: Flags): (r: Flags)
    ensures r == flags & 0x3F
  {
    var r1 := AddUsage(0, flags, TEXTURE_COPY_SRC, VK_IMAGE_USAGE_TRANSFER_SRC_BIT);
    var r2 := AddUsage(r1, flags, TEXTURE_COPY_DST, VK_IMAGE_USAGE_TRANSFER_DST_BIT);
    var r3 := AddUsage(r2, flags, TEXTURE_SAMPLED, VK_IMAGE_USAGE_SAMPLED_BIT);
    var r4 := AddUsage(r3, flags, TEXTURE_STORAGE, VK_IMAGE_USAGE_STORAGE_BIT);
    var r5 := AddUsage(r4, flags, TEXTURE_COLOR_ATTACHMENT, VK_IMAGE_USAGE_COLOR_ATTACHMENT_BIT);
    AddUsage(r5, flags, TEXTURE_DEPTH_STENCIL_ATTACHMENT, VK_IMAGE_USAGE_DEPTH_STENCIL_ATTACHMENT_BIT)
  }

  /** No flag gives no usage, each flag gives its own usage bit, and the
      translation of a union is the union of the translations. */
  lemma ConvertTextureFlagsDistributes(a: Flags, b: Flags)
    ensures ConvertTextureFlags(TEXTURE_FLAGS_NONE) == 0
    ensures ConvertTextureFlags(TEXTURE_COPY_SRC) == VK_IMAGE_USAGE_TRANSFER_SRC_BIT
    ensures ConvertTextureFlags(TEXTURE_COPY_DST) == VK_IMAGE_USAGE_TRANSFER_DST_BIT
    ensures ConvertTextureFlags(TEXTURE_SAMPLED) == VK_IMAGE_USAGE_SAMPLED_BIT
    ensures ConvertTextureFlags(TEXTURE_STORAGE) == VK_IMAGE_USAGE_STORAGE_BIT
    ensures ConvertTextureFlags(TEXTURE_COLOR_ATTACHMENT) == VK_IMAGE_USAGE_COLOR_ATTACHMENT_BIT
    ensures ConvertTextureFlags(TEXTURE_DEPTH_STENCIL_ATTACHMENT)
            == VK_IMAGE_USAGE_DEPTH_STENCIL_ATTACHMENT_BIT
    ensures ConvertTextureFlags(FlagOr(a, b)) == FlagOr(ConvertTextureFlags(a), ConvertTextureFlags(b))
  {
  }

  /** The shape the constructor asserts: a cube has depth 1 and whole
      groups of six layers, a 3D texture has one layer. */
  predicate CubeShapeOk(info: TextureInfo)
  {
    info.textureType == TEXTURE_CUBE ==> info.depth == 1 && info.layers % 6 == 0
  }

  predicate VolumeShapeOk(info: TextureInfo)
  {
    info.textureType == TEXTURE_3D ==> info.layers == 1
  }

  function Max3(a: U32, b: U32, c: U32): (m: U32)
    ensures m >= a && m >= b && m >= c && (m == a || m == b || m == c)
  {
    if a >= b && a >= c then a else if b >= c then b else c
  }

  /** The create info of a texture that passes the shape and format
      checks: every field as the constructor fills it in. */
  function ImageCreateInfoOf(info: TextureInfo): (ci: ImageCreateInfo)
    requires ConvertFormatVulkan(info.textureFormat).Ok?
    ensures ci.format == info.textureFormat as int
    ensures info.mips == ALL_MIPS ==> 1 <= ci.mipLevels <= 32
    ensures info.mips != ALL_MIPS ==> ci.mipLevels == info.mips
  {
    MipLevelsOfU32(Max3(info.width, info.height, info.depth));
    ImageCreateInfo(
      GetImageCreateFlags(info), info.width, info.height, info.depth, info.layers,
      ConvertSampleCountVulkan(info.samples), ConvertFormatVulkan(info.textureFormat).value,
      ConvertTextureTypeVulkan(info.textureType),
      if info.mips == ALL_MIPS then MipLevels(Max3(info.width, info.height, info.depth)) else info.mips,
      VK_IMAGE_LAYOUT_UNDEFINED, VK_IMAGE_TILING_OPTIMAL, VK_SHARING_MODE_EXCLUSIVE,
      ConvertTextureFlags(info.flags))
  }

  /** The constructor up to the vmaCreateImage call: the two shape
      assertions, then the create info, with the format translation
      asserting on an undeclared format. The mip count is the full chain of
      the largest dimension when ALL_MIPS is asked for. */
  method BuildImageCreateInfo(info: TextureInfo) returns (r: Result<ImageCreateInfo>)
    ensures r.Fail? <==> !CubeShapeOk(info) || !VolumeShapeOk(info)
                         || ConvertFormatVulkan(info.textureFormat).Fail?
    ensures !CubeShapeOk(info) ==> r == Fail(CUBE_SHAPE)
    ensures CubeShapeOk(info) && !VolumeShapeOk(info) ==> r == Fail(VOLUME_LAYERS)
    ensures r.Fail? && CubeShapeOk(info) && VolumeShapeOk(info) ==> r.message == "invalid format"
    ensures r.Ok? ==> && r.value.flags == GetImageCreateFlags(info)
                      && r.value.width == info.width && r.value.height == info.height
                      && r.value.depth == info.depth && r.value.arrayLayers == info.layers
                      && r.value.samples == ConvertSampleCountVulkan(info.samples)
                      && r.value.format == info.textureFormat as int
                      && r.value.imageType == ConvertTextureTypeVulkan(info.textureType)
                      && r.value.usage == ConvertTextureFlags(info.flags)
                      && r.value.initialLayout == VK_IMAGE_LAYOUT_UNDEFINED
                      && r.value.tiling == VK_IMAGE_TILING_OPTIMAL
                      && r.value.sharingMode == VK_SHARING_MODE_EXCLUSIVE
    ensures r.Ok? && info.mips == ALL_MIPS ==>
              && r.value.mipLevels == MipLevels(Max3(info.width, info.height, info.depth))
              && 1 <= r.value.mipLevels <= 32
    ensures r.Ok? && info.mips != ALL_MIPS ==> r.value.mipLevels == info.mips
    ensures r.Ok? ==> r.value == ImageCreateInfoOf(info)
  {
    if info.textureType == TEXTURE_CUBE && !(info.depth == 1 && info.layers % 6 == 0) {
      return Fail(CUBE_SHAPE);
    }
    if info.textureType == TEXTURE_3D && info.layers != 1 {
      return Fail(VOLUME_LAYERS);
    }
    var format := ConvertFormatVulkan(info.textureFormat);
    if format.Fail? {
      return Fail(format.message);
    }
    var mipLevels: nat := info.mips;
    if info.mips == ALL_MIPS {
      mipLevels := GetMipLevelCount(Max3(info.width, info.height, info.depth));
    }
    r := Ok(ImageCreateInfo(
      GetImageCreateFlags(info), info.width, info.height, info.depth, info.layers,
      ConvertSampleCountVulkan(info.samples), format.value, ConvertTextureTypeVulkan(info.textureType),
      mipLevels, VK_IMAGE_LAYOUT_UNDEFINED, VK_IMAGE_TILING_OPTIMAL, VK_SHARING_MODE_EXCLUSIVE,
      ConvertTextureFlags(info.flags)));
  }

  class VulkanTexture {
    var info: TextureInfo
    var image: Handle
    var allocation: Handle
    /** The create info the image was made from. */
    ghost var imageCreateInfo: ImageCreateInfo

    /** The constructor: the image is created from the create info built
        above, then the description is stored. */
    static method Create(info: TextureInfo, image: LiveHandle, allocation: LiveHandle)
      returns (r: Result<VulkanTexture>)
      ensures r.Fail? <==> !CubeShapeOk(info) || !VolumeShapeOk(info)
                           || ConvertFormatVulkan(info.textureFormat).Fail?
      ensures r.Ok? ==> fresh(r.value) && r.value.GetInfo() == info && r.value.GetHandle() == image
                        && r.value.allocation == allocation
      ensures r.Ok? ==> r.value.imageCreateInfo.flags == GetImageCreateFlags(info)
                        && r.value.imageCreateInfo.usage == ConvertTextureFlags(info.flags)
      ensures r.Ok? ==> r.value.imageCreateInfo == ImageCreateInfoOf(info)
    {
      var createInfo := BuildImageCreateInfo(info);
      if createInfo.Fail? {
        return Fail(createInfo.message);
      }
      var t := new VulkanTexture.WithImage(info, image, allocation, createInfo.value);
      r := Ok(t);
    }

    constructor WithImage(info: TextureInfo, image: Handle, allocation: Handle,
                          ghost createInfo: ImageCreateInfo)
      ensures this.info == info && this.image == image && this.allocation == allocation
      ensures imageCreateInfo == createInfo
    {
      this.info := info;
      this.image := image;
      this.allocation := allocation;
      imageCreateInfo := createInfo;
    }

    function GetInfo(): TextureInfo
      reads this`info
    {
      info
    }

    function GetHandle(): Handle
      reads this`image
    {
      image
    }
  }
}

=== FILE: wrappers.dfy ===
/** Failure-carrying results shared by every module of the model.

    The facade has no recoverable error path: every check is a fatal
    assertion. The model turns each such assertion into a `Fail` carrying the
    assertion's message, so that the failing inputs are part of the contract
    instead of being excluded by a precondition. */
module Wrappers {

  datatype Option<+T> = None | Some(value: T)

  datatype Result<+T> = Ok(value: T) | Fail(message: string) {
    predicate IsFailure() { Fail? }

    function PropagateFailure<U>(): Result<U>
      requires Fail?
    {
      Fail(message)
    }

    function Extract(): T
      requires Ok?
    {
      value
    }
  }
}
